=== FILE: README.md ===
# Gimle bootstrap and configuration core in Dafny

Gimle is a PHP framework. A request starts in its bootstrap. `init.php` (or
the older `parseconfig.php` / `Config::parse()` route of the `gimle\core`
namespace) does the following:

- reads up to three configuration files: the core `config.ini`, the site
  `config.php` and the site `config.ini`;
- merges them with a recursive, key-preserving merge;
- removes the keys it consumes;
- defines the run-time constants `ENV_LEVEL`, `FROM_ADMIN_IP`, `TEMP_DIR`,
  `CACHE_DIR`, `BASE_PATH`, `BASE_PATH_LIVE`, `BASE_PATH_KEY`, `BASE_<KEY>`,
  `THIS_PATH` and `THIS_PATH_LIVE`;
- prepares the autoloader's search path.

The project models that core and the helpers it rests on:

- the three copies of `array_merge_recursive_distinct` and
  `ArrayUtils::mergeRecursiveDistinct`;
- the dotted-key nesting;
- the typed `.ini` line parser in both of its variants;
- IPv4 range matching (dotted-quad addresses as in section 3.2 of RFC 791,
  prefix notation as in section 3.1 of RFC 4632);
- `string_to_bytes` and `page()`;
- the `Server` and `System` classes;
- the multibyte helpers of `lib/functions.php`;
- the first/last selectors of `ArrayUtils`.

## How it is modelled

PHP values and arrays. A PHP value is the datatype `PhpValues.Value`. An
array is an ordered `seq<Entry>` of key/value pairs with string keys.
`Lookup`, `Assign` and `Unset` give it PHP's read, write-in-place and remove
behaviour, and an assignment to an existing key keeps that key's position.

Constants. The constants defined so far are a `map<string, Value>`.
`Constants.Define` is PHP's `define`: a constant that already exists keeps
its value.

Pure code and loops. Code that is pure in the source is functions and
lemmas. Each loop of the source is a method proved equal to a specification
function, and that function's properties are stated as lemmas. This covers:

- the merge, the `.ini` parser and the address-range scans;
- the base-path `foreach` loops;
- the `while` that pads a CIDR base;
- the autoload search.

Classes. The static state of `Server::$_page` and `System::$autoloadPrependPaths`
is a field of the classes `ServerCore.Server` and `SystemCore.System`.

Scripts as steps. The script-level bootstrap (`init.php`, `parseconfig.php`,
`Config::parse`) is a sequence of step functions over an `Outcome`, which
holds the configuration array and the constants. Each step has a method that
performs it and is proved equal to it.

The copies are kept apart, because they differ:

- `init.php` reads `.ini` integers in the `Bootstrap` dialect: signed
  decimal, leading-zero octal, `0x` hex and `0b` binary. `gimle\core`
  reads only all-digit values, in the `Core` dialect.
- `init.php` compares an exact address with `===`; `gimle\core` compares it
  with `==`.
- `init.php` merges the configuration files with the reposition flag set.
- The BASE_PATH loop of `init.php` defines `BASE_<KEY>` for every entry and
  does not stop at a match. The loops of `config.php` and `parseconfig.php`
  stop at the first entry that decides.
- `init.php` sets `ENV_LEVEL` from `env_level` together with the CLI/web bit,
  and defines the path constants only on the web.

`config.php` and `parseconfig.php` first build the origin with the port and
then overwrite the scheme part, but they keep the `$port` they computed. The
origin is therefore the same as in `init.php`, and one `BasePath.Origin`
serves all three.

Inputs. These are parameters of the model:

- the request variables (`$_SERVER`);
- the contents of the configuration files;
- the core and site directories, the system temp directory and the
  directory separator;
- whether PHP runs on the CLI;
- `preg_match`, the per-character `mb_strtoupper` and `file_exists`.

## Model

| member | source | states |
|---|---|---|
| `PhpValues.Assign` | init.php:358 | `$a[$k] = $v` stores `v` under `k`, keeps an existing key in its place or appends a new one, and leaves every other key's value alone |
| `PhpValues.Unset` | init.php:396-398 | `unset($a[$k])` removes exactly `k`, keeping the order of the remaining keys and their values |
| `PhpValues.IntegerNumericValue` | lib/gimle/core/functions.php:137 | an integer string (white space, a sign, digits) is a numeric string worth the integer `(int)` reads from it |
| `PhpValues.IntegerStringsCompareAsInts` | lib/gimle/core/functions.php:137 | two integer strings are `==` exactly when their integer values are equal |
| `PhpValues.PointNumeric` | lib/gimle/core/functions.php:137 | digits, a `.` and digits form a numeric string worth the digits without the point, scaled down by the number of digits after it |
| `PhpValues.ExponentNumeric` | lib/gimle/core/functions.php:137 | digits, `e` and digits form a numeric string worth the first digits times ten to the second |
| `PhpValues.DecimalForms` | lib/gimle/core/functions.php:137 | `"1.0" == "1"` and `"1e1" == "10"` hold, while `"1.5" == "1"` and `"1e1" == "1"` do not |
| `PhpValues.NotNumericTwoDots` | lib/gimle/core/functions.php:137 | no numeric string holds two `.` |
| `PhpValues.LooseEqualsTwoDots` | lib/gimle/core/functions.php:137 | loose `==` with a string holding two or more `.`, such as any dotted quad, is plain text equality |
| `Constants.Define` | init.php:579 | `define` of a name that exists keeps the old value, of a new name adds it; no other constant changes |
| `Merge.MergeTwoOther` | init.php:129-143 | a key absent from the later array keeps the value it had in the earlier one |
| `Merge.MergeEntrySelf` | init.php:132-140 | one merged pair: array onto array recurses; anything else replaces |
| `Merge.MergeLookup` | init.php:129-143 | a key's value after merging is the later scalar, or the earlier and later arrays merged recursively, or the later array replacing a non-array or absent value, or the earlier value when the later array lacks the key |
| `Merge.MergeKeys` | init.php:129-143 | the merged keys are exactly the union of both arrays' keys |
| `Merge.MergeUnique` | init.php:129-143 | merging never duplicates a key |
| `Merge.MergeKeyOrder` | init.php:121-139 | with the reposition flag, every overwritten scalar key leaves its place and goes to the end in the later array's order; other keys keep their order and new keys follow |
| `Merge.MergeKeyOrderInPlace` | lib/gimle/core/functions.php:15-33 | without the flag, the earlier keys keep their positions and only the new keys are appended, in the later array's order |
| `Merge.MergeAllEmpty` | lib/functions.php:76 | merging only empty later arrays returns the first array unchanged |
| `Merge.MergeAgreeing` | lib/gimle/core/functions.php:20-28 | merging an array whose every pair is already present changes nothing |
| `Merge.MergeSelf` | lib/gimle/core/functions.php:15-33 | merging an array with itself gives it back (idempotence) |
| `Merge.MergeInto` | init.php:129-143 | the nested `foreach`, assigning and unsetting in place, computes the merge function |
| `Merge.MergeRecursiveDistinct` | init.php:127-145 | the loop over the later arguments folds them into the first in order |
| `Nesting.StringToNested` | init.php:156-164 | a key without the separator gives the single pair `key => value`; any key gives a one-entry array |
| `Nesting.NestedPath` | init.php:156-164 | the nested array has one level per separator-delimited segment of the key |
| `Nesting.NestedDig` | init.php:156-164 | following the key's segments into the nested array reaches the value innermost |
| `Nesting.MergeNestDig` | init.php:361 | merging a nested one-entry array into any array makes the value readable at its path |
| `Init.PageSegments` | init.php:93-99 | the segments are those of PATH_INFO when set, else those of REQUEST_URI when set, else none |
| `Init.Page` | init.php:93-107 | `page()` gives all segments; `page(n)` gives segment `n`, or false exactly when there is none |
| `Init.PageAgainstCore` | init.php:93-107 | this `page()` agrees with the `gimle\core` one whenever PATH_INFO is set, and differs only by the REQUEST_URI fallback |
| `Init.ArrayMergeRecursiveDistinct` | init.php:118-146 | the variadic merge with an optional trailing flag computes the fold of the array arguments |
| `Init.TrailingFlag` | init.php:119-126 | a trailing `false` is dropped and means the same as no flag; a trailing `true` turns repositioning on |
| `Init.MergeOne` | init.php:384-389 | merging one configuration file with the flag `true` is the two-array merge with repositioning |
| `Init.MergeFiles` | init.php:381-390 | the configuration is core `config.ini` (unless the core is the site), then site `config.php`, then site `config.ini`, later files winning and empty or missing files skipped |
| `Init.WithPathInfo` | init.php:392-394 | PATH_INFO becomes `""` exactly when it was unset and `path_info_override` is unset or `true`; nothing else in `$_SERVER` changes |
| `Init.SetPathInfo` | init.php:392-394 | the assignment to `$_SERVER` computes WithPathInfo |
| `Init.RequestUriFallback` | init.php:392-394 | with the override in force, REQUEST_URI is never consulted: an unset PATH_INFO gives no segments |
| `Init.Consumed` | init.php:396-413 | `core`, `timezone` and `encoding` are gone and every other key keeps its value |
| `Init.Consume` | init.php:396-413 | the `unset` steps compute Consumed |
| `Init.LevelHasSapi` | init.php:415-456 | ENV_LEVEL always has the CLI or web bit for the SAPI, and every bit of `env_level` or of the SAPI preset |
| `Init.DefaultLevel` | init.php:415-456 | without `env_level`, ENV_LEVEL is 48 (live, CLI) on the CLI and 80 (live, web) otherwise, and never has the other SAPI's bit |
| `Init.LevelStep` | init.php:415-457 | `env_level` is consumed and ENV_LEVEL is defined as its value OR the SAPI bit; other keys are unchanged |
| `Init.DefineLevel` | init.php:415-457 | the step as written computes LevelStep |
| `Init.AdminStep` | init.php:459-478 | FROM_ADMIN_IP is defined as whether `admin.ips` and REMOTE_ADDR are set and some value of `admin.ips` matches REMOTE_ADDR under `===`, each value taken as it is (an array matches nothing, see Findings); the configuration is unchanged |
| `Init.Prepare` | init.php:396-534 | the steps up to TEMP_DIR compute Prepared |
| `Init.PreparedConfig` | init.php:396-534 | after preparation `core`, `timezone`, `encoding` and `env_level` are unset, and every key other than those and `temp` keeps its value |
| `Init.PreparedConsts` | init.php:415-457 | constants defined before are kept, ENV_LEVEL is always defined, and a fresh ENV_LEVEL is the computed level |
| `Init.PreparedAdmin` | init.php:459-478 | a fresh FROM_ADMIN_IP is the strict range test on the values of `admin.ips` in the merged configuration |
| `Init.PreparedWeb` | init.php:415-456 | the web branch runs exactly when the level has the web bit: always on the web, never on the CLI without `env_level` |
| `Init.PreparedNames` | init.php:415-534 | preparation defines no constant other than ENV_LEVEL, FROM_ADMIN_IP and TEMP_DIR |
| `Init.BaseStep` | init.php:536-645 | on the web, with BASE_PATH undefined, BASE_PATH and BASE_PATH_LIVE become defined; only `BASE_`-named constants are added; off the web nothing happens |
| `Init.DefineBase` | init.php:626-642 | BASE_PATH and BASE_PATH_LIVE are defined, the live base falling back to BASE_PATH; nothing else is added or changed |
| `Init.BasePick` | init.php:541-596 | the base loop keeps every constant and adds only `BASE_`-named ones |
| `Init.DefineBasePaths` | init.php:536-645 | the block as written computes BaseStep |
| `Init.ThisStep` | init.php:647-667 | on the web, with THIS_PATH undefined, THIS_PATH is BASE_PATH and THIS_PATH_LIVE is BASE_PATH_LIVE, each followed by the page string; off the web nothing happens |
| `Init.DefineThisPaths` | init.php:647-667 | the block as written computes ThisStep |
| `Init.Steps` | init.php:396-667 | the whole sequence of steps after the merge computes Finished |
| `Init.Boot` | init.php:381-667 | merging, the PATH_INFO override and the steps together compute the booted configuration, constants and request variables |
| `Init.PathsOnlyOnWeb` | init.php:536-667 | on the web all four path constants end up defined; on the CLI without `env_level` the path steps change nothing |
| `Init.WebSteps` | init.php:536-667 | on the web the two path steps always leave BASE_PATH, BASE_PATH_LIVE, THIS_PATH and THIS_PATH_LIVE defined |
| `Init.ScalarBase` | init.php:536-540 | a string `base` is BASE_PATH and BASE_PATH_LIVE, and THIS_PATH(_LIVE) is it followed by the page string |
| `Init.FirstMatchBase` | init.php:563-642 | the first array entry with a `path` whose `start` or `regex` matches the computed base gives BASE_PATH, its `live` or else its path gives BASE_PATH_LIVE, and its key gives BASE_PATH_KEY |
| `EnvLevels.Or64` | init.php:417 | `|` on PHP's 64-bit integers is bitwise or on their two's-complement bits |
| `EnvLevels.BitOrBit` | init.php:417 | a bit of `x | y` is set exactly when it is set in `x` or in `y` |
| `EnvLevels.OrSetsBits` | init.php:417 | the same for the signed 64-bit values |
| `EnvLevels.LevelBits` | init.php:53-58 | ENV_CLI and ENV_WEB are single, distinct bits |
| `EnvLevels.DefaultLevels` | init.php:415-455 | ENV_LIVE with ENV_WEB is 80, with ENV_CLI 48, each carrying only its own SAPI bit |
| `Ipv4.IpLong` | init.php:186-188 | an address `ip2long` rejects counts as 0 under `&` and `%u`; every value is below 2^32 |
| `Ipv4.Ip2LongOfLongText` | init.php:200-201 | every 32-bit number written as a dotted quad parses back to itself |
| `Ipv4.LongTextOfIp2Long` | init.php:200-201 | every address `ip2long` accepts is the canonical dotted quad of its value |
| `Ipv4.Ip2LongOfParts` | init.php:198-200 | four dot-free parts joined by dots parse exactly when each is an octet, to the four octets combined |
| `Ipv4.Ip2LongInjective` | init.php:221-223 | two accepted addresses with the same value are the same text |
| `Ipv4.PrefixMaskAgree` | init.php:203-206 | clearing the low `32 - n` bits gives equal results exactly when the top `n` bits agree |
| `Ipv4.PrefixMaskMeaning` | init.php:203-207 | with PHP's 64-bit `pow` and `~`, a prefix length of -31 or less, or of 32 to 85, compares whole addresses; one of -30 to 0, or of 86 or more, matches everything; every length falls in one of these cases or is a true prefix of 1 to 31 |
| `IpRange.Padded` | init.php:194-197 | the parts are kept and `"0"` parts are appended up to four |
| `IpRange.PadParts` | init.php:194-197 | the `while` loop computes Padded |
| `IpRange.IpInRange` | init.php:181-233 | the method follows the source's branches on any range value: a scalar goes through its text, and the single-address test compares the value itself; an array matches nothing (see Findings) |
| `IpRange.SlashRange` | init.php:182-210 | the `/` branch: a dotted netmask compares masked values, otherwise CIDR |
| `IpRange.PlainRange` | init.php:212-231 | the branch without `/`: a wildcard or span is an inclusive interval, otherwise the address compared with the range value by `===` or `==` |
| `IpRange.CidrRangeValue` | init.php:198-200 | the `%u` re-rendered base parses to the padded base value |
| `IpRange.CidrMatchMeaning` | init.php:193-209 | CIDR matches exactly when the address and the padded base agree under the mask of the prefix length `32 - $netmask` reads from the netmask |
| `IpRange.PrefixLengthOfDigits` | init.php:203 | a netmask of digits is the prefix length it spells |
| `IpRange.PrefixLengthOfExponent` | init.php:203 | a netmask `aex` is read as the number `a × 10 ** x`, so `/2e1` is `/20` |
| `IpRange.CidrMeaning` | init.php:182-210 | `a.b.c.d/n` with `0 < n < 32` matches exactly when the top `n` bits agree; `n <= -31` and `32 <= n <= 85` need the whole address equal; any other `n` matches every address |
| `IpRange.WildcardMeaning` | init.php:213-226 | `*` stands for `0` at the low end and `255` at the high end of an inclusive interval |
| `IpRange.SpanInclusive` | init.php:219-226 | `lo-hi` matches exactly the addresses between the two, both ends included |
| `IpRange.ExactMeaning` | init.php:228-230 | a plain range matches only the identical text under `===`; under `==` a non-numeric address also needs the identical text, and a numeric address matches a numeric range exactly when both denote the same number |
| `IpRange.CopiesAgree` | lib/gimle/core/functions.php:137-139 | the two copies of `ip_in_range` agree on every address with at least two `.`, so on every dotted quad |
| `IpRange.CopiesDiffer` | lib/gimle/core/functions.php:137-139 | they differ on the undotted pair `"10"` and `"010"`, which `==` equates and `===` does not |
| `IpRange.CopiesDifferOnDecimal` | lib/gimle/core/functions.php:137-139 | they also differ on the address `"1.0"` against the range `"1"`, which `==` equates as numbers and `===` does not |
| `IpRange.ArrayEntryAdmitsAll` | init.php:182-209 | as written, an array given as a range takes the `/` branch as `0.0.0.0/0` and matches every address |
| `IpRange.EntryMeaning` | init.php:181-233 | one value of a range list: an array matches nothing, a string as `Matches`; `true`, `false`, `null` and a non-negative integer match nothing under `===`, and under `==` match the addresses equal to them (`true` every address but `""` and `"0"`) |
| `IpRange.InSomeRangeExists` | init.php:264-273 | `ip_in_ranges` holds exactly when some range matches, so it is false for no ranges |
| `IpRange.SomeInRangeExists` | init.php:244-253 | `ips_in_range` holds exactly when some address matches, so it is false for no addresses |
| `IpRange.IpInRanges` | init.php:264-273 | the scan computes InSomeRange |
| `IpRange.IpsInRange` | init.php:244-253 | the scan computes SomeInRange |
| `IniValues.Unquote` | init.php:305-306 | the quotes are stripped from a quoted value |
| `IniValues.UnescapeEscape` | init.php:306 | the `\"` and `\\` unescaping undoes escaping backslashes and quotes |
| `IniValues.QuotedRoundTrip` | init.php:305-306 | any string, escaped and quoted, is read back as itself in both dialects |
| `IniValues.BaseDecText` | init.php:315-346 | `octdec`/`hexdec`/`bindec` read back every number written in their base |
| `IniValues.SignedBranch` | init.php:308-325 | optionally signed digits are always an integer in the bootstrap dialect |
| `IniValues.DecimalRoundTrip` | init.php:308-323 | every integer written in decimal is read back as itself |
| `IniValues.OctalRoundTrip` | init.php:313-320 | a leading `0` means octal, and a leading `-0` negates it |
| `IniValues.RadixBranches` | init.php:335-346 | `0x`/`-0x` are read as hex and `0b`/`-0b` as binary, in that order |
| `IniValues.HexRoundTrip` | init.php:335-340 | every number written as `0x…` or `-0x…` is read back, with its sign |
| `IniValues.BinaryRoundTrip` | init.php:341-346 | every number written as `0b…` or `-0b…` is read back, with its sign |
| `IniValues.LeadingZeroBootstrap` | init.php:313-319 | `010` is 8 in the bootstrap dialect |
| `IniValues.CoreDigitsBranch` | lib/gimle/core/functions.php:213-215 | an all-digit value is a decimal integer in the core dialect |
| `IniValues.CoreDecimalRoundTrip` | lib/gimle/core/functions.php:213-215 | every natural number written in decimal is read back by the core dialect |
| `IniValues.LeadingZeroCore` | lib/gimle/core/functions.php:213-215 | `010` is 10 in the core dialect |
| `IniValues.CoreLateBranches` | lib/gimle/core/functions.php:225-233 | a value that is no quote, digits or keyword is a float if it reads as one, else a defined constant, else unknown |
| `IniValues.CoreNegativeIsFloat` | lib/gimle/core/functions.php:213-226 | `-5` reaches the float branch in the core dialect, while the bootstrap dialect reads the integer -5 |
| `IniValues.CoreHexUnknown` | lib/gimle/core/functions.php:213-233 | `0x1A` is no number in the core dialect: only a constant of that name gives it a value |
| `Ini.ListedLines` | init.php:290-295 | as written: the `i`-th non-empty line is numbered `i + 1` |
| `Ini.PhysicalLinesNumbered` | init.php:290-354 | corrected: each listed line carries its own line number in the file |
| `Ini.ListedLinesMisnumber` | init.php:354 | for the file `"\na = x"` the warning would name line 1 instead of line 2 |
| `Ini.SectionName` | init.php:366 | a section header loses its first and last character |
| `Ini.ParseIni` | init.php:294-369 | the line loop, with its `$return`, `$lastkey` and warnings, computes the parse function |
| `Ini.ParseLine` | init.php:296-367 | one pass of the loop body computes one parse step |
| `Ini.ParseLinesNext` | init.php:295-368 | parsing one line more is one more step from the state so far |
| `Ini.CommentsIgnored` | init.php:296-298 | dropping the `;` lines does not change the outcome |
| `Ini.KeyLineStores` | init.php:356-363 | a non-null scalar is stored under its key at top level, or under the section's dotted path |
| `Ini.StepFrame` | init.php:299-367 | the configuration changes only for a known non-null value, a warning is added only for an unknown value, and the section changes only for a header |
| `Bootstrap.ParseConfigFileFalse` | lib/gimle/core/functions.php:189-257 | false for a missing file; a `.php` file yields an array exactly when it leaves an array in `$config` |
| `Bootstrap.LaterFileWins` | parseconfig.php:1-10 | a scalar in the site `config.ini` wins; a scalar in `config.php` wins unless the ini file sets the key; a key in neither keeps the core value |
| `Bootstrap.Admitted` | lib/gimle/core/config.php:27-46 | `core` and `timezone` are removed, an undefined ENV_LEVEL becomes ENV_LIVE, FROM_ADMIN_IP is the loose range test on the values of `admin.ips`, and no other constant changes |
| `Bootstrap.FromAdminMeaning` | lib/gimle/core/config.php:41-45 | FROM_ADMIN_IP holds exactly when `admin.ips` is an array and REMOTE_ADDR is set and matched by one of its values |
| `Bootstrap.TempStep` | lib/gimle/core/config.php:48-56 | a fresh TEMP_DIR is `temp`, which is then removed, or else the system temp directory with one trailing separator |
| `Bootstrap.CacheStep` | lib/gimle/core/config.php:58-66 | a fresh CACHE_DIR is `cache.path`, which is then removed with the rest of `cache` kept, or else TEMP_DIR |
| `Bootstrap.BaseStep` | lib/gimle/core/config.php:68-125 | an undefined BASE_PATH and BASE_PATH_LIVE become the breaking loop's choice; the configuration is unchanged |
| `Bootstrap.Settle` | parseconfig.php:12-110 | the script's steps up to the base paths compute Settled |
| `Bootstrap.Admit` | parseconfig.php:12-31 | the first steps compute Admitted |
| `Bootstrap.SetTempDir` | parseconfig.php:33-41 | the TEMP_DIR block computes TempStep |
| `Bootstrap.SetCacheDir` | parseconfig.php:43-51 | the CACHE_DIR block computes CacheStep |
| `Bootstrap.SetBasePaths` | parseconfig.php:53-110 | the BASE_PATH block computes BaseStep |
| `Bootstrap.PreparedDropsCore` | parseconfig.php:12-19 | `core` and `timezone` are always gone |
| `Bootstrap.PreparedTempKey` | parseconfig.php:33-41 | `temp` is removed only when it defined TEMP_DIR |
| `Bootstrap.PreparedOtherKeys` | parseconfig.php:12-51 | keys other than `core`, `timezone`, `temp` and `cache` keep their values |
| `Bootstrap.PreparedCache` | parseconfig.php:43-51 | `cache.path` is removed only when it defined CACHE_DIR, the rest of `cache` stays |
| `Bootstrap.PreparedLevels` | parseconfig.php:21-31 | ENV_LEVEL defaults to ENV_LIVE; FROM_ADMIN_IP is whether REMOTE_ADDR is matched by some value of `admin.ips`, each value taken as it is |
| `Bootstrap.PreparedTemp` | parseconfig.php:33-41 | TEMP_DIR is `temp` when set, else the system temp directory |
| `Bootstrap.PreparedCacheDir` | parseconfig.php:43-51 | CACHE_DIR is `cache.path` when set, else TEMP_DIR |
| `Bootstrap.PreparedOnlyAdds` | parseconfig.php:21-51 | the steps before the base paths add only ENV_LEVEL, FROM_ADMIN_IP, TEMP_DIR and CACHE_DIR |
| `Bootstrap.SettledKeepsConstants` | parseconfig.php:21-110 | constants defined before are never changed |
| `Bootstrap.SettledOnlyAdds` | parseconfig.php:21-110 | no constant is added beyond the six the steps define |
| `Bootstrap.SettledKeepsUndefined` | parseconfig.php:21-110 | a name outside those six stays undefined |
| `Bootstrap.SettledBase` | parseconfig.php:53-110 | undefined base paths become the breaking loop's choice on the merged configuration |
| `Bootstrap.AppendValues` | lib/gimle/core/config.php:130-132 | the `foreach` appends the extension paths in order |
| `Bootstrap.ExtendAutoload` | lib/gimle/core/config.php:127-135 | non-empty `extensions` turn the autoload paths into the old list minus its last element, then the extensions, then CORE_DIR; otherwise the list is unchanged |
| `Bootstrap.ExtensionsBeforeCore` | parseconfig.php:112-120 | from the initial list, SITE_DIR stays first, the extensions follow, and CORE_DIR stays last |
| `Bootstrap.ExtensionLoads` | lib/gimle/core/system.php:38-49 | a class missing from the site is loaded from the first extension that has it |
| `BasePath.HostName` | init.php:554-555 | the host is the Host header cut at its first `:`, and the whole header when it has none |
| `BasePath.DefaultPorts` | init.php:543-552 | the port is left out exactly for https on 443 and http on 80; otherwise it follows a `:` |
| `BasePath.BasenameOfFile` | init.php:559-560 | the basename of a path ending in a file name is that file name |
| `BasePath.ComputedBaseOfScript` | init.php:542-561 | for a script `/dir/file` the computed base is the origin followed by `dir`, the file name stripped |
| `BasePath.ComputedBaseOfRoot` | init.php:558-561 | a script name that is empty or only slashes leaves the bare origin |
| `BasePath.Utf8Length` | init.php:559-560 | `mb_strlen` of UTF-8 text counts at most one character per byte |
| `BasePath.AsWrittenCut` | init.php:558-561 | the cut as written keeps the first `|file| - mb_strlen(file)` bytes of a script's file name after its directory |
| `BasePath.AsWrittenAscii` | init.php:558-561 | for an ASCII file name the cut as written strips the whole name, as `WithScript` does |
| `BasePath.AsWrittenStrayByte` | init.php:558-561 | for the script `/ø.php` the cut as written leaves the byte `C3` after the origin, where `WithScript` leaves the bare origin |
| `BasePath.FirstChoiceAt` | lib/gimle/core/config.php:95-116 | the first entry that decides fixes the outcome; entries without `path`, or that miss, are skipped |
| `BasePath.FirstChoiceNone` | lib/gimle/core/config.php:95-116 | when no entry decides, the computed base stays and no live base is chosen |
| `BasePath.SelectFirst` | lib/gimle/core/config.php:95-116 | the `foreach` with `break` computes the first-choice function |
| `BasePath.ScalarBase` | lib/gimle/core/config.php:69-72 | a non-array `base` is BASE_PATH and BASE_PATH_LIVE |
| `BasePath.BreakingFirstMatch` | lib/gimle/core/config.php:95-123 | the first array entry with a matching `path` gives BASE_PATH, and its `live`, or else BASE_PATH, gives BASE_PATH_LIVE |
| `BasePath.SelectInit` | init.php:563-596 | the non-breaking `foreach` computes the init choice function |
| `BasePath.InitMisses` | init.php:579-593 | before any match only `BASE_<KEY>` constants are added, the first `define` of each name winning |
| `BasePath.InitMatchSticks` | init.php:580-593 | once BASE_PATH_KEY is defined, later array entries change neither the base, the live base nor the key |
| `BasePath.InitFirstMatch` | init.php:563-596 | the first array entry with a matching `path` sets the base, the live base and BASE_PATH_KEY |
| `BasePath.InitChoiceAdds` | init.php:563-596 | the loop keeps every constant and adds only the entries' `BASE_<KEY>` names and BASE_PATH_KEY |
| `BasePath.InitChoiceNames` | init.php:579-591 | every name the loop adds starts with `BASE_` |
| `Config.ParseIniFile` | lib/gimle/core/config.php:150-163 | false for a missing file and for an empty configuration; otherwise the file's configuration |
| `Config.Parse` | lib/gimle/core/config.php:16-142 | the stored configuration, the autoload paths, the page segments and the constants are those of the step functions applied to the three merged files |
| `Config.ThisPathFromBase` | lib/gimle/core/server.php:23-32 | with only the base paths defined, initialising the server makes THIS_PATH(_LIVE) the base followed by the page string |
| `Config.ScalarBasePaths` | lib/gimle/core/config.php:68-139 | a string `base` flows into BASE_PATH(_LIVE) and, through the server, into THIS_PATH(_LIVE) |
| `Config.SettledScalarBase` | lib/gimle/core/config.php:68-72 | a string `base` is BASE_PATH and BASE_PATH_LIVE after the steps |
| `ParseConfig.ThisPaths` | parseconfig.php:124-129 | an undefined THIS_PATH becomes BASE_PATH plus the page string, THIS_PATH_LIVE likewise from BASE_PATH_LIVE; nothing else changes |
| `ParseConfig.ThisPathsAsServer` | parseconfig.php:124-129 | the script's THIS_PATH block defines the same constants as `Server::initialize` |
| `ParseConfig.DefineThisPaths` | parseconfig.php:124-129 | the block as written computes ThisPaths |
| `ParseConfig.Run` | parseconfig.php:1-129 | the configuration, constants and autoload paths are those of the step functions applied to the three merged files |
| `Paths.Segments` | init.php:95-96 | no segments exactly when the path is only slashes; otherwise they join back into the trimmed path and none holds a `/` |
| `Paths.PageString` | init.php:649 | empty exactly for no segments, otherwise ending in `/` |
| `Paths.PageStringOfSegments` | init.php:648-649 | the page string of a path is the trimmed path with a `/`, or empty |
| `Paths.SegmentsOfPageString` | lib/gimle/core/server.php:60-63 | well-formed segments survive a round trip through the page string |
| `Paths.SegmentsWellFormed` | lib/gimle/core/server.php:25-27 | segments from a trimmed path have non-empty ends and no `/` |
| `Paths.PathInfoPageString` | lib/gimle/core/server.php:25-30 | the page string of the PATH_INFO segments is the trimmed PATH_INFO with a `/`, or empty |
| `CoreFunctions.ArrayMergeRecursiveDistinct` | lib/gimle/core/functions.php:15-33 | the merge without the reposition flag |
| `CoreFunctions.StringToBytes` | lib/gimle/core/functions.php:59-72 | the fall-through switch computes the leading integer times 1024³, 1024² or 1024 for `g`, `m` or `k` in either case, and times 1 otherwise |
| `CoreFunctions.SizeBytesOfSuffix` | lib/gimle/core/functions.php:59-72 | a number followed by a suffix letter reads back as that number scaled by the suffix |
| `CoreFunctions.Page` | lib/gimle/core/functions.php:265-277 | `page()` gives the PATH_INFO segments, `page(n)` segment `n` or false |
| `CoreFunctions.PageIgnoresRequestUri` | lib/gimle/core/functions.php:265-277 | REQUEST_URI never matters: without PATH_INFO there are no segments |
| `LibFunctions.MbUcfirst` | lib/functions.php:12-17 | the upper case of the first character followed by the rest unchanged; empty stays empty |
| `LibFunctions.MbUcfirstIdempotent` | lib/functions.php:12-17 | applying it twice is applying it once, when upper-casing is stable |
| `LibFunctions.MbLen` | lib/functions.php:35 | a UTF-8 string has no more characters than bytes |
| `LibFunctions.MbLenAppend` | lib/functions.php:35 | character counts add up under concatenation |
| `LibFunctions.StrPad` | lib/functions.php:36 | no padding when the length is not above the input's; false for an empty pad; otherwise exactly the length asked for |
| `LibFunctions.MbStrPadNoPadding` | lib/functions.php:34-37 | a length not above the character count pads nothing |
| `LibFunctions.MbStrPadSingleByte` | lib/functions.php:34-37 | with a one-byte pad character the result has the larger of the two character counts, padded right, left or split with the smaller half left |
| `LibFunctions.ArrayMergeRecursiveDistinct` | lib/functions.php:71-89 | the merge without the flag; only empty later arrays give the first back |
| `ArrayUtils.Selector` | lib/gimle/core/arrayutils.php:22-27 | `'first'` or `1` selects the first end and `'last'` or `-1` the last, compared strictly |
| `ArrayUtils.GetKey` | lib/gimle/core/arrayutils.php:19-30 | false exactly for an empty array or another selector; otherwise the first or last key |
| `ArrayUtils.GetValue` | lib/gimle/core/arrayutils.php:40-54 | false exactly when `getKey` is false; otherwise the value stored under that key |
| `ArrayUtils.FirstIsLast` | lib/gimle/core/arrayutils.php:19-30 | the first and last key coincide exactly for a one-entry array |
| `ArrayUtils.MergeRecursiveDistinct` | lib/gimle/core/arrayutils.php:66-84 | the merge without the flag, whose keys are the union of all arguments' keys |
| `ArrayUtils.MergeAllKeys` | lib/gimle/core/arrayutils.php:66-84 | a key is in the merged array exactly when it is in some argument |
| `ArrayUtils.MergeKeepsFirstKey` | lib/gimle/core/arrayutils.php:66-84 | merging never changes the first key of the first array |
| `ArrayUtils.DotStringKeyToNested` | lib/gimle/core/arrayutils.php:94-102 | a one-entry array keyed by the part before the first dot, holding the value at the dotted path |
| `ServerCore.InitializeOnce` | lib/gimle/core/server.php:23-24 | once THIS_PATH is defined, initialising changes nothing |
| `ServerCore.InitializeDefines` | lib/gimle/core/server.php:23-32 | the segments are PATH_INFO's; THIS_PATH(_LIVE) is BASE_PATH(_LIVE) plus the page string; no other constant changes |
| `ServerCore.Server.constructor` | lib/gimle/core/server.php:16 | the static page starts empty |
| `ServerCore.Server.Initialize` | lib/gimle/core/server.php:23-32 | the new segments and constants are the initialise function of the old ones, and the segments stay well formed |
| `ServerCore.Server.Page` | lib/gimle/core/server.php:40-53 | `page()` gives all segments, `page(n)` segment `n` or false |
| `ServerCore.Server.PageString` | lib/gimle/core/server.php:60-63 | empty exactly for no segments, otherwise ending in `/` and splitting back into the segments |
| `SystemCore.Span` | lib/gimle/core/system.php:75 | the span is the opening tag, the content verbatim, then the closing tag |
| `SystemCore.SpanRoundTrip` | lib/gimle/core/system.php:75 | the content can be read back out of the span |
| `SystemCore.ColorizePalette` | lib/gimle/core/system.php:74-102 | gray, string, int, bool, float, error and recursion give gray, green, red, purple, dodgerblue, deeppink and darkorange spans |
| `SystemCore.ColorizeLightgray` | lib/gimle/core/system.php:85-90 | lightgray is darkgray on black and lightgray otherwise |
| `SystemCore.ColorizeUnknown` | lib/gimle/core/system.php:103-108 | any other colour gives a white span on black and the bare content otherwise |
| `SystemCore.ColorizeKeepsContent` | lib/gimle/core/system.php:74-109 | the result is always the content, either bare or wrapped in one span |
| `SystemCore.CandidateSegments` | lib/gimle/core/system.php:40 | the candidate is prefix, `lib`, the lower-cased name's namespace parts joined by the separator, `.php` |
| `SystemCore.FirstExisting` | lib/gimle/core/system.php:39-48 | the index found is that of an existing candidate with none existing before it; nothing found means none exists |
| `SystemCore.FirstExistingAt` | lib/gimle/core/system.php:39-48 | the first existing candidate is the one found |
| `SystemCore.System.constructor` | lib/gimle/core/system.php:16 | the autoload paths start as SITE_DIR then CORE_DIR |
| `SystemCore.System.Autoload` | lib/gimle/core/system.php:38-49 | the loop with `break` loads the first existing candidate, in path order |
| `SystemCore.SiteBeforeCore` | lib/gimle/core/system.php:38-49 | a class present in the site directory is loaded from there and not from the core |

## Left out

- `lib/gimle/core/debug.php`, `lib/gimle/core/mysql.php` with `System::mysql`, and `lib/specialurls.php` are not part of this model. They consist of output, network and header side effects.
- The favicon block (init.php:682-698) is left out: it only sends headers and a file.
- The inclusion of extension `init.php` files (init.php:673-680) is left out: it runs foreign code.
- These side effects are left out:
  - the `ini_set`/`error_reporting` overrides (init.php:480-509);
  - the `Content-Type` header (init.php:669-671);
  - `date_default_timezone_set` and `mb_internal_encoding`.
  The keys these steps consume are still removed.
- `System::parseIniFile` is not part of this model. `Config.Parse` takes it as the parameter `systemIni`.
- `.php` configuration files are not executed. A file's `$config` is an input.
- Storing the configuration in `Options::$config` (lib/gimle/core/config.php:137, parseconfig.php:122) is modelled as a return value.
- `SITE_DIR`, `SITE_BASENAME` and `CORE_DIR` (init.php:22, 61-83) come from the environment and the script path. They are inputs.
- The `ENV_*` presets are constants with `init.php`'s values. The `gimle\core` route reads `ENV_LIVE` from the constants passed in.
- `get_upload_limit` and `is_binary` are left out: they depend on `ini_get`, temporary files and `exec`.
- `preg_match`, `mb_strtoupper` on one character and `file_exists` are abstract parameters.
- `method_exists`/`initialize` after an autoload `require` is left out, because it runs the loaded class.
- Floating-point values are not modelled. An `.ini` value written as a float is kept as its text (`FloatLit`), and a float `env_level` counts by the leading integer of its text, not by its value: `env_level = 1e3` gives 1000 in PHP and 1 in the model. A float in `admin.ips` is matched through its own text, where PHP renders the float anew (`1.50` as `1.5`).
- `IpRange.PrefixLength`: a netmask without `.` whose value is fractional (`/25e-1`) is read as its integer part, 2. PHP computes `32 - 2.5 = 29.5`, raises 2 to that fractional power and builds a mask that is no prefix.
- `IniValues.CoreLateBranches`: the float test of `IniValues.ReadValue`, in both dialects, checks the text form only. Text whose double is infinite (`1e999`) or rounds a non-zero value to 0 (`1e-999`) is stored as `FloatLit` in the model. PHP's float filter rejects it, so PHP warns that the value is unknown and stores nothing (unless a constant of that name is defined).
- PHP's conversion of numeric-string array keys to integers is not modelled. Keys are strings.
- `CoreFunctions.StringToBytes`: integers are unbounded, so PHP's 64-bit overflow to float for very large sizes is not modelled.
- `IniValues.HexRoundTrip`: `hexdec`, `octdec` and `bindec` return a float beyond the integer range. The model keeps the exact integer.
- `LibFunctions.MbLen`: `mb_strlen` is modelled for UTF-8 only, as the number of bytes that are not continuation bytes. Other encodings are not modelled.
- `Bootstrap.AdminRanges`: a non-array `admin.ips` gives no ranges. PHP would reject it with a type error in the core copy.
- `Init.TrailingFlag`: the source's doc comment says a trailing `false` lets the latest array control the order. The code repositions only on `true`, and the model follows the code.
- `Init.PathsOnlyOnWeb`: assumes a predefined BASE_PATH comes with BASE_PATH_LIVE, and a predefined THIS_PATH with THIS_PATH_LIVE. The source defines each pair together.
- `Init.FirstMatchBase`: assumes no entry's `BASE_<KEY>` name collides with BASE_PATH, BASE_PATH_LIVE or BASE_PATH_KEY. Such a key would define that constant early.
- `Bootstrap.ExtensionLoads`: stated for a class missing from the site directory. Otherwise the site copy wins, as `SystemCore.SiteBeforeCore` states.
- `BasePath.WithScript`: cuts the script's file name by its length, the corrected form of the cut at init.php:560 and lib/gimle/core/config.php:92. The source cuts `mb_strlen` bytes, so for a non-ASCII file name PHP's base keeps stray bytes that the model's does not (see Findings).
- `PhpValues.LooseStringEquals`: numeric strings are compared exactly, as decimals. PHP compares non-integer and overflowing numeric strings as doubles, so two texts that differ only beyond double precision are `==` in PHP and not in the model.
- PHP versions. The coercions follow different PHP versions, and the model does not pick one:
  - `Strings.LeadingInt` and `PhpValues.ToInt` follow PHP 5 to 7.0: `"1e3"` reads as 1 (PHP 7.1 and later read 1000), and a non-numeric `env_level` reads as 0 where PHP 8 throws a `TypeError` on `|` (init.php:417).
  - `PhpValues.IsNumeric` follows PHP 7: trailing white space makes text non-numeric, which PHP 8 accepts.
  - `Constants.ConstText` and `Constants.ConstValue` follow PHP before 8: an undefined constant reads as its own name, where PHP 8 throws an `Error`.
  - `Ini.SectionName` and `BasePath.DropLast` follow PHP 8's `substr`, which gives `""` where PHP 7 gives `false`.
  - `IpRange.EntryMatchesAsWritten`, `IpRange.PrefixLength` and `PhpValues.LooseEquals` follow PHP 7. There `strpos` on an array gives `NULL`, where PHP 8 throws a `TypeError`. A netmask without a leading number counts as 0, where PHP 8 throws a `TypeError`. A string compared with a number counts by its leading number (`"abc" == 0` holds), where PHP 8 compares a non-numeric string as text.
- `IniValues.ReadValue`: integers are unbounded, so the decimal `(int)$line[1]` at init.php:322 does not saturate at the 64-bit limit as PHP 7 and later do.

## Findings

| source | as written | input that shows it | evidently intended | confidence | as-written member | corrected member |
|---|---|---|---|---|---|---|
| init.php:290-354 and lib/gimle/core/functions.php:195-232 | the warning for an unknown value names line `$linenum + 1`, but `file(…, FILE_SKIP_EMPTY_LINES)` has already dropped empty lines and renumbered the rest | the file `"\na = x"` with `x` undefined: the warning names line 1, while the line is line 2 | the line's number in the file | not executed | `Ini.ListedLines`, shown by `Ini.ListedLinesMisnumber` | `Ini.PhysicalLines`, proved by `Ini.PhysicalLinesNumbered`; `Ini.ParseIniFile` uses it |
| init.php:181-209, init.php:459 and lib/gimle/core/config.php:41 | an array inside `admin.ips` reaches `ip_in_range` as `$range`; PHP 7's `strpos` and `explode` give `NULL` for it, `NULL !== false` takes the `/` branch, and the CIDR branch then compares against `0.0.0.0` with prefix length 0 | the section `[admin.ips.office]` with the line `a = "10.0.0.1"`: every client, whatever its address, gets FROM_ADMIN_IP | an array is no range and matches no address (PHP 8 refuses it with a `TypeError`) | not executed | `IpRange.EntryMatchesAsWritten`, shown by `IpRange.ArrayEntryAdmitsAll` | `IpRange.EntryMatches`, proved by `IpRange.EntryMeaning`; `IpRange.IpInRange`, `IpRange.InSomeRange` and `Bootstrap.FromAdmin` use it |
| init.php:558-561 and lib/gimle/core/config.php:90-93 | `substr($base, 0, -mb_strlen(basename($base)))` cuts as many bytes as the basename has characters | the script `/ø.php`, whose `ø` is the UTF-8 bytes `C3 B8`: five bytes are cut from a six-byte name, so the base ends in the stray byte `C3` | the script's directory, the whole file name cut | not executed | `BasePath.WithScriptAsWritten`, shown by `BasePath.AsWrittenStrayByte` (in general `BasePath.AsWrittenCut`) | `BasePath.WithScript`, proved by `BasePath.ComputedBaseOfScript`; `BasePath.ComputedBase` and every base step use it |

=== FILE: array_utils.dfy ===
/**
 * The ArrayUtils class: the first or last key or value of an array, the
 * recursive merge without the reposition flag, and the dotted-key nesting.
 */
module ArrayUtils {
  import opened Optional
  import opened Strings
  import opened PhpValues
  import opened Merge
  import opened Nesting

  /** Which end of the array a `$which` argument asks for. */
  datatype End = FirstEnd | LastEnd | NoEnd

  /** `$which` compared strictly: `'first'` or the integer 1, `'last'` or the integer -1. */
  function Selector(which: Value): (e: End)
    ensures e == FirstEnd <==> which == Str("first") || which == Int(1)
    ensures e == LastEnd <==> which == Str("last") || which == Int(-1)
  {
    if which == Str("first") || which == Int(1) then FirstEnd
    else if which == Str("last") || which == Int(-1) then LastEnd
    else NoEnd
  }

  /** `ArrayUtils::getKey($arr, $which)`; `None` is the result false. */
  function GetKey(arr: seq<Entry>, which: Value): (r: Option<string>)
    ensures r.Some? <==> arr != [] && Selector(which) != NoEnd
    ensures r.Some? ==> r.value in Keys(arr)
    ensures r.Some? && Selector(which) == FirstEnd ==> r.value == Keys(arr)[0]
    ensures r.Some? && Selector(which) == LastEnd ==> r.value == Keys(arr)[|arr| - 1]
  {
    if arr == [] then None
    else
      var keys := Keys(arr);
      match Selector(which)
      case FirstEnd => Some(keys[0])
      case LastEnd => Some(keys[|keys| - 1])
      case NoEnd => None
  }

  /**
   * `ArrayUtils::getValue($arr, $which)`: `reset` or `end` moves the array's
   * internal pointer to the chosen end and `current` reads the value there;
   * `None` is the result false. The value is the one stored under the key
   * `getKey` gives for the same arguments.
   */
  method GetValue(arr: seq<Entry>, which: Value) returns (r: Option<Value>)
    ensures r.Some? <==> GetKey(arr, which).Some?
    ensures r.Some? && UniqueKeys(arr) ==> r == Lookup(arr, GetKey(arr, which).value)
  {
    if arr == [] {
      return None;
    }
    var pointer: nat;
    if which == Str("first") || which == Int(1) {
      pointer := 0;
    } else if which == Str("last") || which == Int(-1) {
      pointer := |arr| - 1;
    } else {
      return None;
    }
    r := Some(arr[pointer].val);
    if UniqueKeys(arr) {
      LookupAt(arr, pointer);
    }
  }

  /** On a non-empty array, the first and the last key are the same exactly when it holds one entry. */
  lemma FirstIsLast(arr: seq<Entry>)
    requires arr != [] && UniqueKeys(arr)
    ensures GetKey(arr, Str("first")) == GetKey(arr, Str("last")) <==> |arr| == 1
  {
    if |arr| > 1 {
      assert Keys(arr)[0] != Keys(arr)[|arr| - 1];
    }
  }

  /**
   * `ArrayUtils::mergeRecursiveDistinct($array1, ...)`: the later arrays
   * folded into the first, keys keeping their position; the keys of the
   * result are those of all the arguments.
   */
  method MergeRecursiveDistinct(first: seq<Entry>, rest: seq<seq<Entry>>) returns (r: seq<Entry>)
    ensures r == MergeAll(first, rest, false)
    ensures forall k :: k in Keys(r) <==> k in Keys(first) || exists i :: 0 <= i < |rest| && k in Keys(rest[i])
  {
    r := Merge.MergeRecursiveDistinct(first, rest, false);
    MergeAllKeys(first, rest, false);
  }

  /** A key is in the merged array exactly when it is in one of the arguments. */
  lemma {:induction false} MergeAllKeys(first: seq<Entry>, rest: seq<seq<Entry>>, reposition: bool)
    ensures forall k :: k in Keys(MergeAll(first, rest, reposition)) <==>
      k in Keys(first) || exists i :: 0 <= i < |rest| && k in Keys(rest[i])
    decreases |rest|
  {
    if rest != [] {
      var m := MergeTwo(first, rest[0], reposition);
      MergeKeys(first, rest[0], reposition);
      MergeAllKeys(m, rest[1..], reposition);
      forall k
        ensures (exists i :: 0 <= i < |rest| && k in Keys(rest[i])) <==>
          k in Keys(rest[0]) || exists i :: 0 <= i < |rest[1..]| && k in Keys(rest[1..][i])
      {
        if exists i :: 0 <= i < |rest| && k in Keys(rest[i]) {
          var i :| 0 <= i < |rest| && k in Keys(rest[i]);
          if i > 0 {
            assert k in Keys(rest[1..][i - 1]);
          }
        }
        if exists i :: 0 <= i < |rest[1..]| && k in Keys(rest[1..][i]) {
          var i :| 0 <= i < |rest[1..]| && k in Keys(rest[1..][i]);
          assert k in Keys(rest[i + 1]);
        }
      }
    }
  }

  /** Merging keeps the first array's first key in front: `getKey(…, 'first')` does not change. */
  lemma {:induction false} MergeKeepsFirstKey(first: seq<Entry>, rest: seq<seq<Entry>>)
    requires first != []
    requires forall i :: 0 <= i < |rest| ==> UniqueKeys(rest[i])
    ensures GetKey(MergeAll(first, rest, false), Str("first")) == GetKey(first, Str("first"))
    decreases |rest|
  {
    if rest != [] {
      var m := MergeTwo(first, rest[0], false);
      MergeKeyOrderInPlace(first, rest[0]);
      assert Keys(m)[0] == Keys(first)[0];
      MergeKeepsFirstKey(m, rest[1..]);
    }
  }

  /**
   * `ArrayUtils::dotStringKeyToNested($key, $value)`: a one-entry array that
   * holds the value at the path the dot-separated key spells.
   */
  function DotStringKeyToNested(key: string, value: Value): (r: seq<Entry>)
    ensures |r| == 1 && r[0].key == Explode(key, '.')[0]
    ensures Dig(Arr(r), Explode(key, '.')) == Some(value)
  {
    NestedDig(key, value, '.');
    NestedPath(key, value, '.');
    StringToNested(key, value, '.')
  }
}

=== FILE: base_path.dfy ===
/**
 * BASE_PATH and BASE_PATH_LIVE: the public base URL of the site. A `base`
 * that is set and not an array is taken as it is. Otherwise a base is computed
 * from the request (scheme, host, port, script directory) and then the entries
 * of the `base` array are checked in order against it.
 *
 * Two variants of that check exist. The one in config.php and parseconfig.php
 * stops at the first entry that decides. The one in init.php does not stop at
 * a matching entry; instead it defines `BASE_<KEY>` for every array entry and
 * lets only the first match (BASE_PATH_KEY not yet defined) choose. Regular
 * expression matching (`preg_match`) is a parameter of the model.
 */
module BasePath {
  import opened Optional
  import opened Strings
  import opened PhpValues
  import opened Constants

  /** `basename($p)` for `/`-separated paths: trailing slashes dropped, then what follows the last `/`. */
  function Basename(p: string): (r: string)
    ensures '/' !in r
  {
    var parts := Explode(RTrimChar(p, '/'), '/');
    parts[|parts| - 1]
  }

  /** The last piece of `d + f` is `f` when `d` is empty or ends with the separator. */
  lemma {:induction false} ExplodeLastPiece(d: string, f: string, c: char)
    requires c !in f
    requires d == [] || d[|d| - 1] == c
    ensures Explode(d + f, c)[|Explode(d + f, c)| - 1] == f
    ensures d != [] ==> |Explode(d + f, c)| >= 2
    decreases |d|
  {
    if d == [] {
      assert d + f == f;
      ExplodeNoSeparator(f, c);
    } else {
      var s := d + f;
      assert s[1..] == d[1..] + f;
      assert d[1..] == [] || d[1..][|d[1..]| - 1] == c;
      ExplodeLastPiece(d[1..], f, c);
      var rest := Explode(s[1..], c);
      if s[0] == c {
        assert Explode(s, c) == [[]] + rest;
      } else {
        assert |d| >= 2;
        assert |rest| >= 2;
        assert Explode(s, c) == [[s[0]] + rest[0]] + rest[1..];
      }
    }
  }

  /** The basename of a path ending in a file name is that file name. */
  lemma BasenameOfFile(d: string, f: string)
    requires f != "" && '/' !in f
    requires d == [] || d[|d| - 1] == '/'
    ensures Basename(d + f) == f
  {
    assert (d + f)[|d + f| - 1] == f[|f| - 1];
    assert f[|f| - 1] in f;
    assert RTrimChar(d + f, '/') == d + f;
    ExplodeLastPiece(d, f, '/');
  }

  /** `explode(':', $host)[0]`: the Host header up to its first `:`. */
  function HostName(host: string): (h: string)
    ensures ':' !in h && IsPrefix(h, host)
    ensures ':' !in host ==> h == host
  {
    match IndexOf(host, ':')
    case None =>
      ExplodeNoSeparator(host, ':');
      host
    case Some(i) =>
      ExplodeFirst(host, ':', i);
      host[..i]
  }

  /** The port part: `:port`, left out for https on `443` and for http on `80`. */
  function PortSuffix(https: bool, port: string): string {
    if https then (if port != "443" then ":" + port else "")
    else if port != "80" then ":" + port else ""
  }

  /** The default port of the scheme is left out; any other port is kept. */
  lemma DefaultPorts(https: bool, port: string)
    ensures PortSuffix(https, port) == "" <==> (https && port == "443") || (!https && port == "80")
    ensures PortSuffix(https, port) != "" ==> PortSuffix(https, port) == ":" + port
  {
  }

  /** Scheme, host and port of the computed base, with the slash after them. */
  function Origin(https: bool, port: string, host: string): (o: string)
    ensures o != [] && o[|o| - 1] == '/'
  {
    "http" + (if https then "s" else "") + "://" + HostName(host) + PortSuffix(https, port) + "/"
  }

  /** `substr($s, 0, -$n)`: all but the last `n` characters (`-0` gives the empty string). */
  function DropLast(s: string, n: nat): string {
    if n == 0 || n > |s| then "" else s[..|s| - n]
  }

  /**
   * The script name appended to an origin, with the script's file name cut off
   * again when the script name has a basename.
   */
  function WithScript(o: string, script: string): string {
    var base := o + LTrimChar(script, '/');
    if |Basename(script)| > 0 then DropLast(base, |Basename(base)|) else base
  }

  /** The base computed from the request: the origin followed by the script's directory. */
  function ComputedBase(https: bool, port: string, host: string, script: string): string {
    WithScript(Origin(https, port, host), script)
  }

  /** Cutting the basename off `p + file`, where `p` ends with a slash, leaves `p`. */
  lemma StripFile(p: string, file: string)
    requires file != "" && '/' !in file
    requires p != [] && p[|p| - 1] == '/'
    ensures DropLast(p + file, |Basename(p + file)|) == p
  {
    BasenameOfFile(p, file);
    assert (p + file)[..|p + file| - |file|] == p;
  }

  /** `ltrim` takes only the leading slash off a script `/dir/file`, after any origin. */
  lemma ScriptTrimmed(o: string, dir: string, file: string)
    requires file != "" && file[0] != '/'
    requires dir == [] || dir[0] != '/'
    ensures o + LTrimChar("/" + dir + file, '/') == (o + dir) + file
  {
    var rest := dir + file;
    assert "/" + dir + file == "/" + rest;
    assert rest[0] != '/';
    LTrimOneSlash(rest);
    assert o + rest == (o + dir) + file;
  }

  lemma LTrimOneSlash(rest: string)
    requires rest != [] && rest[0] != '/'
    ensures LTrimChar("/" + rest, '/') == rest
  {
    assert ("/" + rest)[1..] == rest;
  }

  /** The basename of a script `/dir/file` is `file`. */
  lemma ScriptBasename(dir: string, file: string)
    requires file != "" && '/' !in file
    requires dir == [] || dir[|dir| - 1] == '/'
    ensures Basename("/" + dir + file) == file
  {
    assert "/" + dir + file == ("/" + dir) + file;
    BasenameOfFile("/" + dir, file);
  }

  /** A prefix ending in `/` followed by a directory that is empty or ends in `/` ends in `/`. */
  lemma SlashEnd(o: string, dir: string)
    requires o != [] && o[|o| - 1] == '/'
    requires dir == [] || dir[|dir| - 1] == '/'
    ensures (o + dir)[|o + dir| - 1] == '/'
  {
    if dir == [] {
      assert o + dir == o;
    } else {
      assert (o + dir)[|o + dir| - 1] == dir[|dir| - 1];
    }
  }

  /** The cut in WithScript, once its pieces are known. */
  lemma WithScriptCuts(o: string, script: string, p: string, file: string)
    requires |Basename(script)| > 0
    requires o + LTrimChar(script, '/') == p + file
    requires DropLast(p + file, |Basename(p + file)|) == p
    ensures WithScript(o, script) == p
  {
  }

  /** After an origin ending in `/`, a script `/dir/file` leaves `dir`. */
  lemma WithScriptFile(o: string, dir: string, file: string)
    requires o != [] && o[|o| - 1] == '/'
    requires file != "" && '/' !in file
    requires dir == [] || (dir[0] != '/' && dir[|dir| - 1] == '/')
    ensures WithScript(o, "/" + dir + file) == o + dir
  {
    var script := "/" + dir + file;
    assert file[0] in file;
    ScriptBasename(dir, file);
    ScriptTrimmed(o, dir, file);
    SlashEnd(o, dir);
    StripFile(o + dir, file);
    WithScriptCuts(o, script, o + dir, file);
  }

  /**
   * For a script `/dir/file` the computed base is the origin followed by the
   * script's directory: the script's file name is stripped.
   */
  lemma ComputedBaseOfScript(https: bool, port: string, host: string, dir: string, file: string)
    requires file != "" && '/' !in file
    requires dir == [] || (dir[0] != '/' && dir[|dir| - 1] == '/')
    ensures ComputedBase(https, port, host, "/" + dir + file) == Origin(https, port, host) + dir
  {
    WithScriptFile(Origin(https, port, host), dir, file);
  }

  /**
   * `mb_strlen` of PHP text holding UTF-8, each model character standing for
   * one byte: the number of bytes that start a character (all but `0x80`–`0xBF`),
   * the count `LibFunctions.MbLen` takes over `byte` sequences.
   */
  function Utf8Length(s: string): (n: nat)
    ensures n <= |s|
  {
    if s == [] then 0 else (if 0x80 <= s[0] as int < 0xC0 then 0 else 1) + Utf8Length(s[1..])
  }

  /** On ASCII text the character count is the byte count. */
  lemma {:induction false} Utf8LengthAscii(s: string)
    requires forall i :: 0 <= i < |s| ==> s[i] as int < 0x80
    ensures Utf8Length(s) == |s|
  {
    if s != [] {
      Utf8LengthAscii(s[1..]);
    }
  }

  /**
   * The cut as init.php and config.php write it, `substr($base, 0,
   * -mb_strlen(basename($base)))`: the basename's character count is cut
   * from the end as a byte count.
   */
  function WithScriptAsWritten(o: string, script: string): string {
    var base := o + LTrimChar(script, '/');
    if Utf8Length(Basename(script)) > 0 then DropLast(base, Utf8Length(Basename(base))) else base
  }

  /**
   * For a script `/dir/file` the cut as written keeps the first
   * `|file| - mb_strlen(file)` bytes of the file name: all of it is stripped
   * only when every byte of the name starts a character.
   */
  lemma {:induction false} AsWrittenCut(o: string, dir: string, file: string)
    requires o != [] && o[|o| - 1] == '/'
    requires file != "" && '/' !in file
    requires dir == [] || (dir[0] != '/' && dir[|dir| - 1] == '/')
    ensures WithScriptAsWritten(o, "/" + dir + file) == o + dir + file[..|file| - Utf8Length(file)]
  {
    var script := "/" + dir + file;
    var n := Utf8Length(file);
    var p := o + dir;
    assert WithScriptAsWritten(o, script) == if n > 0 then DropLast(p + file, n) else p + file by {
      assert file[0] in file;
      assert Basename(script) == file by { ScriptBasename(dir, file); }
      assert o + LTrimChar(script, '/') == p + file by { ScriptTrimmed(o, dir, file); }
      assert Basename(p + file) == file by {
        SlashEnd(o, dir);
        BasenameOfFile(p, file);
      }
    }
    CutKeeps(p, file, n);
  }

  /** Cutting `n` bytes, none when `n` is 0, off `p + file` keeps `p` and all but the last `n` bytes of `file`. */
  lemma CutKeeps(p: string, file: string, n: nat)
    requires n <= |file|
    ensures (if n > 0 then DropLast(p + file, n) else p + file) == p + file[..|file| - n]
  {
    if n == 0 {
      assert file[..|file|] == file;
    } else {
      assert (p + file)[..|p + file| - n] == p + file[..|file| - n];
    }
  }

  /** For an ASCII file name the cut as written strips the file name, as WithScript does. */
  lemma AsWrittenAscii(o: string, dir: string, file: string)
    requires o != [] && o[|o| - 1] == '/'
    requires file != "" && '/' !in file
    requires forall i :: 0 <= i < |file| ==> file[i] as int < 0x80
    requires dir == [] || (dir[0] != '/' && dir[|dir| - 1] == '/')
    ensures WithScriptAsWritten(o, "/" + dir + file) == o + dir == WithScript(o, "/" + dir + file)
  {
    AsWrittenCut(o, dir, file);
    Utf8LengthAscii(file);
    assert o + dir + file[..0] == o + dir;
    WithScriptFile(o, dir, file);
  }

  /** The file name `ø.php`, its `ø` the two UTF-8 bytes `C3 B8`. */
  function OSlashPhp(): string {
    [0xC3 as char, 0xB8 as char] + ".php"
  }

  /**
   * The script `/ø.php`: the basename has five characters in six bytes, so the
   * cut as written leaves the byte `C3` behind the origin, where WithScript
   * leaves the bare origin.
   */
  lemma AsWrittenStrayByte(o: string)
    requires o != [] && o[|o| - 1] == '/'
    ensures WithScriptAsWritten(o, "/" + OSlashPhp()) == o + [0xC3 as char]
    ensures WithScript(o, "/" + OSlashPhp()) == o
  {
    var file := OSlashPhp();
    assert "/" + [] + file == "/" + file;
    assert '/' !in file;
    assert Utf8Length(file) == 5 by {
      assert file[1..] == [0xB8 as char] + ".php" && file[2..] == ".php";
      Utf8LengthAscii(".php");
    }
    AsWrittenCut(o, [], file);
    assert o + [] + file[..1] == o + [0xC3 as char];
    WithScriptFile(o, [], file);
  }

  /** A script name that is empty or only slashes leaves the bare origin. */
  lemma ComputedBaseOfRoot(https: bool, port: string, host: string, script: string)
    requires forall i :: 0 <= i < |script| ==> script[i] == '/'
    ensures ComputedBase(https, port, host, script) == Origin(https, port, host)
  {
    LTrimCharAll(script, '/');
    assert RTrimChar(script, '/') == [];
    assert Explode([], '/') == [[]];
  }

  /**
   * `$value['start'] === substr($base, 0, strlen($value['start']))` or
   * `preg_match($value['regex'], $base)`: the entry's start text is a prefix of
   * the base, or its pattern matches the base.
   */
  predicate Hits(value: Value, base: string, regex: (Value, string) -> bool) {
    var start := Index(value, "start");
    var pattern := Index(value, "regex");
    (start.Str? && IsPrefix(start.s, base)) || (pattern != Null && regex(pattern, base))
  }

  /** The chosen base and, when one was chosen, the live base. */
  datatype Chosen = Chosen(base: Value, live: Option<Value>)

  /** `isset($v['live'])`: the entry's live base if set, else the live base so far. */
  function LiveOf(v: Value, live: Option<Value>): Option<Value> {
    if Index(v, "live") != Null then Some(Index(v, "live")) else live
  }

  /**
   * A non-array entry in `base`: the whole `base` array is one entry, so its
   * `path` (if set) is the base and its `live` (if set) the live base.
   */
  function WholeChoice(all: Value, c: Chosen): Chosen {
    Chosen(if Index(all, "path") != Null then Index(all, "path") else c.base, LiveOf(all, c.live))
  }

  /** An entry stops the breaking loop: it is not an array, or it has a `path` and hits. */
  predicate Decides(v: Value, computed: string, regex: (Value, string) -> bool) {
    !v.Arr? || (Index(v, "path") != Null && Hits(v, computed, regex))
  }

  /** The outcome of the entry that stops the breaking loop. */
  function DecidedBy(v: Value, all: Value, computed: string): Chosen {
    if v.Arr? then Chosen(Index(v, "path"), LiveOf(v, None)) else WholeChoice(all, Chosen(Str(computed), None))
  }

  /**
   * The `foreach` with `break` of config.php and parseconfig.php, over the values
   * of `base` (`all`), starting from the computed base and no live base.
   */
  function FirstChoice(entries: seq<Value>, all: Value, computed: string, regex: (Value, string) -> bool): Chosen
    decreases |entries|
  {
    if entries == [] then Chosen(Str(computed), None)
    else if Decides(entries[0], computed, regex) then DecidedBy(entries[0], all, computed)
    else FirstChoice(entries[1..], all, computed, regex)
  }

  /** The first entry that decides fixes the outcome; entries without `path`, or that miss, are skipped. */
  lemma {:induction false} FirstChoiceAt(entries: seq<Value>, all: Value, computed: string, regex: (Value, string) -> bool, i: nat)
    requires i < |entries| && Decides(entries[i], computed, regex)
    requires forall j :: 0 <= j < i ==> !Decides(entries[j], computed, regex)
    ensures FirstChoice(entries, all, computed, regex) == DecidedBy(entries[i], all, computed)
    decreases i
  {
    if i > 0 {
      FirstChoiceAt(entries[1..], all, computed, regex, i - 1);
    }
  }

  /** When no entry decides, the computed base stays and no live base is chosen. */
  lemma {:induction false} FirstChoiceNone(entries: seq<Value>, all: Value, computed: string, regex: (Value, string) -> bool)
    requires forall j :: 0 <= j < |entries| ==> !Decides(entries[j], computed, regex)
    ensures FirstChoice(entries, all, computed, regex) == Chosen(Str(computed), None)
    decreases |entries|
  {
    if entries != [] {
      FirstChoiceNone(entries[1..], all, computed, regex);
    }
  }

  /** The loop itself: walks the entries and breaks at the first one that decides. */
  method SelectFirst(entries: seq<Value>, all: Value, computed: string, regex: (Value, string) -> bool)
    returns (base: Value, live: Option<Value>)
    ensures Chosen(base, live) == FirstChoice(entries, all, computed, regex)
  {
    base := Str(computed);
    live := None;
    var i := 0;
    while i < |entries|
      invariant 0 <= i <= |entries|
      invariant base == Str(computed) && live.None?
      invariant FirstChoice(entries[i..], all, computed, regex) == FirstChoice(entries, all, computed, regex)
    {
      assert entries[i..][1..] == entries[i + 1..];
      var value := entries[i];
      if !value.Arr? {
        if Index(all, "path") != Null {
          base := Index(all, "path");
        }
        if Index(all, "live") != Null {
          live := Some(Index(all, "live"));
        }
        return;
      }
      if Index(value, "path") != Null {
        if Hits(value, computed, regex) {
          base := Index(value, "path");
          if Index(value, "live") != Null {
            live := Some(Index(value, "live"));
          }
          return;
        }
      }
      i := i + 1;
    }
  }

  /** `isset($live) ? $live : BASE_PATH`: the live base falls back to the base. */
  function LiveOr(c: Chosen): Value {
    if c.live.Some? then c.live.value else c.base
  }

  /**
   * BASE_PATH and BASE_PATH_LIVE as config.php and parseconfig.php define them
   * from the `base` setting (`Null` when unset) and the computed base.
   */
  function BreakingBasePaths(conf: Value, computed: string, regex: (Value, string) -> bool): (r: (Value, Value))
  {
    if conf != Null && !conf.Arr? then (conf, conf)
    else
      var c := if conf != Null && !Empty(conf) then FirstChoice(Values(conf.items), conf, computed, regex)
               else Chosen(Str(computed), None);
      (c.base, LiveOr(c))
  }

  /** A string (any non-array) `base` is both BASE_PATH and BASE_PATH_LIVE. */
  lemma ScalarBase(conf: Value, computed: string, regex: (Value, string) -> bool)
    requires conf != Null && !conf.Arr?
    ensures BreakingBasePaths(conf, computed, regex) == (conf, conf)
  {
  }

  /**
   * The first array entry of `base` with a `path` that hits decides BASE_PATH,
   * provided every entry before it is an array that does not decide;
   * BASE_PATH_LIVE is its `live`, or BASE_PATH when it has none.
   */
  lemma BreakingFirstMatch(conf: Value, computed: string, regex: (Value, string) -> bool, i: nat)
    requires conf.Arr? && i < |conf.items|
    requires conf.items[i].val.Arr? && Index(conf.items[i].val, "path") != Null
    requires Hits(conf.items[i].val, computed, regex)
    requires forall j :: 0 <= j < i ==> !Decides(conf.items[j].val, computed, regex)
    ensures BreakingBasePaths(conf, computed, regex).0 == Index(conf.items[i].val, "path")
    ensures BreakingBasePaths(conf, computed, regex).1
         == if Index(conf.items[i].val, "live") != Null then Index(conf.items[i].val, "live") else Index(conf.items[i].val, "path")
  {
    var vs := Values(conf.items);
    FirstChoiceAt(vs, conf, computed, regex, i);
  }

  /** Mapping a key through a character upper-casing (`mb_strtoupper`). */
  function UpperText(s: string, upper: char -> char): (r: string)
    ensures |r| == |s| && forall i :: 0 <= i < |s| ==> r[i] == upper(s[i])
  {
    seq(|s|, i requires 0 <= i < |s| => upper(s[i]))
  }

  /** The state of the init.php loop: base, live base and the constants defined so far. */
  datatype Pick = Pick(base: Value, live: Option<Value>, consts: map<string, Value>)

  /** The `BASE_<KEY>` constant an entry of `base` defines. */
  function BaseConstant(key: string, upper: char -> char): string {
    "BASE_" + UpperText(key, upper)
  }

  /** One array entry of the init.php loop: define `BASE_<KEY>`, then match if no match came before. */
  function InitStep(e: Entry, s: Pick, regex: (Value, string) -> bool, upper: char -> char): Pick {
    var path := Index(e.val, "path");
    var c := Define(s.consts, BaseConstant(e.key, upper), path);
    if path != Null && "BASE_PATH_KEY" !in c && Hits(e.val, ToText(s.base), regex) then
      Pick(path, LiveOf(e.val, s.live), Define(c, "BASE_PATH_KEY", Str(e.key)))
    else
      Pick(s.base, s.live, c)
  }

  /**
   * The `foreach` of init.php: array entries go through InitStep without
   * stopping; a non-array entry applies the whole-array choice and breaks.
   */
  function InitChoice(entries: seq<Entry>, all: Value, s: Pick, regex: (Value, string) -> bool, upper: char -> char): Pick
    decreases |entries|
  {
    if entries == [] then s
    else if !entries[0].val.Arr? then
      var w := WholeChoice(all, Chosen(s.base, s.live));
      Pick(w.base, w.live, s.consts)
    else InitChoice(entries[1..], all, InitStep(entries[0], s, regex, upper), regex, upper)
  }

  /** The loop itself, updating base, live base and constants entry by entry. */
  method SelectInit(entries: seq<Entry>, all: Value, s0: Pick, regex: (Value, string) -> bool, upper: char -> char)
    returns (s: Pick)
    ensures s == InitChoice(entries, all, s0, regex, upper)
  {
    var base, live, consts := s0.base, s0.live, s0.consts;
    var i := 0;
    while i < |entries|
      invariant 0 <= i <= |entries|
      invariant InitChoice(entries[i..], all, Pick(base, live, consts), regex, upper) == InitChoice(entries, all, s0, regex, upper)
    {
      assert entries[i..][1..] == entries[i + 1..];
      var key, value := entries[i].key, entries[i].val;
      if !value.Arr? {
        if Index(all, "path") != Null {
          base := Index(all, "path");
        }
        if Index(all, "live") != Null {
          live := Some(Index(all, "live"));
        }
        return Pick(base, live, consts);
      }
      consts := Define(consts, BaseConstant(key, upper), Index(value, "path"));
      if Index(value, "path") != Null && "BASE_PATH_KEY" !in consts {
        if Hits(value, ToText(base), regex) {
          base := Index(value, "path");
          if Index(value, "live") != Null {
            live := Some(Index(value, "live"));
          }
          consts := Define(consts, "BASE_PATH_KEY", Str(key));
        }
      }
      i := i + 1;
    }
    return Pick(base, live, consts);
  }

  /**
   * No array entry before a match can change base or live base: while
   * BASE_PATH_KEY is undefined and no entry hits, only `BASE_<KEY>` constants
   * are added, and the first `define` of each name wins.
   */
  lemma {:induction false} InitMisses(entries: seq<Entry>, all: Value, s: Pick, regex: (Value, string) -> bool, upper: char -> char, n: nat)
    requires n <= |entries|
    requires forall j :: 0 <= j < n ==> entries[j].val.Arr?
    requires forall j :: 0 <= j < n ==> BaseConstant(entries[j].key, upper) != "BASE_PATH_KEY"
    requires "BASE_PATH_KEY" !in s.consts
    requires forall j :: 0 <= j < n ==> Index(entries[j].val, "path") == Null || !Hits(entries[j].val, ToText(s.base), regex)
    ensures InitChoice(entries, all, s, regex, upper)
         == InitChoice(entries[n..], all, Pick(s.base, s.live, DefineAll(entries[..n], s.consts, upper)), regex, upper)
    ensures "BASE_PATH_KEY" !in DefineAll(entries[..n], s.consts, upper)
    decreases n
  {
    if n > 0 {
      var s1 := InitStep(entries[0], s, regex, upper);
      assert s1 == Pick(s.base, s.live, Define(s.consts, BaseConstant(entries[0].key, upper), Index(entries[0].val, "path")));
      assert entries[1..][n - 1..] == entries[n..];
      assert entries[1..][..n - 1] == entries[1..n];
      assert entries[..n][1..] == entries[1..n];
      InitMisses(entries[1..], all, s1, regex, upper, n - 1);
    }
  }

  /** The `BASE_<KEY>` constants of a run of array entries, the first `define` of each name winning. */
  function DefineAll(entries: seq<Entry>, consts: map<string, Value>, upper: char -> char): map<string, Value>
    decreases |entries|
  {
    if entries == [] then consts
    else DefineAll(entries[1..], Define(consts, BaseConstant(entries[0].key, upper), Index(entries[0].val, "path")), upper)
  }

  /**
   * The first array entry with a `path` that hits sets the base and its live
   * base and defines BASE_PATH_KEY as its key; no later entry changes them as
   * long as only arrays follow.
   */
  lemma {:induction false} InitMatchSticks(entries: seq<Entry>, all: Value, s: Pick, regex: (Value, string) -> bool, upper: char -> char)
    requires "BASE_PATH_KEY" in s.consts
    requires forall j :: 0 <= j < |entries| ==> entries[j].val.Arr?
    ensures "BASE_PATH_KEY" in InitChoice(entries, all, s, regex, upper).consts
    ensures InitChoice(entries, all, s, regex, upper).base == s.base
    ensures InitChoice(entries, all, s, regex, upper).live == s.live
    ensures InitChoice(entries, all, s, regex, upper).consts["BASE_PATH_KEY"] == s.consts["BASE_PATH_KEY"]
    decreases |entries|
  {
    if entries != [] {
      InitMatchSticks(entries[1..], all, InitStep(entries[0], s, regex, upper), regex, upper);
    }
  }

  /**
   * The match of init.php: when all entries of `base` are arrays, none of their
   * keys names BASE_PATH_KEY, and entry `i` is the first with a `path` that
   * hits, BASE_PATH becomes that path, BASE_PATH_KEY that key, and the live
   * base that entry's `live` (if set).
   */
  lemma InitFirstMatch(entries: seq<Entry>, all: Value, computed: string, consts: map<string, Value>,
                       regex: (Value, string) -> bool, upper: char -> char, i: nat)
    requires i < |entries|
    requires forall j :: 0 <= j < |entries| ==> entries[j].val.Arr?
    requires forall j :: 0 <= j < |entries| ==> BaseConstant(entries[j].key, upper) != "BASE_PATH_KEY"
    requires "BASE_PATH_KEY" !in consts
    requires Index(entries[i].val, "path") != Null && Hits(entries[i].val, computed, regex)
    requires forall j :: 0 <= j < i ==> Index(entries[j].val, "path") == Null || !Hits(entries[j].val, computed, regex)
    ensures var r := InitChoice(entries, all, Pick(Str(computed), None, consts), regex, upper);
            r.base == Index(entries[i].val, "path") && r.live == LiveOf(entries[i].val, None)
            && "BASE_PATH_KEY" in r.consts && r.consts["BASE_PATH_KEY"] == Str(entries[i].key)
  {
    var s := Pick(Str(computed), None, consts);
    var c := DefineAll(entries[..i], consts, upper);
    var rest := entries[i..];
    assert InitChoice(entries, all, s, regex, upper) == InitChoice(rest, all, Pick(Str(computed), None, c), regex, upper)
        && "BASE_PATH_KEY" !in c by {
      assert ToText(s.base) == computed;
      InitMisses(entries, all, s, regex, upper, i);
    }
    assert rest != [] && rest[0] == entries[i];
    ArraysFrom(entries, i);
    MatchFirst(rest, all, computed, c, regex, upper);
  }

  lemma ArraysFrom(entries: seq<Entry>, i: nat)
    requires i <= |entries| && forall j :: 0 <= j < |entries| ==> entries[j].val.Arr?
    ensures forall j :: 0 <= j < |entries[i..]| ==> entries[i..][j].val.Arr?
  {
    forall j | 0 <= j < |entries[i..]| ensures entries[i..][j].val.Arr? {
      assert entries[i..][j] == entries[i + j];
    }
  }

  /** A run of array entries whose first entry hits before any match: that entry is the match. */
  lemma MatchFirst(rest: seq<Entry>, all: Value, computed: string, c: map<string, Value>,
                   regex: (Value, string) -> bool, upper: char -> char)
    requires rest != [] && forall j :: 0 <= j < |rest| ==> rest[j].val.Arr?
    requires BaseConstant(rest[0].key, upper) != "BASE_PATH_KEY" && "BASE_PATH_KEY" !in c
    requires Index(rest[0].val, "path") != Null && Hits(rest[0].val, computed, regex)
    ensures var r := InitChoice(rest, all, Pick(Str(computed), None, c), regex, upper);
            r.base == Index(rest[0].val, "path") && r.live == LiveOf(rest[0].val, None)
            && "BASE_PATH_KEY" in r.consts && r.consts["BASE_PATH_KEY"] == Str(rest[0].key)
  {
    var s1 := InitStep(rest[0], Pick(Str(computed), None, c), regex, upper);
    HitStep(rest[0], computed, c, regex, upper);
    var tail := rest[1..];
    forall j | 0 <= j < |tail| ensures tail[j].val.Arr? {
      assert tail[j] == rest[j + 1];
    }
    InitMatchSticks(tail, all, s1, regex, upper);
  }

  /** An array entry whose `path` is set and hits, met before any match, is the match. */
  lemma HitStep(e: Entry, computed: string, c: map<string, Value>, regex: (Value, string) -> bool, upper: char -> char)
    requires BaseConstant(e.key, upper) != "BASE_PATH_KEY" && "BASE_PATH_KEY" !in c
    requires Index(e.val, "path") != Null && Hits(e.val, computed, regex)
    ensures var s1 := InitStep(e, Pick(Str(computed), None, c), regex, upper);
      s1.base == Index(e.val, "path") && s1.live == LiveOf(e.val, None) &&
      "BASE_PATH_KEY" in s1.consts && s1.consts["BASE_PATH_KEY"] == Str(e.key)
  {
    assert ToText(Str(computed)) == computed;
  }
  /**
   * The loop keeps every constant defined before it and adds only the
   * `BASE_<KEY>` constants of the entries it walks and BASE_PATH_KEY.
   */
  lemma {:induction false} InitChoiceAdds(entries: seq<Entry>, all: Value, s: Pick, regex: (Value, string) -> bool, upper: char -> char)
    ensures var r := InitChoice(entries, all, s, regex, upper);
      forall n :: n in s.consts ==> n in r.consts && r.consts[n] == s.consts[n]
    ensures var r := InitChoice(entries, all, s, regex, upper);
      forall n :: n in r.consts ==> n in s.consts || n == "BASE_PATH_KEY" || n in BaseConstants(entries, upper)
    decreases |entries|
  {
    if entries != [] && entries[0].val.Arr? {
      var s1 := InitStep(entries[0], s, regex, upper);
      InitChoiceAdds(entries[1..], all, s1, regex, upper);
      assert BaseConstants(entries, upper) == {BaseConstant(entries[0].key, upper)} + BaseConstants(entries[1..], upper);
    }
  }

  /** A name in the `BASE_` family, as every constant of the loop is. */
  predicate BaseNamed(n: string) {
    "BASE_" <= n
  }

  /** The loop adds only names of the `BASE_` family to the constants. */
  lemma InitChoiceNames(entries: seq<Entry>, all: Value, s: Pick, regex: (Value, string) -> bool, upper: char -> char)
    ensures var r := InitChoice(entries, all, s, regex, upper);
      forall n :: n in r.consts ==> n in s.consts || BaseNamed(n)
  {
    InitChoiceAdds(entries, all, s, regex, upper);
    assert BaseNamed("BASE_PATH_KEY");
  }

  /** A name among the `BASE_<KEY>` names is the name of one of the entries. */
  lemma {:induction false} BaseConstantsOf(entries: seq<Entry>, upper: char -> char, n: string)
    requires n in BaseConstants(entries, upper)
    ensures exists j :: 0 <= j < |entries| && BaseConstant(entries[j].key, upper) == n
    decreases |entries|
  {
    if BaseConstant(entries[0].key, upper) != n {
      BaseConstantsOf(entries[1..], upper, n);
      var j :| 0 <= j < |entries[1..]| && BaseConstant(entries[1..][j].key, upper) == n;
      assert BaseConstant(entries[j + 1].key, upper) == n;
    }
  }

  /** The `BASE_<KEY>` names of a run of entries. */
  function BaseConstants(entries: seq<Entry>, upper: char -> char): (r: set<string>)
    ensures forall n :: n in r ==> BaseNamed(n)
    decreases |entries|
  {
    if entries == [] then {} else {BaseConstant(entries[0].key, upper)} + BaseConstants(entries[1..], upper)
  }
}

=== FILE: bootstrap.dfy ===
/**
 * What the three bootstrap scripts share: the environment-level bits, the
 * request and file system a run sees, reading and layering the three config
 * files, and the steps config.php (`Config::parse`) and parseconfig.php take
 * after the files are merged, which are the same statement for statement:
 * drop consumed keys, define ENV_LEVEL, FROM_ADMIN_IP, TEMP_DIR, CACHE_DIR,
 * BASE_PATH and BASE_PATH_LIVE, and reorder the autoload search paths.
 */
module Bootstrap {
  import opened Optional
  import opened Strings
  import opened PhpValues
  import opened Constants
  import opened Merge
  import opened IpRange
  import opened BasePath
  import opened IniValues
  import Ini
  import opened SystemCore
  import opened EnvLevels

  /**
   * What a run sees of its environment: the request variables (`$_SERVER`),
   * CORE_DIR and SITE_DIR, the system temp directory, DIRECTORY_SEPARATOR,
   * whether PHP runs from the command line, and the two services the model
   * leaves abstract (`preg_match` and `mb_strtoupper` on one character).
   */
  datatype Host = Host(
    server: map<string, string>,
    coreDir: string,
    siteDir: string,
    sysTemp: string,
    sep: char,
    cli: bool,
    regex: (Value, string) -> bool,
    upper: char -> char)

  /** `$_SERVER[$k]` as text: an unset variable reads as the empty string, as PHP's null does. */
  function ServerVar(server: map<string, string>, k: string): string {
    if k in server then server[k] else ""
  }

  /** The base computed from the request: https iff HTTPS is set, the port, the host and the script name. */
  function ComputedBaseOf(server: map<string, string>): string {
    ComputedBase("HTTPS" in server, ServerVar(server, "SERVER_PORT"), ServerVar(server, "HTTP_HOST"), ServerVar(server, "SCRIPT_NAME"))
  }

  /**
   * A config file: its text, read when it is a `.ini` file, and the value its
   * `$config` variable holds after including it, when it is a `.php` file
   * (`None` when it leaves `$config` unset).
   */
  datatype File = File(text: string, config: Option<Value>)

  predicate IsSuffix(suffix: string, s: string) {
    |suffix| <= |s| && s[|s| - |suffix|..] == suffix
  }

  /**
   * `parse_config_file($filename)` of init.php and of the core function file
   * (they differ only in how a `.ini` value is read): false (`None`) for a
   * missing file; a `.ini` file is parsed; a `.php` file gives its `$config`
   * when that is an array; anything else is false.
   */
  function ParseConfigFile(files: map<string, File>, path: string, d: Dialect, consts: map<string, Value>): Option<seq<Entry>> {
    if path !in files then None
    else if IsSuffix(".ini", path) then Some(Ini.ParseIniFile(files[path].text, d, consts))
    else if IsSuffix(".php", path) then
      (match files[path].config
       case Some(Arr(items)) => Some(items)
       case _ => None)
    else None
  }

  /** A missing file, or a `.php` file whose `$config` is not an array, reads as false. */
  lemma ParseConfigFileFalse(files: map<string, File>, path: string, d: Dialect, consts: map<string, Value>)
    ensures path !in files ==> ParseConfigFile(files, path, d, consts) == None
    ensures path in files && IsSuffix(".php", path) && !IsSuffix(".ini", path) ==>
      (ParseConfigFile(files, path, d, consts).Some? <==> files[path].config.Some? && files[path].config.value.Arr?)
  {
  }

  /** The configuration a file contributes: its array, or nothing when it read as false. */
  function Loaded(r: Option<seq<Entry>>): seq<Entry> {
    if r.Some? then r.value else []
  }

  /**
   * The three config files in order: the core `config.ini`, then the site's
   * `config.php`, then the site's `config.ini`, each later one merged over
   * the ones before (only when it is a non-empty array, as `if ($file = …)`
   * requires).
   */
  function Layered(core: Option<seq<Entry>>, php: Option<seq<Entry>>, ini: Option<seq<Entry>>, reposition: bool): seq<Entry> {
    var c := Loaded(core);
    var c1 := if Loaded(php) != [] then MergeTwo(c, Loaded(php), reposition) else c;
    if Loaded(ini) != [] then MergeTwo(c1, Loaded(ini), reposition) else c1
  }

  /**
   * Precedence of the config files: a scalar in the site's `config.ini` wins;
   * one in the site's `config.php` wins over the core file unless the site's
   * `config.ini` sets the key too; a key neither site file sets keeps the core
   * file's value.
   */
  lemma LaterFileWins(core: Option<seq<Entry>>, php: Option<seq<Entry>>, ini: Option<seq<Entry>>, reposition: bool, k: string)
    requires UniqueKeys(Loaded(php)) && UniqueKeys(Loaded(ini))
    ensures var v := Lookup(Loaded(ini), k);
      v.Some? && !v.value.Arr? ==> Lookup(Layered(core, php, ini, reposition), k) == v
    ensures var v := Lookup(Loaded(php), k);
      v.Some? && !v.value.Arr? && k !in Keys(Loaded(ini)) ==> Lookup(Layered(core, php, ini, reposition), k) == v
    ensures k !in Keys(Loaded(php)) && k !in Keys(Loaded(ini)) ==>
      Lookup(Layered(core, php, ini, reposition), k) == Lookup(Loaded(core), k)
  {
    var c := Loaded(core);
    var c1 := if Loaded(php) != [] then MergeTwo(c, Loaded(php), reposition) else c;
    MergeLookup(c, Loaded(php), reposition, k);
    MergeLookup(c1, Loaded(ini), reposition, k);
  }

  /** The configuration and the constants after a run of steps. */
  datatype Outcome = Outcome(config: seq<Entry>, consts: map<string, Value>)

  /** `if (isset($config[$k])) unset($config[$k]);` */
  function DropIfSet(config: seq<Entry>, k: string): seq<Entry> {
    if Isset(config, k) then Unset(config, k) else config
  }

  /** The ranges of `admin.ips`, as the values they are; a value that is not an array gives none. */
  function AdminRanges(config: seq<Entry>): seq<Value> {
    var ips := Index(Get(config, "admin"), "ips");
    if ips.Arr? then Values(ips.items) else []
  }

  /** FROM_ADMIN_IP: `admin.ips` is set, REMOTE_ADDR is set, and it lies in one of the ranges. */
  predicate FromAdmin(config: seq<Entry>, server: map<string, string>, strict: bool) {
    Index(Get(config, "admin"), "ips") != Null && "REMOTE_ADDR" in server &&
    InSomeRange(server["REMOTE_ADDR"], AdminRanges(config), strict)
  }

  /**
   * FROM_ADMIN_IP holds exactly when `admin.ips` is an array one of whose values
   * matches REMOTE_ADDR; a value that is itself an array matches nothing.
   */
  lemma FromAdminMeaning(config: seq<Entry>, server: map<string, string>, strict: bool)
    ensures var ips := Index(Get(config, "admin"), "ips");
      FromAdmin(config, server, strict) <==>
        ips.Arr? && "REMOTE_ADDR" in server &&
        exists i :: 0 <= i < |ips.items| && EntryMatches(server["REMOTE_ADDR"], ips.items[i].val, strict)
  {
    if "REMOTE_ADDR" in server {
      InSomeRangeExists(server["REMOTE_ADDR"], AdminRanges(config), strict);
    }
  }

  /** `rtrim(sys_get_temp_dir(), DIRECTORY_SEPARATOR) . DIRECTORY_SEPARATOR`. */
  function TempDefault(host: Host): string {
    RTrimChar(host.sysTemp, host.sep) + [host.sep]
  }

  /**
   * The first steps: `core` is removed, `timezone` too when set, ENV_LEVEL
   * defaults to ENV_LIVE and FROM_ADMIN_IP is defined with the loose address
   * comparison of the core function file.
   */
  function Admitted(config: seq<Entry>, consts: map<string, Value>, host: Host): (r: Outcome)
    ensures Lookup(r.config, "core") == None && !Isset(r.config, "timezone")
    ensures forall k :: k != "core" && k != "timezone" ==> Lookup(r.config, k) == Lookup(config, k)
    ensures forall n :: n in consts ==> n in r.consts && r.consts[n] == consts[n]
    ensures "ENV_LEVEL" !in consts ==> "ENV_LEVEL" in r.consts && r.consts["ENV_LEVEL"] == ConstValue(consts, "ENV_LIVE")
    ensures "FROM_ADMIN_IP" !in consts ==>
      "FROM_ADMIN_IP" in r.consts && r.consts["FROM_ADMIN_IP"] == Bool(FromAdmin(r.config, host.server, false))
    ensures forall n :: n in r.consts ==> n in consts || n == "ENV_LEVEL" || n == "FROM_ADMIN_IP"
  {
    var c := DropIfSet(Unset(config, "core"), "timezone");
    var k := Define(consts, "ENV_LEVEL", ConstValue(consts, "ENV_LIVE"));
    Outcome(c, Define(k, "FROM_ADMIN_IP", Bool(FromAdmin(c, host.server, false))))
  }

  /** TEMP_DIR, unless defined before: `temp` (which is then removed) or the system default. */
  function TempStep(o: Outcome, host: Host): (r: Outcome)
    ensures forall n :: n in o.consts ==> n in r.consts && r.consts[n] == o.consts[n]
    ensures forall n :: n in r.consts ==> n in o.consts || n == "TEMP_DIR"
    ensures "TEMP_DIR" in r.consts
    ensures "TEMP_DIR" !in o.consts ==>
      r.consts["TEMP_DIR"] == if Isset(o.config, "temp") then Get(o.config, "temp") else Str(TempDefault(host))
    ensures Lookup(r.config, "temp") == if "TEMP_DIR" !in o.consts && Isset(o.config, "temp") then None else Lookup(o.config, "temp")
    ensures forall k :: k != "temp" ==> Lookup(r.config, k) == Lookup(o.config, k)
  {
    if "TEMP_DIR" in o.consts then o
    else if Isset(o.config, "temp") then Outcome(Unset(o.config, "temp"), o.consts["TEMP_DIR" := Get(o.config, "temp")])
    else Outcome(o.config, o.consts["TEMP_DIR" := Str(TempDefault(host))])
  }

  /** CACHE_DIR, unless defined before: `cache.path` (which is then removed from `cache`) or TEMP_DIR. */
  function CacheStep(o: Outcome): (r: Outcome)
    ensures forall n :: n in o.consts ==> n in r.consts && r.consts[n] == o.consts[n]
    ensures forall n :: n in r.consts ==> n in o.consts || n == "CACHE_DIR"
    ensures "CACHE_DIR" !in o.consts ==> "CACHE_DIR" in r.consts
    ensures "CACHE_DIR" !in o.consts ==>
      r.consts["CACHE_DIR"] == if Index(Get(o.config, "cache"), "path") != Null then Index(Get(o.config, "cache"), "path")
                               else ConstValue(o.consts, "TEMP_DIR")
    ensures "CACHE_DIR" !in o.consts && Index(Get(o.config, "cache"), "path") != Null ==>
      Get(r.config, "cache").Arr? && Lookup(Get(r.config, "cache").items, "path") == None &&
      forall k :: k != "path" ==> Lookup(Get(r.config, "cache").items, k) == Lookup(Get(o.config, "cache").items, k)
    ensures forall k :: k != "cache" ==> Lookup(r.config, k) == Lookup(o.config, k)
  {
    if "CACHE_DIR" in o.consts then o
    else
      var cache := Get(o.config, "cache");
      var path := Index(cache, "path");
      if path != Null then Outcome(Assign(o.config, "cache", Arr(Unset(cache.items, "path"))), o.consts["CACHE_DIR" := path])
      else Outcome(o.config, o.consts["CACHE_DIR" := ConstValue(o.consts, "TEMP_DIR")])
  }

  /** BASE_PATH and BASE_PATH_LIVE, unless BASE_PATH is defined before, by the breaking selection. */
  function BaseStep(o: Outcome, host: Host): (r: Outcome)
    ensures r.config == o.config
    ensures forall n :: n in o.consts ==> n in r.consts && r.consts[n] == o.consts[n]
    ensures forall n :: n in r.consts ==> n in o.consts || n == "BASE_PATH" || n == "BASE_PATH_LIVE"
    ensures "BASE_PATH" !in o.consts && "BASE_PATH_LIVE" !in o.consts ==>
      "BASE_PATH" in r.consts && "BASE_PATH_LIVE" in r.consts &&
      (r.consts["BASE_PATH"], r.consts["BASE_PATH_LIVE"])
        == BreakingBasePaths(Get(o.config, "base"), ComputedBaseOf(host.server), host.regex)
  {
    if "BASE_PATH" in o.consts then o
    else
      var (base, live) := BreakingBasePaths(Get(o.config, "base"), ComputedBaseOf(host.server), host.regex);
      Outcome(o.config, Define(Define(o.consts, "BASE_PATH", base), "BASE_PATH_LIVE", live))
  }

  /**
   * The steps config.php and parseconfig.php take on the merged configuration
   * (the timezone itself is left out).
   */
  function Settled(config: seq<Entry>, consts: map<string, Value>, host: Host): Outcome {
    BaseStep(Prepared(config, consts, host), host)
  }

  /** The steps before the base paths: the consumed keys, ENV_LEVEL, FROM_ADMIN_IP, TEMP_DIR and CACHE_DIR. */
  function Prepared(config: seq<Entry>, consts: map<string, Value>, host: Host): Outcome {
    CacheStep(TempStep(Admitted(config, consts, host), host))
  }

  /** The base step changes no key of the configuration and no constant defined before it. */
  lemma SettledIsPrepared(config: seq<Entry>, consts: map<string, Value>, host: Host)
    ensures Settled(config, consts, host).config == Prepared(config, consts, host).config
    ensures var p := Prepared(config, consts, host).consts;
      forall n :: n in p ==> n in Settled(config, consts, host).consts && Settled(config, consts, host).consts[n] == p[n]
  {
  }

  /** The statements of the steps, updating the configuration and the constants one step at a time. */
  method Settle(config0: seq<Entry>, consts0: map<string, Value>, host: Host) returns (config: seq<Entry>, consts: map<string, Value>)
    ensures Outcome(config, consts) == Settled(config0, consts0, host)
  {
    config, consts := Admit(config0, consts0, host);
    config, consts := SetTempDir(config, consts, host);
    config, consts := SetCacheDir(config, consts);
    config, consts := SetBasePaths(config, consts, host);
  }

  /** `unset($config['core'])`, the timezone, ENV_LEVEL and FROM_ADMIN_IP. */
  method Admit(config0: seq<Entry>, consts0: map<string, Value>, host: Host) returns (config: seq<Entry>, consts: map<string, Value>)
    ensures Outcome(config, consts) == Admitted(config0, consts0, host)
  {
    config := Unset(config0, "core");
    if Isset(config, "timezone") {
      config := Unset(config, "timezone");
    }
    consts := consts0;
    if "ENV_LEVEL" !in consts {
      consts := consts["ENV_LEVEL" := ConstValue(consts, "ENV_LIVE")];
    }
    var admin := false;
    if Index(Get(config, "admin"), "ips") != Null && "REMOTE_ADDR" in host.server {
      admin := IpInRanges(host.server["REMOTE_ADDR"], AdminRanges(config), false);
    }
    consts := Define(consts, "FROM_ADMIN_IP", Bool(admin));
  }

  /** The TEMP_DIR statements. */
  method SetTempDir(config0: seq<Entry>, consts0: map<string, Value>, host: Host) returns (config: seq<Entry>, consts: map<string, Value>)
    ensures Outcome(config, consts) == TempStep(Outcome(config0, consts0), host)
  {
    config, consts := config0, consts0;
    if "TEMP_DIR" !in consts {
      if Isset(config, "temp") {
        consts := consts["TEMP_DIR" := Get(config, "temp")];
        config := Unset(config, "temp");
      } else {
        consts := consts["TEMP_DIR" := Str(RTrimChar(host.sysTemp, host.sep) + [host.sep])];
      }
    }
  }

  /** The CACHE_DIR statements. */
  method SetCacheDir(config0: seq<Entry>, consts0: map<string, Value>) returns (config: seq<Entry>, consts: map<string, Value>)
    ensures Outcome(config, consts) == CacheStep(Outcome(config0, consts0))
  {
    config, consts := config0, consts0;
    if "CACHE_DIR" !in consts {
      var cache := Get(config, "cache");
      if Index(cache, "path") != Null {
        consts := consts["CACHE_DIR" := Index(cache, "path")];
        config := Assign(config, "cache", Arr(Unset(cache.items, "path")));
      } else {
        consts := consts["CACHE_DIR" := ConstValue(consts, "TEMP_DIR")];
      }
    }
  }

  /** The BASE_PATH statements, with the breaking loop over `base`. */
  method SetBasePaths(config0: seq<Entry>, consts0: map<string, Value>, host: Host) returns (config: seq<Entry>, consts: map<string, Value>)
    ensures Outcome(config, consts) == BaseStep(Outcome(config0, consts0), host)
  {
    config, consts := config0, consts0;
    if "BASE_PATH" !in consts {
      var conf := Get(config, "base");
      if conf != Null && !conf.Arr? {
        consts := Define(consts, "BASE_PATH", conf);
        consts := Define(consts, "BASE_PATH_LIVE", consts["BASE_PATH"]);
      } else {
        var computed := ComputedBaseOf(host.server);
        var base, live := Str(computed), None;
        if conf != Null && !Empty(conf) {
          base, live := SelectFirst(Values(conf.items), conf, computed, host.regex);
        }
        consts := Define(consts, "BASE_PATH", base);
        consts := Define(consts, "BASE_PATH_LIVE", if live.Some? then live.value else consts["BASE_PATH"]);
      }
    }
  }

  /** `core` is always gone from the stored configuration, and `timezone` is no longer set. */
  lemma PreparedDropsCore(config: seq<Entry>, consts: map<string, Value>, host: Host)
    ensures Lookup(Prepared(config, consts, host).config, "core") == None
    ensures !Isset(Prepared(config, consts, host).config, "timezone")
  {
    var o1 := Admitted(config, consts, host);
    LaterStepsKeep(o1, host, "core");
    LaterStepsKeep(o1, host, "timezone");
  }

  /** The TEMP_DIR and CACHE_DIR steps leave every key but `temp` and `cache` alone. */
  lemma LaterStepsKeep(o: Outcome, host: Host, k: string)
    requires k != "temp" && k != "cache"
    ensures Lookup(CacheStep(TempStep(o, host)).config, k) == Lookup(o.config, k)
  {
  }

  /** `temp` goes exactly when it defines TEMP_DIR. */
  lemma PreparedTempKey(config: seq<Entry>, consts: map<string, Value>, host: Host)
    ensures Lookup(Prepared(config, consts, host).config, "temp")
         == if "TEMP_DIR" !in consts && Isset(config, "temp") then None else Lookup(config, "temp")
  {
    var o1 := Admitted(config, consts, host);
    var o2 := TempStep(o1, host);
    var o3 := CacheStep(o2);
    assert Lookup(o3.config, "temp") == Lookup(o2.config, "temp");
    assert Lookup(o1.config, "temp") == Lookup(config, "temp");
    assert Isset(o1.config, "temp") == Isset(config, "temp");
  }

  /** Every key other than those the steps consume and `cache` keeps its value. */
  lemma PreparedOtherKeys(config: seq<Entry>, consts: map<string, Value>, host: Host, k: string)
    requires k != "core" && k != "timezone" && k != "temp" && k != "cache"
    ensures Lookup(Prepared(config, consts, host).config, k) == Lookup(config, k)
  {
    LaterStepsKeep(Admitted(config, consts, host), host, k);
  }

  /** `cache.path` goes exactly when it defines CACHE_DIR; the rest of `cache` stays. */
  lemma PreparedCache(config: seq<Entry>, consts: map<string, Value>, host: Host)
    requires "CACHE_DIR" !in consts && Index(Get(config, "cache"), "path") != Null
    ensures var r := Prepared(config, consts, host).config;
      Get(r, "cache").Arr? && Lookup(Get(r, "cache").items, "path") == None &&
      forall k :: k != "path" ==> Lookup(Get(r, "cache").items, k) == Lookup(Get(config, "cache").items, k)
  {
    var o1 := Admitted(config, consts, host);
    var o2 := TempStep(o1, host);
    assert Get(o2.config, "cache") == Get(config, "cache");
    var o3 := CacheStep(o2);
  }

  /**
   * ENV_LEVEL, when not defined before, is ENV_LIVE; FROM_ADMIN_IP tells
   * whether REMOTE_ADDR is in an admin range.
   */
  lemma PreparedLevels(config: seq<Entry>, consts: map<string, Value>, host: Host)
    ensures var r := Prepared(config, consts, host).consts;
      ("ENV_LEVEL" !in consts ==> "ENV_LEVEL" in r && r["ENV_LEVEL"] == ConstValue(consts, "ENV_LIVE")) &&
      ("FROM_ADMIN_IP" !in consts ==> "FROM_ADMIN_IP" in r && r["FROM_ADMIN_IP"] == Bool(FromAdmin(config, host.server, false)))
  {
    var o1 := Admitted(config, consts, host);
    assert Get(o1.config, "admin") == Get(config, "admin");
    assert AdminRanges(o1.config) == AdminRanges(config);
    assert FromAdmin(o1.config, host.server, false) == FromAdmin(config, host.server, false);
  }

  /** TEMP_DIR, when not defined before, is `temp` or else the system temp directory. */
  lemma PreparedTemp(config: seq<Entry>, consts: map<string, Value>, host: Host)
    requires "TEMP_DIR" !in consts
    ensures var r := Prepared(config, consts, host).consts;
      "TEMP_DIR" in r && r["TEMP_DIR"] == (if Isset(config, "temp") then Get(config, "temp") else Str(TempDefault(host)))
  {
    var o1 := Admitted(config, consts, host);
    assert Get(o1.config, "temp") == Get(config, "temp");
    assert Isset(o1.config, "temp") == Isset(config, "temp");
  }

  /** CACHE_DIR, when not defined before, is `cache.path` or else TEMP_DIR. */
  lemma PreparedCacheDir(config: seq<Entry>, consts: map<string, Value>, host: Host)
    requires "CACHE_DIR" !in consts
    ensures var r := Prepared(config, consts, host).consts;
      "CACHE_DIR" in r && "TEMP_DIR" in r &&
      r["CACHE_DIR"] == (if Index(Get(config, "cache"), "path") != Null then Index(Get(config, "cache"), "path") else r["TEMP_DIR"])
  {
    var o1 := Admitted(config, consts, host);
    var o2 := TempStep(o1, host);
    assert Get(o2.config, "cache") == Get(config, "cache");
    assert "TEMP_DIR" in o2.consts;
  }

  /** A constant defined before the steps keeps its value; the steps only add constants. */
  lemma SettledKeepsConstants(config: seq<Entry>, consts: map<string, Value>, host: Host)
    ensures var r := Settled(config, consts, host).consts;
      forall n :: n in consts ==> n in r && r[n] == consts[n]
  {
  }

  /** The constants the steps may define. */
  const SettledNames: set<string> :=
    {"ENV_LEVEL", "FROM_ADMIN_IP", "TEMP_DIR", "CACHE_DIR", "BASE_PATH", "BASE_PATH_LIVE"}

  /** The steps define no constant besides those six. */
  lemma SettledOnlyAdds(config: seq<Entry>, consts: map<string, Value>, host: Host)
    ensures forall n :: n in Settled(config, consts, host).consts ==> n in consts || n in SettledNames
  {
  }

  lemma ThisPathNotSettled()
    ensures "THIS_PATH" !in SettledNames && "THIS_PATH_LIVE" !in SettledNames
  {
  }

  /** A constant undefined before and not among those six stays undefined. */
  lemma SettledKeepsUndefined(config: seq<Entry>, consts: map<string, Value>, host: Host, n: string)
    requires n !in consts && n !in SettledNames
    ensures n !in Settled(config, consts, host).consts
  {
    SettledOnlyAdds(config, consts, host);
  }

  /**
   * BASE_PATH and BASE_PATH_LIVE, when neither was defined before, are the
   * breaking selection over `base` with the base computed from the request.
   */
  lemma SettledBase(config: seq<Entry>, consts: map<string, Value>, host: Host)
    requires "BASE_PATH" !in consts && "BASE_PATH_LIVE" !in consts
    ensures var r := Settled(config, consts, host).consts;
      "BASE_PATH" in r && "BASE_PATH_LIVE" in r &&
      (r["BASE_PATH"], r["BASE_PATH_LIVE"]) == BreakingBasePaths(Get(config, "base"), ComputedBaseOf(host.server), host.regex)
  {
    var p := Prepared(config, consts, host);
    PreparedOtherKeys(config, consts, host, "base");
    assert Get(p.config, "base") == Get(config, "base");
    assert "BASE_PATH" !in p.consts && "BASE_PATH_LIVE" !in p.consts by {
      PreparedOnlyAdds(config, consts, host);
    }
  }

  /** The steps before the base paths define only ENV_LEVEL, FROM_ADMIN_IP, TEMP_DIR and CACHE_DIR. */
  lemma PreparedOnlyAdds(config: seq<Entry>, consts: map<string, Value>, host: Host)
    ensures forall n :: n in Prepared(config, consts, host).consts ==>
      n in consts || n == "ENV_LEVEL" || n == "FROM_ADMIN_IP" || n == "TEMP_DIR" || n == "CACHE_DIR"
  {
  }

  /** `array_pop`: the list without its last element (an empty list stays empty). */
  function Popped(paths: seq<Value>): seq<Value> {
    if paths == [] then [] else paths[..|paths| - 1]
  }

  /**
   * The autoload search paths after `extensions`: when it is set and not empty,
   * the last path is popped, each extension value appended in order, and
   * CORE_DIR appended last; otherwise the paths are unchanged.
   */
  function Extended(paths: seq<Value>, config: seq<Entry>, coreDir: string): seq<Value> {
    var ext := Get(config, "extensions");
    if ext == Null || Empty(ext) then paths
    else Popped(paths) + (if ext.Arr? then Values(ext.items) else []) + [Str(coreDir)]
  }

  /** The `foreach` that appends each extension path to the search paths. */
  method AppendValues(start: seq<Value>, items: seq<Entry>) returns (paths: seq<Value>)
    ensures paths == start + Values(items)
  {
    ghost var vs := Values(items);
    paths := start;
    var i := 0;
    while i < |items|
      invariant 0 <= i <= |items|
      invariant paths == start + vs[..i]
    {
      assert vs[..i + 1] == vs[..i] + [vs[i]];
      paths := paths + [items[i].val];
      i := i + 1;
    }
    assert vs[..i] == vs;
  }

  /** The statements that reorder `System::$autoloadPrependPaths`. */
  method ExtendAutoload(sys: System, config: seq<Entry>, coreDir: string)
    modifies sys
    ensures sys.autoloadPrependPaths == Extended(old(sys.autoloadPrependPaths), config, coreDir)
  {
    var ext := Get(config, "extensions");
    if ext != Null && !Empty(ext) {
      var paths := sys.autoloadPrependPaths;
      if paths != [] {
        paths := paths[..|paths| - 1];
      }
      if ext.Arr? {
        paths := AppendValues(paths, ext.items);
      }
      sys.autoloadPrependPaths := paths + [Str(coreDir)];
    }
  }

  /**
   * From the initial search paths, a non-empty list of extensions goes between
   * SITE_DIR and CORE_DIR, in its own order, so CORE_DIR stays the last place
   * searched.
   */
  lemma ExtensionsBeforeCore(siteDir: string, coreDir: string, config: seq<Entry>)
    requires Get(config, "extensions").Arr? && Get(config, "extensions").items != []
    ensures var r := Extended([Str(siteDir), Str(coreDir)], config, coreDir);
      r == [Str(siteDir)] + Values(Get(config, "extensions").items) + [Str(coreDir)] &&
      r[0] == Str(siteDir) && r[|r| - 1] == Str(coreDir)
  {
  }

  /**
   * With the paths so ordered, a class in the site directory still wins, and
   * one found only in an extension is loaded from the first extension that has it.
   */
  lemma ExtensionLoads(siteDir: string, coreDir: string, config: seq<Entry>, name: string, sep: char,
                       fileExists: string -> bool, i: nat)
    requires Get(config, "extensions").Arr? && i < |Get(config, "extensions").items|
    requires !fileExists(Candidate(Str(siteDir), name, sep))
    requires fileExists(Candidate(Get(config, "extensions").items[i].val, name, sep))
    requires forall j :: 0 <= j < i ==> !fileExists(Candidate(Get(config, "extensions").items[j].val, name, sep))
    ensures LoadedFile(Extended([Str(siteDir), Str(coreDir)], config, coreDir), name, sep, fileExists)
         == Some(Candidate(Get(config, "extensions").items[i].val, name, sep))
  {
    var items := Get(config, "extensions").items;
    var r := Extended([Str(siteDir), Str(coreDir)], config, coreDir);
    ExtensionsBeforeCore(siteDir, coreDir, config);
    forall j | 0 <= j < i + 1
      ensures !fileExists(Candidate(r[j], name, sep))
    {
      if j > 0 {
        assert r[j] == items[j - 1].val;
      }
    }
    assert r[i + 1] == items[i].val;
    FirstExistingAt(r, name, sep, fileExists, i + 1);
  }
}

=== FILE: config.dfy ===
/**
 * The Config class: `Config::parse()`, which reads the three config files,
 * settles the merged configuration, reorders the autoload search paths and
 * initialises the Server class, and its file reader `Config::parseIniFile()`.
 */
module Config {
  import opened Optional
  import opened PhpValues
  import opened Constants
  import opened Paths
  import opened BasePath
  import opened Bootstrap
  import opened SystemCore
  import opened ServerCore

  /**
   * `Config::parseIniFile($filename)`: false (`None`) for a missing file; a
   * `.ini` file is read by `System::parseIniFile` (the parameter `systemIni`);
   * a `.php` file gives its `$config`; the value is returned only when it is
   * set and not empty.
   */
  function ParseIniFile(files: map<string, File>, path: string, systemIni: string -> Value): (r: Option<Value>)
    ensures path !in files ==> r == None
    ensures r.Some? ==> path in files && !Empty(r.value)
    ensures path in files && IsSuffix(".php", path) && !IsSuffix(".ini", path) ==>
      r == if files[path].config.Some? && !Empty(files[path].config.value) then files[path].config else None
    ensures path in files && IsSuffix(".ini", path) ==>
      r == if !Empty(systemIni(files[path].text)) then Some(systemIni(files[path].text)) else None
  {
    if path !in files then None
    else
      var v := if IsSuffix(".ini", path) then Some(systemIni(files[path].text))
               else if IsSuffix(".php", path) then files[path].config
               else None;
      if v.Some? && !Empty(v.value) then v else None
  }

  /**
   * What a file contributes to the merge: its entries when it read as an
   * array. A non-empty value that is no array is skipped by the merge's
   * `foreach`, which is the same as contributing nothing.
   */
  function AsArray(r: Option<Value>): Option<seq<Entry>> {
    if r.Some? && r.value.Arr? then Some(r.value.items) else None
  }

  /** The merged configuration: core `config.ini`, then site `config.php`, then site `config.ini`. */
  function Merged(host: Host, files: map<string, File>, systemIni: string -> Value): seq<Entry> {
    Layered(AsArray(ParseIniFile(files, host.coreDir + "config.ini", systemIni)),
            AsArray(ParseIniFile(files, host.siteDir + "config.php", systemIni)),
            AsArray(ParseIniFile(files, host.siteDir + "config.ini", systemIni)), false)
  }

  /**
   * `Config::parse()` over the constants defined before it; `config` is what
   * it stores in `Options::$config`, `consts` the constants afterwards.
   */
  method Parse(host: Host, files: map<string, File>, systemIni: string -> Value, consts0: map<string, Value>,
               sys: System, srv: Server)
    returns (config: seq<Entry>, consts: map<string, Value>)
    requires srv.Valid()
    modifies sys, srv
    ensures srv.Valid()
    ensures config == Settled(Merged(host, files, systemIni), consts0, host).config
    ensures sys.autoloadPrependPaths == Extended(old(sys.autoloadPrependPaths), config, host.coreDir)
    ensures (srv.page, consts) == AfterInitialize(old(srv.page), host.server, Settled(Merged(host, files, systemIni), consts0, host).consts)
  {
    var core := ParseIniFile(files, host.coreDir + "config.ini", systemIni);
    var php := ParseIniFile(files, host.siteDir + "config.php", systemIni);
    var ini := ParseIniFile(files, host.siteDir + "config.ini", systemIni);
    config := Layered(AsArray(core), AsArray(php), AsArray(ini), false);
    config, consts := Settle(config, consts0, host);
    ExtendAutoload(sys, config, host.coreDir);
    consts := srv.Initialize(host.server, consts);
  }

  /** Both base constants defined as the same string, and neither THIS_PATH constant defined. */
  predicate BaseOnly(c: map<string, Value>, base: string) {
    "BASE_PATH" in c && c["BASE_PATH"] == Str(base) &&
    "BASE_PATH_LIVE" in c && c["BASE_PATH_LIVE"] == Str(base) &&
    "THIS_PATH" !in c && "THIS_PATH_LIVE" !in c
  }

  /** Initialising the Server class then appends the path to both base constants. */
  lemma ThisPathFromBase(server: map<string, string>, s: map<string, Value>, base: string)
    requires BaseOnly(s, base)
    ensures var c := AfterInitialize([], server, s).1;
      "THIS_PATH" in c && c["THIS_PATH"] == Str(base + PathRest(server)) &&
      "THIS_PATH_LIVE" in c && c["THIS_PATH_LIVE"] == Str(base + PathRest(server)) &&
      c["BASE_PATH"] == Str(base) && c["BASE_PATH_LIVE"] == Str(base)
  {
    InitializeDefines(server, s);
  }

  /**
   * With a string `base` and none of the path constants defined before, a
   * fresh run defines BASE_PATH and BASE_PATH_LIVE as the string, and
   * THIS_PATH and THIS_PATH_LIVE as the string followed by the trimmed
   * PATH_INFO and a `/` (or by nothing when PATH_INFO is unset or only slashes).
   */
  lemma ScalarBasePaths(config: seq<Entry>, consts: map<string, Value>, host: Host, base: string)
    requires Get(config, "base") == Str(base)
    requires "BASE_PATH" !in consts && "BASE_PATH_LIVE" !in consts
    requires "THIS_PATH" !in consts && "THIS_PATH_LIVE" !in consts
    ensures var c := AfterInitialize([], host.server, Settled(config, consts, host).consts).1;
      "THIS_PATH" in c && c["THIS_PATH"] == Str(base + PathRest(host.server)) &&
      "THIS_PATH_LIVE" in c && c["THIS_PATH_LIVE"] == Str(base + PathRest(host.server)) &&
      c["BASE_PATH"] == Str(base) && c["BASE_PATH_LIVE"] == Str(base)
  {
    var s := Settled(config, consts, host).consts;
    SettledScalarBase(config, consts, host, base);
    ThisPathNotSettled();
    SettledKeepsUndefined(config, consts, host, "THIS_PATH");
    SettledKeepsUndefined(config, consts, host, "THIS_PATH_LIVE");
    ThisPathFromBase(host.server, s, base);
  }

  /** The steps leave a string `base` as both base constants. */
  lemma SettledScalarBase(config: seq<Entry>, consts: map<string, Value>, host: Host, base: string)
    requires Get(config, "base") == Str(base)
    requires "BASE_PATH" !in consts && "BASE_PATH_LIVE" !in consts
    ensures var s := Settled(config, consts, host).consts;
      "BASE_PATH" in s && s["BASE_PATH"] == Str(base) && "BASE_PATH_LIVE" in s && s["BASE_PATH_LIVE"] == Str(base)
  {
    SettledBase(config, consts, host);
    ScalarBase(Str(base), ComputedBaseOf(host.server), host.regex);
  }
}

=== FILE: constants.dfy ===
/**
 * PHP constants as the bootstrap defines them: a map from name to value that
 * only grows, since `define` of a name that is already defined leaves the old
 * value in place (PHP only raises a notice).
 */
module Constants {
  import opened PhpValues

  /** `define($name, $v)`: a constant that is already defined keeps its value. */
  function Define(consts: map<string, Value>, name: string, v: Value): (r: map<string, Value>)
    ensures name in r && r[name] == (if name in consts then consts[name] else v)
    ensures forall n :: n in consts ==> n in r && r[n] == consts[n]
    ensures forall n :: n in r ==> n in consts || n == name
  {
    if name in consts then consts else consts[name := v]
  }

  /**
   * A constant used in a string concatenation (`BASE_PATH . $page`): its value
   * as text; a constant that is not defined reads as its own name, as PHP
   * before version 8 does.
   */
  function ConstText(consts: map<string, Value>, name: string): string {
    if name in consts then ToText(consts[name]) else name
  }

  /** A constant used as a value: a constant that is not defined reads as its own name. */
  function ConstValue(consts: map<string, Value>, name: string): Value {
    if name in consts then consts[name] else Str(name)
  }
}

=== FILE: core_functions.dfy ===
/**
 * The function file of the core namespace (`gimle\core`): the merge without the
 * reposition flag, the size-suffix conversion `string_to_bytes` and `page()`,
 * which reads PATH_INFO only. Its nested-array, address-range and config-file
 * functions are those of the Nesting, IpRange and Bootstrap modules (with the
 * loose address comparison and the core reading of `.ini` values).
 */
module CoreFunctions {
  import opened Optional
  import opened Strings
  import opened PhpValues
  import opened Merge
  import opened Paths

  /**
   * `array_merge_recursive_distinct($array1, ...)` of this file: the later
   * arrays folded into the first in order, every key keeping its position.
   */
  method ArrayMergeRecursiveDistinct(first: seq<Entry>, rest: seq<seq<Entry>>) returns (r: seq<Entry>)
    ensures r == MergeAll(first, rest, false)
  {
    r := MergeRecursiveDistinct(first, rest, false);
  }

  /** How a size suffix scales the number before it: `g`, `m` and `k` in either case. */
  function Multiplier(c: char): nat {
    var l := LowerChar(c);
    if l == 'g' then 1024 * 1024 * 1024
    else if l == 'm' then 1024 * 1024
    else if l == 'k' then 1024
    else 1
  }

  /** The number of bytes a size setting such as `128M` stands for. */
  function SizeBytes(size: string): int {
    var t := Trim(size);
    if t == [] then 0 else LeadingInt(t) * Multiplier(t[|t| - 1])
  }

  /**
   * `string_to_bytes($size)`: trim, read the leading integer, then multiply by
   * 1024 once per case the lower-cased last character falls through
   * (`g` three times, `m` twice, `k` once).
   */
  method StringToBytes(size: string) returns (r: int)
    ensures r == SizeBytes(size)
  {
    var t := Trim(size);
    var last: string := if t == [] then "" else Lower(t[|t| - 1..]);
    ghost var scale := if t == [] then 1 else Multiplier(t[|t| - 1]);
    assert t != [] ==> last == [LowerChar(t[|t| - 1])];
    r := LeadingInt(t);
    ghost var n := r;
    var falling := false;
    if last == "g" {
      r := r * 1024;
      falling := true;
    }
    if falling || last == "m" {
      r := r * 1024;
      falling := true;
    }
    if falling || last == "k" {
      r := r * 1024;
    }
    if t == [] {
      assert LeadingInt(t) == 0;
    } else if last == "g" {
      assert scale == 1073741824 && r == n * 1073741824;
    } else if last == "m" {
      assert scale == 1048576 && r == n * 1048576;
    } else if last == "k" {
      assert scale == 1024 && r == n * 1024;
    } else {
      assert scale == 1 && r == n;
    }
  }

  /**
   * A rendered number followed by a suffix letter reads back as that number
   * scaled by the suffix: `5k` is 5120, `2G` is 2147483648, and any other
   * non-digit suffix leaves the number as it is.
   */
  lemma SizeBytesOfSuffix(n: int, c: char)
    requires !IsDigit(c) && !IsTrimSpace(c)
    ensures SizeBytes(IntToDecimal(n) + [c]) == n * Multiplier(c)
  {
    var s := IntToDecimal(n) + [c];
    assert !IsTrimSpace(s[0]) by {
      if n >= 0 {
        assert IsDigit(NatToDecimal(n)[0]);
      }
    }
    assert TrimLeft(s) == s;
    assert TrimRight(s) == s;
    LeadingIntOfDecimal(n, [c]);
  }

  /** `page($part)` of this file: the segments of PATH_INFO only. */
  function Page(server: map<string, string>, part: Option<int>): (r: PageResult)
    ensures part.None? ==> r == Whole(PathInfoSegments(server))
    ensures part.Some? ==> (r == NoPart <==> !(0 <= part.value < |PathInfoSegments(server)|))
    ensures part.Some? && r != NoPart ==> r == Part(PathInfoSegments(server)[part.value])
  {
    Select(PathInfoSegments(server), part)
  }

  /** Without PATH_INFO there are no segments, whatever REQUEST_URI holds: this `page()` has no fallback. */
  lemma PageIgnoresRequestUri(server: map<string, string>, uri: string, part: Option<int>)
    requires "PATH_INFO" !in server
    ensures Page(server["REQUEST_URI" := uri], part) == Page(server, part)
    ensures Page(server, None) == Whole([])
  {
  }
}

=== FILE: ini.dfy ===
/**
 * The `.ini` branch of `parse_config_file`, line by line. A line starting with
 * `;` is a comment. A line is split on ` = `: when there is a second part and
 * the trimmed key does not start with `[`, the second part is read as a value
 * and stored, at the top level or, after a header, nested under the header's
 * dot path. Any other line is a header: its key minus the first and last
 * character becomes the section for the lines that follow.
 */
module Ini {
  import opened Optional
  import opened Strings
  import opened PhpValues
  import opened IniValues
  import Merge
  import Nesting

  /** A line of the file with the number a warning reports for it. */
  datatype Line = Line(number: nat, text: string)

  /** `trigger_error('Unknown value in ini file on line ' . $n . ': ' . $text)`. */
  datatype Warning = Warning(line: nat, text: string)

  /** The parser's variables between lines: `$return`, `$lastkey` (None while unset), and the warnings raised. */
  datatype State = State(config: seq<Entry>, section: Option<string>, warnings: seq<Warning>)

  /* ---------- the lines of the file ---------- */

  function StripCR(s: string): string {
    if s != [] && s[|s| - 1] == '\r' then s[..|s| - 1] else s
  }

  /**
   * The text `file()` keeps for physical line `i` (0-based) of the pieces
   * between newlines: a line ended by a newline loses a `\r` before it, the
   * unterminated last piece is kept as it is.
   */
  function PieceText(pieces: seq<string>, i: nat): string
    requires i < |pieces|
  {
    if i + 1 < |pieces| then StripCR(pieces[i]) else pieces[i]
  }

  /** The non-empty lines from physical line `i` on, each numbered as it stands in the file. */
  function PhysicalFrom(pieces: seq<string>, i: nat): seq<Line>
    requires i <= |pieces|
    decreases |pieces| - i
  {
    if i == |pieces| then []
    else
      var rest := PhysicalFrom(pieces, i + 1);
      if PieceText(pieces, i) == [] then rest else [Line(i + 1, PieceText(pieces, i))] + rest
  }

  /** The lines the parser sees, with the file's own line numbers. */
  function PhysicalLines(content: string): seq<Line> {
    PhysicalFrom(Explode(content, '\n'), 0)
  }

  function Texts(lines: seq<Line>): (r: seq<string>)
    ensures |r| == |lines| && forall i :: 0 <= i < |lines| ==> r[i] == lines[i].text
  {
    if lines == [] then [] else [lines[0].text] + Texts(lines[1..])
  }

  /** `file($f, FILE_IGNORE_NEW_LINES | FILE_SKIP_EMPTY_LINES)`: the non-empty lines, re-indexed from 0. */
  function FileLines(content: string): seq<string> {
    Texts(PhysicalLines(content))
  }

  /** As written, a warning reports `$linenum + 1`, the position in the re-indexed list. */
  function ListedLines(content: string): (r: seq<Line>)
    ensures |r| == |FileLines(content)|
    ensures forall i :: 0 <= i < |r| ==> r[i] == Line(i + 1, FileLines(content)[i])
  {
    var t := FileLines(content);
    seq(|t|, i requires 0 <= i < |t| => Line(i + 1, t[i]))
  }

  /** Each line keeps its physical number: the numbered line of the file holds exactly that text. */
  lemma {:induction false} PhysicalFromNumbered(pieces: seq<string>, i: nat)
    requires i <= |pieces|
    ensures forall j :: 0 <= j < |PhysicalFrom(pieces, i)| ==>
      var l := PhysicalFrom(pieces, i)[j];
      i < l.number <= |pieces| && PieceText(pieces, l.number - 1) == l.text && l.text != []
    decreases |pieces| - i
  {
    if i < |pieces| {
      PhysicalFromNumbered(pieces, i + 1);
    }
  }

  lemma PhysicalLinesNumbered(content: string)
    ensures forall j :: 0 <= j < |PhysicalLines(content)| ==>
      var l := PhysicalLines(content)[j];
      1 <= l.number <= |Explode(content, '\n')| && PieceText(Explode(content, '\n'), l.number - 1) == l.text
  {
    PhysicalFromNumbered(Explode(content, '\n'), 0);
  }

  /**
   * The re-indexed numbering misnames a line as soon as an empty line comes
   * before it: in a file whose first line is empty, the value on line 2 is
   * reported as being on line 1.
   */
  lemma ListedLinesMisnumber()
    ensures var content := "\na = x";
      ListedLines(content) == [Line(1, "a = x")] &&
      PhysicalLines(content) == [Line(2, "a = x")] &&
      PieceText(Explode(content, '\n'), 0) == ""
  {
    var content := "\na = x";
    var pieces := Explode(content, '\n');
    assert IndexOf(content, '\n') == Some(0) by { IndexOfAt(content, '\n', 0); }
    ExplodeFirst(content, '\n', 0);
    assert content[1..] == "a = x";
    ExplodeNoSeparator("a = x", '\n');
    assert pieces == ["", "a = x"];
    assert PhysicalFrom(pieces, 2) == [];
    assert PhysicalFrom(pieces, 1) == [Line(2, "a = x")];
  }

  /* ---------- one line ---------- */

  /** `substr($key, 1, -1)`: the header without its brackets. */
  function SectionName(key: string): (r: string)
    ensures |key| >= 2 ==> r == key[1..|key| - 1]
    ensures |key| < 2 ==> r == []
  {
    if |key| < 2 then [] else key[1..|key| - 1]
  }

  predicate IsComment(text: string) {
    |text| >= 1 && text[0] == ';'
  }

  /**
   * `explode(' = ', $linestr)` and `trim($line[0])`: the key, and the value text
   * when the line is a key line (a second part exists and the key does not start with `[`).
   */
  function Split(text: string): (string, Option<string>) {
    var parts := ExplodeStr(text, " = ");
    var key := Trim(parts[0]);
    (key, if |parts| >= 2 && !(|key| >= 1 && key[0] == '[') then Some(parts[1]) else None)
  }

  /**
   * Storing a value: `$return[$key] = $value` before any header, otherwise
   * `array_merge_recursive_distinct($return, string_to_nested_array($lastkey, [$key => $value]))`.
   */
  function Store(config: seq<Entry>, section: Option<string>, key: string, v: Value): seq<Entry> {
    match section
    case None => Assign(config, key, v)
    case Some(sec) => Merge.MergeTwo(config, Nesting.StringToNested(sec, Arr([Entry(key, v)]), '.'), false)
  }

  /** One turn of the `foreach` over the lines. */
  function Step(st: State, line: Line, d: Dialect, consts: map<string, Value>): State {
    if IsComment(line.text) then st
    else
      var (key, value) := Split(line.text);
      match value
      case None => st.(section := Some(SectionName(key)))
      case Some(t) =>
        match ReadValue(t, d, consts)
        case Unknown => st.(warnings := st.warnings + [Warning(line.number, line.text)])
        case Known(v) => if v.Null? then st else st.(config := Store(st.config, st.section, key, v))
  }

  const Start := State([], None, [])

  /** The state after the given lines, in order. */
  function ParseLines(lines: seq<Line>, d: Dialect, consts: map<string, Value>): State
    decreases |lines|
  {
    if lines == [] then Start
    else Step(ParseLines(lines[..|lines| - 1], d, consts), lines[|lines| - 1], d, consts)
  }

  /** The loop of `parse_config_file`, updating `$return`, `$lastkey` and the warnings line by line. */
  method ParseIni(lines: seq<Line>, d: Dialect, consts: map<string, Value>)
    returns (config: seq<Entry>, warnings: seq<Warning>)
    ensures config == ParseLines(lines, d, consts).config
    ensures warnings == ParseLines(lines, d, consts).warnings
  {
    config := [];
    warnings := [];
    var lastkey: Option<string> := None;
    var i := 0;
    while i < |lines|
      invariant 0 <= i <= |lines|
      invariant State(config, lastkey, warnings) == ParseLines(lines[..i], d, consts)
    {
      ParseLinesNext(lines, i, d, consts);
      config, lastkey, warnings := ParseLine(config, lastkey, warnings, lines[i], d, consts);
      i := i + 1;
    }
    assert lines[..i] == lines;
  }

  lemma ParseLinesNext(lines: seq<Line>, i: nat, d: Dialect, consts: map<string, Value>)
    requires i < |lines|
    ensures ParseLines(lines[..i + 1], d, consts) == Step(ParseLines(lines[..i], d, consts), lines[i], d, consts)
  {
    assert lines[..i + 1][..i] == lines[..i];
  }

  /** The body of the loop: one line. */
  method ParseLine(config: seq<Entry>, lastkey: Option<string>, warnings: seq<Warning>, line: Line,
                   d: Dialect, consts: map<string, Value>)
    returns (config': seq<Entry>, lastkey': Option<string>, warnings': seq<Warning>)
    ensures State(config', lastkey', warnings') == Step(State(config, lastkey, warnings), line, d, consts)
  {
    config', lastkey', warnings' := config, lastkey, warnings;
    if IsComment(line.text) {
      return;
    }
    var parts := ExplodeStr(line.text, " = ");
    var key := Trim(parts[0]);
    if |parts| >= 2 && !(|key| >= 1 && key[0] == '[') {
      var reading := ReadValue(parts[1], d, consts);
      if reading.Unknown? {
        warnings' := warnings + [Warning(line.number, line.text)];
      } else if !reading.v.Null? {
        if lastkey.None? {
          config' := Assign(config, key, reading.v);
        } else {
          var nested := Nesting.StringToNested(lastkey.value, Arr([Entry(key, reading.v)]), '.');
          config' := Merge.MergeInto(config, Arr(nested), false);
        }
      }
    } else {
      lastkey' := Some(SectionName(key));
    }
  }

  /* ---------- what the parser promises ---------- */

  function NonComments(lines: seq<Line>): (r: seq<Line>)
    ensures forall i :: 0 <= i < |r| ==> !IsComment(r[i].text)
    decreases |lines|
  {
    if lines == [] then []
    else
      var init := NonComments(lines[..|lines| - 1]);
      var last := lines[|lines| - 1];
      if IsComment(last.text) then init else init + [last]
  }

  /** Comment lines have no effect at all: parsing with them removed gives the same state. */
  lemma {:induction false} CommentsIgnored(lines: seq<Line>, d: Dialect, consts: map<string, Value>)
    ensures ParseLines(lines, d, consts) == ParseLines(NonComments(lines), d, consts)
    decreases |lines|
  {
    if lines != [] {
      var init := lines[..|lines| - 1];
      var last := lines[|lines| - 1];
      CommentsIgnored(init, d, consts);
      if !IsComment(last.text) {
        var f := NonComments(init);
        assert (f + [last])[..|f + [last]| - 1] == f;
      }
    }
  }

  /**
   * A key line whose value reads as a non-null scalar stores it: before any
   * header under its key, after a header at the header's dot path followed by
   * the key. The section and the warnings do not change.
   */
  lemma KeyLineStores(st: State, line: Line, d: Dialect, consts: map<string, Value>)
    requires !IsComment(line.text)
    requires Split(line.text).1.Some?
    requires ReadValue(Split(line.text).1.value, d, consts).Known?
    requires var v := ReadValue(Split(line.text).1.value, d, consts).v; !v.Null? && !v.Arr?
    ensures var st' := Step(st, line, d, consts);
      var key := Split(line.text).0;
      var v := ReadValue(Split(line.text).1.value, d, consts).v;
      st'.section == st.section && st'.warnings == st.warnings &&
      match st.section
      case None => Lookup(st'.config, key) == Some(v)
      case Some(sec) => Nesting.Dig(Arr(st'.config), Explode(sec, '.') + [key]) == Some(v)
  {
    var key := Split(line.text).0;
    var v := ReadValue(Split(line.text).1.value, d, consts).v;
    if st.section.Some? {
      var sec := st.section.value;
      Nesting.NestedPath(sec, Arr([Entry(key, v)]), '.');
      Nesting.NestPathSnoc(Explode(sec, '.'), key, v);
      Nesting.MergeNestDig(st.config, Explode(sec, '.') + [key], v, false);
    }
  }

  /**
   * What a line can change: the configuration only on a key line whose value
   * reads as non-null, the warnings only on a key line whose value is not
   * recognised (and then by exactly one warning naming the line), the section
   * only on a header line.
   */
  lemma StepFrame(st: State, line: Line, d: Dialect, consts: map<string, Value>)
    ensures var st' := Step(st, line, d, consts);
      var (key, value) := Split(line.text);
      var reading := if value.Some? then ReadValue(value.value, d, consts) else Unknown;
      (st'.config != st.config ==> !IsComment(line.text) && value.Some? && reading.Known? && !reading.v.Null?) &&
      (st'.warnings != st.warnings ==>
         !IsComment(line.text) && value.Some? && reading.Unknown? &&
         st'.warnings == st.warnings + [Warning(line.number, line.text)]) &&
      (st'.section != st.section ==> !IsComment(line.text) && value.None? && st'.section == Some(SectionName(key)))
  {
  }

  /** `parse_config_file` on a file the parser reads line by line: the configuration it returns. */
  function ParseIniFile(content: string, d: Dialect, consts: map<string, Value>): seq<Entry> {
    ParseLines(PhysicalLines(content), d, consts).config
  }
}

=== FILE: ini_values.dfy ===
/**
 * How `parse_config_file` reads the text to the right of ` = ` on an INI line.
 * There are two copies of the reader: the one in init.php (`Bootstrap`) knows
 * octal, hexadecimal and binary integers and negative decimals; the one in
 * lib/gimle/core/functions.php (`Core`) turns only all-digit text into an
 * integer. Both accept quoted strings, `true`/`false`/`null`, float text and
 * the names of defined constants, and warn about anything else.
 */
module IniValues {
  import opened Optional
  import opened Strings
  import opened PhpValues

  datatype Dialect = Bootstrap | Core

  /** The outcome of reading a value: a PHP value (perhaps null), or not recognised. */
  datatype Reading = Known(v: Value) | Unknown

  /* ---------- quoted strings ---------- */

  /** First and last character are `"` (a lone `"` counts: it is both). */
  predicate IsQuoted(t: string) {
    |t| >= 1 && t[0] == '"' && t[|t| - 1] == '"'
  }

  /** `substr($t, 1, -1)`. */
  function Unquote(t: string): (r: string)
    ensures |t| >= 2 ==> r == t[1..|t| - 1]
    ensures |r| + 2 <= |t| || r == []
  {
    if |t| < 2 then [] else t[1..|t| - 1]
  }

  /** `str_replace(['\"', '\\'], ['"', '\'], $s)`: the two replacements run one after the other. */
  function Unescape(s: string): string {
    ReplaceAll(ReplaceAll(s, "\\\"", "\""), "\\\\", "\\")
  }

  /** The writer's side: a backslash is doubled and a quote is preceded by a backslash. */
  function Escape(s: string): (r: string)
    ensures r == [] || r[0] != '"'
  {
    if s == [] then []
    else (if s[0] == '\\' then "\\\\" else if s[0] == '"' then "\\\"" else [s[0]]) + Escape(s[1..])
  }

  /** The text between the two passes of `Unescape`: only the backslashes still doubled. */
  function Doubled(s: string): string {
    if s == [] then []
    else (if s[0] == '\\' then "\\\\" else [s[0]]) + Doubled(s[1..])
  }

  lemma {:induction false} UnescapeQuotes(s: string)
    ensures ReplaceAll(Escape(s), "\\\"", "\"") == Doubled(s)
  {
    if s != [] {
      var t := Escape(s[1..]);
      UnescapeQuotes(s[1..]);
      if s[0] == '\\' {
        assert Escape(s) == ['\\'] + (['\\'] + t);
        assert (['\\'] + (['\\'] + t))[1..] == ['\\'] + t;
        if t != [] {
          assert (['\\'] + t)[1] == t[0];
          assert (['\\'] + t)[..2] != "\\\"";
          assert (['\\'] + t)[1..] == t;
        }
      } else if s[0] == '"' {
        assert Escape(s) == "\\\"" + t;
        assert ("\\\"" + t)[..2] == "\\\"";
        assert ("\\\"" + t)[2..] == t;
      } else {
        assert Escape(s) == [s[0]] + t;
        if t != [] {
          assert ([s[0]] + t)[..2] != "\\\"";
          assert ([s[0]] + t)[1..] == t;
        }
      }
    }
  }

  lemma {:induction false} UndoubleBackslashes(s: string)
    ensures ReplaceAll(Doubled(s), "\\\\", "\\") == s
  {
    if s != [] {
      var t := Doubled(s[1..]);
      UndoubleBackslashes(s[1..]);
      if s[0] == '\\' {
        assert Doubled(s) == "\\\\" + t;
        assert ("\\\\" + t)[..2] == "\\\\";
        assert ("\\\\" + t)[2..] == t;
      } else {
        assert Doubled(s) == [s[0]] + t;
        if t != [] {
          assert ([s[0]] + t)[..2][0] == s[0];
          assert ([s[0]] + t)[..2] != "\\\\";
          assert ([s[0]] + t)[1..] == t;
        }
      }
      assert s == [s[0]] + s[1..];
    }
  }

  /** Unescaping undoes escaping, for every string. */
  lemma UnescapeEscape(s: string)
    ensures Unescape(Escape(s)) == s
  {
    UnescapeQuotes(s);
    UndoubleBackslashes(s);
  }

  /* ---------- integers in other bases ---------- */

  /** A digit as PHP's base conversion reads it: 0-9, then a-z / A-Z from 10. */
  function DigitOf(c: char): (d: Option<nat>)
    ensures d.Some? ==> d.value < 36
  {
    if '0' <= c <= '9' then Some(c as int - '0' as int)
    else if 'a' <= c <= 'z' then Some(c as int - 'a' as int + 10)
    else if 'A' <= c <= 'Z' then Some(c as int - 'A' as int + 10)
    else None
  }

  /**
   * `octdec`, `hexdec`, `bindec`: the digits valid in the base are read from the
   * left; every other character is skipped.
   */
  function BaseDec(s: string, base: nat): nat
    decreases |s|
  {
    if s == [] then 0
    else
      var n := BaseDec(s[..|s| - 1], base);
      var d := DigitOf(s[|s| - 1]);
      if d.Some? && d.value < base then n * base + d.value else n
  }

  predicate IsBaseDigits(s: string, base: nat) {
    |s| > 0 && forall i :: 0 <= i < |s| ==> DigitOf(s[i]).Some? && DigitOf(s[i]).value < base
  }

  /** The digit character for a value below 16, lower-case letters above 9. */
  function DigitText(d: nat): (c: char)
    requires d < 16
    ensures DigitOf(c) == Some(d)
  {
    if d < 10 then ('0' as int + d) as char else ('a' as int + d - 10) as char
  }

  /** The writer's side: `n` in base 2 to 16 without leading zeros (`decoct`, `dechex`, `decbin`). */
  function BaseText(n: nat, base: nat): (s: string)
    requires 2 <= base <= 16
    ensures IsBaseDigits(s, base)
    decreases n
  {
    if n < base then [DigitText(n)]
    else
      DivModBase(n, base);
      BaseText(n / base, base) + [DigitText(n % base)]
  }

  lemma DivModBase(n: nat, base: nat)
    requires 2 <= base <= n
    ensures n == (n / base) * base + n % base
    ensures 1 <= n / base < n && n % base < base
  {
    var q := n / base;
    assert q * base == q * (base - 1) + q;
    MulAtLeastOne(base - 1, q);
  }

  /** Reading back what `BaseText` wrote gives the number. */
  lemma {:induction false} BaseDecText(n: nat, base: nat)
    requires 2 <= base <= 16
    ensures BaseDec(BaseText(n, base), base) == n
    decreases n
  {
    var s := BaseText(n, base);
    if n >= base {
      var q, r := n / base, n % base;
      DivModBase(n, base);
      assert s[..|s| - 1] == BaseText(q, base);
      assert DigitOf(s[|s| - 1]) == Some(r);
      BaseDecText(q, base);
      assert BaseDec(s, base) == BaseDec(BaseText(q, base), base) * base + r;
    } else {
      assert s[..|s| - 1] == [];
    }
  }

  lemma MulAtLeastOne(k: nat, m: nat)
    requires k >= 1
    ensures k * m >= m
  {
    assert k * m == (k - 1) * m + m;
  }

  /** A leading character worth nothing (a `-`, a `0`) does not change the value. */
  lemma {:induction false} BaseDecDropFront(c: char, s: string, base: nat)
    requires BaseDec([c], base) == 0
    ensures BaseDec([c] + s, base) == BaseDec(s, base)
    decreases |s|
  {
    if s != [] {
      var t := [c] + s;
      assert t[..|t| - 1] == [c] + s[..|s| - 1];
      assert t[|t| - 1] == s[|s| - 1];
      BaseDecDropFront(c, s[..|s| - 1], base);
    }
  }

  /* ---------- float text ---------- */

  /** The white space the float filter strips from both ends. */
  predicate IsFilterSpace(c: char) {
    c == ' ' || c == '\t' || c == '\r' || c == '\n' || c as int == 11
  }

  function FilterTrimLeft(s: string): (r: string)
    ensures |r| <= |s|
  {
    if s != [] && IsFilterSpace(s[0]) then FilterTrimLeft(s[1..]) else s
  }

  function FilterTrimRight(s: string): (r: string)
    ensures |r| <= |s|
  {
    if s != [] && IsFilterSpace(s[|s| - 1]) then FilterTrimRight(s[..|s| - 1]) else s
  }

  /** Nothing, or `e`/`E`, an optional sign and at least one digit. */
  predicate FilterExponent(s: string) {
    s == [] ||
    ((s[0] == 'e' || s[0] == 'E') &&
     IsDigits(if |s| > 1 && (s[1] == '+' || s[1] == '-') then s[2..] else s[1..]))
  }

  /** Digits, an optional `.` and more digits (at least one digit in all), then an exponent. */
  predicate IsFloatBody(s: string) {
    var d := LeadingDigits(s);
    var r := s[|d|..];
    if r != [] && r[0] == '.' then
      var f := LeadingDigits(r[1..]);
      |d| + |f| > 0 && FilterExponent(r[1..][|f|..])
    else
      |d| > 0 && FilterExponent(r)
  }

  /**
   * The text `filter_var($t, FILTER_VALIDATE_FLOAT)` accepts with the default
   * flags: surrounding white space, an optional sign, then a decimal number.
   * The filter also rejects text whose double is infinite (`1e999`) or rounds a
   * non-zero value to 0 (`1e-999`); that range test is not part of this predicate.
   */
  predicate IsFloatText(t: string) {
    var u := FilterTrimRight(FilterTrimLeft(t));
    IsFloatBody(if u != [] && (u[0] == '+' || u[0] == '-') then u[1..] else u)
  }

  /* ---------- the reader ---------- */

  /** `ctype_digit($t)`, or a `-` followed by `ctype_digit` text. */
  predicate IsSignedDigits(t: string) {
    IsDigits(t) || (t != [] && t[0] == '-' && IsDigits(t[1..]))
  }

  /** The integer branch of init.php: a leading zero (after the sign) means octal. */
  function SignedInteger(t: string): int
    requires IsSignedDigits(t)
  {
    var num := if t[0] == '-' then t[1..] else t;
    if num[0] == '0' then
      (if t[0] == '-' then -(BaseDec(t, 8) as int) else BaseDec(t, 8))
    else LeadingInt(t)
  }

  /** `/^0[xX][0-9a-fA-F]+$/` and `/^0b[01]+$/` (the prefix letter is given). */
  predicate HasRadixPrefix(t: string, letters: set<char>, base: nat) {
    |t| >= 3 && t[0] == '0' && t[1] in letters && IsBaseDigits(t[2..], base)
  }

  /** The same forms with a leading `-`. */
  predicate HasNegativeRadixPrefix(t: string, letters: set<char>, base: nat) {
    |t| >= 1 && t[0] == '-' && HasRadixPrefix(t[1..], letters, base)
  }

  /**
   * The value text of one INI line, branch by branch in the order of the source.
   * `consts` holds the defined constants and their values.
   */
  function ReadValue(t: string, d: Dialect, consts: map<string, Value>): Reading {
    if IsQuoted(t) then Known(Str(Unescape(Unquote(t))))
    else if d == Bootstrap && IsSignedDigits(t) then Known(Int(SignedInteger(t)))
    else if d == Core && IsDigits(t) then Known(Int(LeadingInt(t)))
    else if t == "true" then Known(Bool(true))
    else if t == "false" then Known(Bool(false))
    else if t == "null" then Known(Null)
    else if d == Bootstrap && HasRadixPrefix(t, {'x', 'X'}, 16) then Known(Int(BaseDec(t[2..], 16)))
    else if d == Bootstrap && HasNegativeRadixPrefix(t, {'x', 'X'}, 16) then Known(Int(-(BaseDec(t[3..], 16) as int)))
    else if d == Bootstrap && HasRadixPrefix(t, {'b'}, 2) then Known(Int(BaseDec(t[2..], 2)))
    else if d == Bootstrap && HasNegativeRadixPrefix(t, {'b'}, 2) then Known(Int(-(BaseDec(t[3..], 2) as int)))
    else if IsFloatText(t) then Known(FloatLit(t))
    else if t in consts then Known(consts[t])
    else Unknown
  }

  /* ---------- what the reader promises ---------- */

  /** A quoted, escaped string reads back as the string itself, in both readers. */
  lemma QuotedRoundTrip(s: string, d: Dialect, consts: map<string, Value>)
    ensures ReadValue("\"" + Escape(s) + "\"", d, consts) == Known(Str(s))
  {
    var t := "\"" + Escape(s) + "\"";
    assert IsQuoted(t);
    assert Unquote(t) == Escape(s);
    UnescapeEscape(s);
  }

  /** Text that starts with a digit or `-` is never quoted, `true`, `false` or `null`. */
  lemma SignedBranch(t: string, consts: map<string, Value>)
    requires IsSignedDigits(t)
    ensures ReadValue(t, Bootstrap, consts) == Known(Int(SignedInteger(t)))
  {
    assert t[0] == '-' || IsDigit(t[0]);
  }

  lemma CoreDigitsBranch(t: string, consts: map<string, Value>)
    requires IsDigits(t)
    ensures ReadValue(t, Core, consts) == Known(Int(LeadingInt(t)))
  {
    assert IsDigit(t[0]);
  }

  /** init.php reads every integer written in decimal back as itself. */
  lemma DecimalRoundTrip(n: int, consts: map<string, Value>)
    ensures ReadValue(IntToDecimal(n), Bootstrap, consts) == Known(Int(n))
  {
    var t := IntToDecimal(n);
    var m := if n < 0 then -n else n;
    var digits := NatToDecimal(m);
    DecimalNoLeadingZero(m);
    assert t == if n < 0 then "-" + digits else digits;
    if n < 0 {
      assert t[1..] == digits;
    }
    assert IsSignedDigits(t);
    SignedBranch(t, consts);
    if n == 0 {
      assert t == "0";
      assert BaseDec(t, 8) == BaseDec([], 8) * 8 + 0 by { assert t[..0] == []; }
    } else {
      LeadingIntOfDecimal(n, []);
      assert t + [] == t;
    }
  }

  /** The core reader reads a non-negative decimal integer back as itself. */
  lemma CoreDecimalRoundTrip(n: nat, consts: map<string, Value>)
    ensures ReadValue(NatToDecimal(n), Core, consts) == Known(Int(n))
  {
    var t := NatToDecimal(n);
    LeadingIntOfDecimal(n, []);
    assert t + [] == t;
    CoreDigitsBranch(t, consts);
  }

  /** `0` followed by octal digits is all decimal digits, and is read as octal. */
  lemma OctalText(s: string)
    requires IsBaseDigits(s, 8)
    ensures IsDigits("0" + s) && BaseDec("0" + s, 8) == BaseDec(s, 8)
    ensures IsDigits(("-0" + s)[1..]) && BaseDec("-0" + s, 8) == BaseDec(s, 8)
  {
    var t := "0" + s;
    assert t == ['0'] + s;
    forall i | 0 <= i < |t| ensures IsDigit(t[i]) {
      if i > 0 {
        assert t[i] == s[i - 1];
        assert DigitOf(s[i - 1]).value < 8;
      }
    }
    assert BaseDec(['0'], 8) == 0 by { assert ['0'][..0] == []; }
    BaseDecDropFront('0', s, 8);
    var u := "-0" + s;
    assert u == ['-'] + t && u[1..] == t;
    assert BaseDec(['-'], 8) == 0 by { assert ['-'][..0] == []; }
    BaseDecDropFront('-', t, 8);
  }

  /** init.php: `0` followed by octal digits reads as that octal number, and `-0...` as its negation. */
  lemma OctalRoundTrip(n: nat, consts: map<string, Value>)
    ensures ReadValue("0" + BaseText(n, 8), Bootstrap, consts) == Known(Int(n))
    ensures ReadValue("-0" + BaseText(n, 8), Bootstrap, consts) == Known(Int(-(n as int)))
  {
    var s := BaseText(n, 8);
    BaseDecText(n, 8);
    OctalText(s);
    var t := "0" + s;
    var u := "-0" + s;
    assert t[0] == '0';
    assert u[0] == '-' && u[1..][0] == '0';
    SignedBranch(t, consts);
    SignedBranch(u, consts);
  }

  /** Not quoted, not all digits, not `true`, `false` or `null`: the core reader's first branches miss. */
  predicate CoreMisses(t: string) {
    !IsQuoted(t) && !IsDigits(t) && t != "true" && t != "false" && t != "null"
  }

  /** Past its first branches, the core reader takes float text, then a constant name. */
  lemma CoreLateBranches(t: string, consts: map<string, Value>)
    requires CoreMisses(t)
    ensures IsFloatText(t) ==> ReadValue(t, Core, consts) == Known(FloatLit(t))
    ensures !IsFloatText(t) ==> ReadValue(t, Core, consts) == if t in consts then Known(consts[t]) else Unknown
  {
  }

  /** Past its first branches, init.php's reader tries the four radix forms in order. */
  lemma RadixBranches(t: string, consts: map<string, Value>)
    requires CoreMisses(t) && !IsSignedDigits(t)
    ensures HasRadixPrefix(t, {'x', 'X'}, 16) ==> ReadValue(t, Bootstrap, consts) == Known(Int(BaseDec(t[2..], 16)))
    ensures !HasRadixPrefix(t, {'x', 'X'}, 16) && HasNegativeRadixPrefix(t, {'x', 'X'}, 16) ==>
      ReadValue(t, Bootstrap, consts) == Known(Int(-(BaseDec(t[3..], 16) as int)))
    ensures !HasRadixPrefix(t, {'x', 'X'}, 16) && !HasNegativeRadixPrefix(t, {'x', 'X'}, 16) && HasRadixPrefix(t, {'b'}, 2) ==>
      ReadValue(t, Bootstrap, consts) == Known(Int(BaseDec(t[2..], 2)))
    ensures !HasRadixPrefix(t, {'x', 'X'}, 16) && !HasNegativeRadixPrefix(t, {'x', 'X'}, 16) &&
            !HasRadixPrefix(t, {'b'}, 2) && HasNegativeRadixPrefix(t, {'b'}, 2) ==>
      ReadValue(t, Bootstrap, consts) == Known(Int(-(BaseDec(t[3..], 2) as int)))
  {
  }

  /** Text `0` + a non-digit + more is none of the forms checked before the radix forms. */
  lemma RadixMissesEarlier(t: string)
    requires |t| >= 3 && t[0] == '0' && !IsDigit(t[1])
    ensures CoreMisses(t) && !IsSignedDigits(t)
  {
    assert !IsDigit(t[1]);
  }

  /** The same for `-0` + a non-digit + more, which is not an unsigned radix form either. */
  lemma NegativeRadixMissesEarlier(t: string)
    requires |t| >= 4 && t[0] == '-' && t[1] == '0' && !IsDigit(t[2])
    ensures CoreMisses(t) && !IsSignedDigits(t)
    ensures !HasRadixPrefix(t, {'x', 'X'}, 16) && !HasRadixPrefix(t, {'b'}, 2)
  {
    assert !IsDigit(t[0]);
    assert t[1..][1] == t[2];
    assert !IsDigit(t[1..][1]);
  }

  /** `0x` and `-0x` followed by hexadecimal digits are the two hexadecimal forms. */
  lemma HexForms(s: string)
    requires IsBaseDigits(s, 16)
    ensures var t := "0x" + s;
      CoreMisses(t) && !IsSignedDigits(t) && HasRadixPrefix(t, {'x', 'X'}, 16) && t[2..] == s
    ensures var u := "-0x" + s;
      CoreMisses(u) && !IsSignedDigits(u) && !HasRadixPrefix(u, {'x', 'X'}, 16) &&
      HasNegativeRadixPrefix(u, {'x', 'X'}, 16) && u[3..] == s
  {
    var t := "0x" + s;
    assert t[2..] == s && t[0] == '0' && t[1] == 'x';
    RadixMissesEarlier(t);
    var u := "-0x" + s;
    assert u[1..] == t && u[3..] == s && u[0] == '-' && u[1] == '0' && u[2] == 'x';
    NegativeRadixMissesEarlier(u);
  }

  /** `0b` and `-0b` followed by binary digits are the two binary forms and not hexadecimal ones. */
  lemma BinaryForms(s: string)
    requires IsBaseDigits(s, 2)
    ensures var t := "0b" + s;
      CoreMisses(t) && !IsSignedDigits(t) && !HasRadixPrefix(t, {'x', 'X'}, 16) &&
      !HasNegativeRadixPrefix(t, {'x', 'X'}, 16) && HasRadixPrefix(t, {'b'}, 2) && t[2..] == s
    ensures var u := "-0b" + s;
      CoreMisses(u) && !IsSignedDigits(u) && !HasRadixPrefix(u, {'x', 'X'}, 16) &&
      !HasNegativeRadixPrefix(u, {'x', 'X'}, 16) && !HasRadixPrefix(u, {'b'}, 2) &&
      HasNegativeRadixPrefix(u, {'b'}, 2) && u[3..] == s
  {
    var t := "0b" + s;
    assert t[2..] == s && t[0] == '0' && t[1] == 'b';
    RadixMissesEarlier(t);
    var u := "-0b" + s;
    assert u[1..] == t && u[3..] == s && u[0] == '-' && u[1] == '0' && u[2] == 'b';
    NegativeRadixMissesEarlier(u);
    assert u[1..][1] == 'b';
  }

  /** init.php: `0x` followed by hexadecimal digits, with an optional leading `-`. */
  lemma HexRoundTrip(n: nat, consts: map<string, Value>)
    ensures ReadValue("0x" + BaseText(n, 16), Bootstrap, consts) == Known(Int(n))
    ensures ReadValue("-0x" + BaseText(n, 16), Bootstrap, consts) == Known(Int(-(n as int)))
  {
    var s := BaseText(n, 16);
    BaseDecText(n, 16);
    HexForms(s);
    RadixBranches("0x" + s, consts);
    RadixBranches("-0x" + s, consts);
  }

  /** init.php: `0b` followed by binary digits, with an optional leading `-`. */
  lemma BinaryRoundTrip(n: nat, consts: map<string, Value>)
    ensures ReadValue("0b" + BaseText(n, 2), Bootstrap, consts) == Known(Int(n))
    ensures ReadValue("-0b" + BaseText(n, 2), Bootstrap, consts) == Known(Int(-(n as int)))
  {
    var s := BaseText(n, 2);
    BaseDecText(n, 2);
    BinaryForms(s);
    RadixBranches("0b" + s, consts);
    RadixBranches("-0b" + s, consts);
  }

  /** init.php reads a leading zero as octal: `010` is 8 ... */
  lemma LeadingZeroBootstrap(consts: map<string, Value>)
    ensures ReadValue("010", Bootstrap, consts) == Known(Int(8))
  {
    assert IsBaseDigits("10", 8);
    OctalText("10");
    assert "0" + "10" == "010";
    assert BaseDec("10", 8) == 8 by {
      assert "10"[..1] == "1" && "1"[..0] == [];
    }
    SignedBranch("010", consts);
  }

  /** ... while the core reader reads the same text as decimal 10. */
  lemma LeadingZeroCore(consts: map<string, Value>)
    ensures ReadValue("010", Core, consts) == Known(Int(10))
  {
    TenText();
    CoreDigitsBranch("010", consts);
  }

  /** `010` is all digits, and its decimal value is 10. */
  lemma TenText()
    ensures IsDigits("010") && LeadingInt("010") == 10
  {
    assert IsDigits("010") by {
      assert IsDigit("010"[0]) && IsDigit("010"[1]) && IsDigit("010"[2]);
    }
    DigitsLeadingInt("010");
    TenValue();
  }

  lemma TenValue()
    ensures DigitsValue("010") == 10
  {
    assert "0"[..0] == [];
    assert DigitsValue("0") == 0;
    assert "01"[..1] == "0";
    assert DigitsValue("01") == 1;
    assert "010"[..2] == "01";
  }

  /** `(int)` of all-digit text is its decimal value. */
  lemma DigitsLeadingInt(t: string)
    requires IsDigits(t)
    ensures LeadingInt(t) == DigitsValue(t)
  {
    LeadingIntUnsigned(t);
    LeadingDigitsOfAppend(t, []);
    assert t + [] == t;
  }

  /** The core reader has no negative integers: `-5` is float text. */
  lemma CoreNegativeIsFloat(consts: map<string, Value>)
    ensures ReadValue("-5", Core, consts) == Known(FloatLit("-5"))
    ensures ReadValue("-5", Bootstrap, consts) == Known(Int(-5))
  {
    MinusFiveText();
    CoreLateBranches("-5", consts);
    SignedBranch("-5", consts);
  }

  /** `-5` is signed digits worth -5, float text, and none of the core reader's first forms. */
  lemma MinusFiveText()
    ensures CoreMisses("-5") && IsFloatText("-5")
    ensures IsSignedDigits("-5") && SignedInteger("-5") == -5
  {
    assert !IsDigit("-5"[0]);
    assert "-5"[1..] == "5";
    assert FilterTrimLeft("-5") == "-5";
    assert FilterTrimRight("-5") == "-5";
    assert LeadingDigits("5") == "5";
    assert "5"[1..] == [];
    LeadingIntNegative("-5");
  }

  /** The core reader does not know hexadecimal: `0x1A` is a constant name or unknown. */
  lemma CoreHexUnknown(consts: map<string, Value>)
    ensures ReadValue("0x1A", Core, consts) == if "0x1A" in consts then Known(consts["0x1A"]) else Unknown
  {
    HexLiteralText();
    CoreLateBranches("0x1A", consts);
  }

  /** `0x1A` is none of the core reader's forms up to float text. */
  lemma HexLiteralText()
    ensures CoreMisses("0x1A") && !IsFloatText("0x1A")
  {
    var t := "0x1A";
    assert !IsDigits(t) by { assert !IsDigit(t[1]); }
    assert !IsFloatText(t) by {
      assert FilterTrimLeft(t) == t;
      assert FilterTrimRight(t) == t;
      assert LeadingDigits(t) == "0" by {
        assert t[1..] == "x1A";
        assert LeadingDigits("x1A") == [];
      }
    }
  }
}

=== FILE: init_script.dfy ===
/**
 * The bootstrap script init.php from the config files on: the three files
 * merged with the reposition flag, the PATH_INFO default, the consumed keys,
 * ENV_LEVEL with the SAPI level or-ed in, FROM_ADMIN_IP with the strict
 * address comparison, TEMP_DIR, and, for web requests only, BASE_PATH (with
 * its non-breaking loop over `base`) and THIS_PATH. Also the script's own
 * `page()`, which falls back to REQUEST_URI, and its merge function, which
 * takes the reposition flag as a trailing boolean argument.
 *
 * The constants defined before the config files are read (CORE_DIR, SITE_DIR,
 * SITE_BASENAME and the ENV_* presets) are an input, with the ENV_* presets
 * taken at the values the script gives them.
 */
module Init {
  import opened Optional
  import opened Strings
  import opened PhpValues
  import opened Constants
  import opened Merge
  import opened BasePath
  import IniValues
  import opened Bootstrap
  import opened EnvLevels
  import opened Paths
  import CoreFunctions

  /* ---------- page() ---------- */

  /**
   * The segments `page()` of init.php reads: those of PATH_INFO when it is set
   * and trims to something; those of REQUEST_URI only when PATH_INFO is not
   * set at all; none otherwise.
   */
  function PageSegments(server: map<string, string>): (r: seq<string>)
    ensures "PATH_INFO" in server ==> r == Segments(server["PATH_INFO"])
    ensures "PATH_INFO" !in server && "REQUEST_URI" in server ==> r == Segments(server["REQUEST_URI"])
    ensures "PATH_INFO" !in server && "REQUEST_URI" !in server ==> r == []
  {
    if "PATH_INFO" in server && TrimChar(server["PATH_INFO"], '/') != "" then Segments(server["PATH_INFO"])
    else if "PATH_INFO" !in server && "REQUEST_URI" in server && TrimChar(server["REQUEST_URI"], '/') != ""
    then Segments(server["REQUEST_URI"])
    else []
  }

  /** `page($part)` of init.php; `None` is the default argument `false`. */
  function Page(server: map<string, string>, part: Option<int>): (r: PageResult)
    ensures part.None? ==> r == Whole(PageSegments(server))
    ensures part.Some? ==> (r == NoPart <==> !(0 <= part.value < |PageSegments(server)|))
    ensures part.Some? && r != NoPart ==> r == Part(PageSegments(server)[part.value])
  {
    Select(PageSegments(server), part)
  }

  /**
   * The two `page()` functions agree whenever PATH_INFO is set; when it is not,
   * this one reads the segments of REQUEST_URI and the core one reads none.
   */
  lemma PageAgainstCore(server: map<string, string>, part: Option<int>)
    ensures "PATH_INFO" in server ==> Page(server, part) == CoreFunctions.Page(server, part)
    ensures "PATH_INFO" !in server && "REQUEST_URI" in server ==>
      Page(server, None) == Whole(Segments(server["REQUEST_URI"])) && CoreFunctions.Page(server, None) == Whole([])
  {
  }

  /* ---------- array_merge_recursive_distinct() with a trailing flag ---------- */

  /** An argument of the merge: an array, or a boolean. */
  datatype Arg = ArrayArg(items: seq<Entry>) | FlagArg(b: bool)

  /** Arrays only, except perhaps a trailing boolean, with at least one array first. */
  predicate WellFormedArgs(args: seq<Arg>) {
    |args| >= 1 && args[0].ArrayArg? && forall i :: 0 <= i < |args| - 1 ==> args[i].ArrayArg?
  }

  /** A trailing `true` turns repositioning on; any other last argument leaves it off. */
  function Reposition(args: seq<Arg>): bool {
    |args| >= 1 && args[|args| - 1] == FlagArg(true)
  }

  /** The arrays to merge: the arguments without a trailing boolean. */
  function Arrays(args: seq<Arg>): (r: seq<seq<Entry>>)
    requires WellFormedArgs(args)
    ensures |r| >= 1 && r[0] == args[0].items
  {
    var n := if args[|args| - 1].FlagArg? then |args| - 1 else |args|;
    seq(n, i requires 0 <= i < n => args[i].items)
  }

  /** What the merge of init.php returns for its arguments. */
  function MergedArgs(args: seq<Arg>): seq<Entry>
    requires WellFormedArgs(args)
  {
    MergeAll(Arrays(args)[0], Arrays(args)[1..], Reposition(args))
  }

  /**
   * `array_merge_recursive_distinct($array, ...)` of init.php: a trailing
   * boolean is popped off and decides the reposition flag, then the later
   * arrays are folded into the first.
   */
  method ArrayMergeRecursiveDistinct(args: seq<Arg>) returns (r: seq<Entry>)
    requires WellFormedArgs(args)
    ensures r == MergedArgs(args)
  {
    var arrays := args;
    var reposition := false;
    if arrays[|arrays| - 1].FlagArg? {
      if arrays[|arrays| - 1].b {
        reposition := true;
      }
      arrays := arrays[..|arrays| - 1];
    }
    var rest := seq(|arrays| - 1, i requires 0 <= i < |arrays| - 1 => arrays[i + 1].items);
    assert rest == Arrays(args)[1..];
    r := MergeRecursiveDistinct(arrays[0].items, rest, reposition);
  }

  /**
   * A trailing `false` is the same as no flag at all, and a trailing `true`
   * merges the same arrays with repositioning: only `true` changes the order.
   */
  lemma TrailingFlag(arrays: seq<seq<Entry>>)
    requires |arrays| >= 1
    ensures var args := seq(|arrays|, i requires 0 <= i < |arrays| => ArrayArg(arrays[i]));
      WellFormedArgs(args) &&
      MergedArgs(args + [FlagArg(false)]) == MergedArgs(args) == MergeAll(arrays[0], arrays[1..], false) &&
      MergedArgs(args + [FlagArg(true)]) == MergeAll(arrays[0], arrays[1..], true)
  {
    var args := seq(|arrays|, i requires 0 <= i < |arrays| => ArrayArg(arrays[i]));
    assert Arrays(args) == arrays;
    assert Arrays(args + [FlagArg(false)]) == arrays;
    assert Arrays(args + [FlagArg(true)]) == arrays;
  }

  /* ---------- the configuration ---------- */

  /**
   * The merged configuration: the core `config.ini` (read only when CORE_DIR
   * and SITE_DIR differ), then the site's `config.php`, then its `config.ini`,
   * each merged with a trailing `true`.
   */
  function Merged(host: Host, files: map<string, File>, consts: map<string, Value>): seq<Entry> {
    var d := IniValues.Dialect.Bootstrap;
    Layered(if host.coreDir != host.siteDir then ParseConfigFile(files, host.coreDir + "config.ini", d, consts) else None,
            ParseConfigFile(files, host.siteDir + "config.php", d, consts),
            ParseConfigFile(files, host.siteDir + "config.ini", d, consts), true)
  }

  /** `path_info_override` is unset or exactly `true`. */
  predicate PathInfoOverride(config: seq<Entry>) {
    !Isset(config, "path_info_override") || Get(config, "path_info_override") == Bool(true)
  }

  /** An unset PATH_INFO becomes the empty string unless `path_info_override` is set to anything but `true`. */
  function WithPathInfo(config: seq<Entry>, server: map<string, string>): (s: map<string, string>)
    ensures forall k :: k != "PATH_INFO" ==> (k in s <==> k in server) && (k in server ==> s[k] == server[k])
    ensures "PATH_INFO" in s <==> "PATH_INFO" in server || PathInfoOverride(config)
    ensures "PATH_INFO" in server ==> s["PATH_INFO"] == server["PATH_INFO"]
    ensures "PATH_INFO" !in server && PathInfoOverride(config) ==> s["PATH_INFO"] == ""
  {
    if "PATH_INFO" !in server && PathInfoOverride(config) then server["PATH_INFO" := ""] else server
  }

  /**
   * With PATH_INFO unset by the web server, the page comes from REQUEST_URI
   * only when `path_info_override` is set to something other than `true`;
   * otherwise the empty PATH_INFO gives no segments.
   */
  lemma RequestUriFallback(config: seq<Entry>, server: map<string, string>)
    requires "PATH_INFO" !in server
    ensures PageSegments(WithPathInfo(config, server)) ==
      if PathInfoOverride(config) || "REQUEST_URI" !in server then [] else Segments(server["REQUEST_URI"])
  {
    if PathInfoOverride(config) {
      assert TrimChar("", '/') == "";
    }
  }

  /** The keys consumed right away: `core`, `timezone` and `encoding`, each removed when set. */
  function Consumed(config: seq<Entry>): (c: seq<Entry>)
    ensures !Isset(c, "core") && !Isset(c, "timezone") && !Isset(c, "encoding")
    ensures forall k :: k != "core" && k != "timezone" && k != "encoding" ==> Lookup(c, k) == Lookup(config, k)
  {
    DropIfSet(DropIfSet(DropIfSet(config, "core"), "timezone"), "encoding")
  }

  /* ---------- ENV_LEVEL ---------- */

  /** `$env_add`: ENV_CLI on the command line, ENV_WEB otherwise. */
  function EnvAdd(cli: bool): int {
    if cli then EnvCli else EnvWeb
  }

  /** The level init.php defines: `env_level` when set, else ENV_LIVE, with `$env_add` or-ed in. */
  function Level(config: seq<Entry>, cli: bool): int {
    if Isset(config, "env_level") then Or64(ToInt(Get(config, "env_level")), EnvAdd(cli))
    else Or64(EnvLive, EnvAdd(cli))
  }

  /** The level always carries the bit of the SAPI the script runs under, and keeps every bit of `env_level`. */
  lemma LevelHasSapi(config: seq<Entry>, cli: bool)
    ensures HasBit(Level(config, cli), if cli then CliBit else WebBit)
    ensures forall k :: HasBit(EnvAdd(cli), k) ==> HasBit(Level(config, cli), k)
    ensures Isset(config, "env_level") ==>
      forall k :: HasBit(ToInt(Get(config, "env_level")), k) ==> HasBit(Level(config, cli), k)
  {
    LevelBits();
    var x := if Isset(config, "env_level") then ToInt(Get(config, "env_level")) else EnvLive;
    forall k ensures HasBit(Level(config, cli), k) <==> HasBit(x, k) || HasBit(EnvAdd(cli), k) {
      OrSetsBits(x, EnvAdd(cli), k);
    }
  }

  /** Without `env_level`, a command-line run is at level 48 (live, cli) and a web request at 80 (live, web). */
  lemma DefaultLevel(config: seq<Entry>, cli: bool)
    requires !Isset(config, "env_level")
    ensures Level(config, cli) == if cli then 48 else 80
    ensures cli ==> !HasBit(Level(config, cli), WebBit)
    ensures !cli ==> !HasBit(Level(config, cli), CliBit)
  {
    DefaultLevels();
  }

  /** ENV_LEVEL (kept when defined before) and `env_level` removed when set. */
  function LevelStep(o: Outcome, cli: bool): (r: Outcome)
    ensures !Isset(r.config, "env_level")
    ensures forall k :: k != "env_level" ==> Lookup(r.config, k) == Lookup(o.config, k)
    ensures r.consts == Define(o.consts, "ENV_LEVEL", Int(Level(o.config, cli)))
  {
    Outcome(DropIfSet(o.config, "env_level"), Define(o.consts, "ENV_LEVEL", Int(Level(o.config, cli))))
  }

  /** FROM_ADMIN_IP, with the strict comparison of init.php's `ip_in_range`. */
  function AdminStep(o: Outcome, server: map<string, string>): (r: Outcome)
    ensures r.config == o.config
    ensures r.consts == Define(o.consts, "FROM_ADMIN_IP", Bool(FromAdmin(o.config, server, true)))
  {
    Outcome(o.config, Define(o.consts, "FROM_ADMIN_IP", Bool(FromAdmin(o.config, server, true))))
  }

  /** `ENV_LEVEL & ENV_WEB`, with ENV_WEB at its preset value. */
  predicate Web(consts: map<string, Value>) {
    HasBit(ToInt(ConstValue(consts, "ENV_LEVEL")), WebBit)
  }

  /* ---------- BASE_PATH and THIS_PATH ---------- */

  /**
   * BASE_PATH and BASE_PATH_LIVE for a web request when BASE_PATH is not
   * defined: a non-array `base` is both; otherwise the computed base, changed
   * by the loop over a non-empty `base` array, which also defines the
   * `BASE_<KEY>` constants and BASE_PATH_KEY; the live base defaults to BASE_PATH.
   */
  function BaseStep(o: Outcome, host: Host, server: map<string, string>, web: bool): (r: Outcome)
    ensures r.config == o.config
    ensures forall n :: n in o.consts ==> n in r.consts && r.consts[n] == o.consts[n]
    ensures forall n :: n in r.consts ==> n in o.consts || BaseNamed(n)
    ensures web && "BASE_PATH" !in o.consts ==> "BASE_PATH" in r.consts && "BASE_PATH_LIVE" in r.consts
    ensures !web ==> r == o
  {
    if !web || "BASE_PATH" in o.consts then o
    else
      var conf := Get(o.config, "base");
      if conf != Null && !conf.Arr? then
        Outcome(o.config, DefineBase(o.consts, conf, None))
      else
        var p := BasePick(conf, o.consts, host, server);
        Outcome(o.config, DefineBase(p.consts, p.base, p.live))
  }

  /** BASE_PATH, then BASE_PATH_LIVE: the live path when there is one, else BASE_PATH as defined. */
  function DefineBase(consts: map<string, Value>, base: Value, live: Option<Value>): (r: map<string, Value>)
    ensures "BASE_PATH" in r && "BASE_PATH_LIVE" in r
    ensures forall n :: n in consts ==> n in r && r[n] == consts[n]
    ensures forall n :: n in r ==> n in consts || n == "BASE_PATH" || n == "BASE_PATH_LIVE"
  {
    var c := Define(consts, "BASE_PATH", base);
    Define(c, "BASE_PATH_LIVE", if live.Some? then live.value else c["BASE_PATH"])
  }

  /** The computed base, run through the loop when `base` is a non-empty array. */
  function BasePick(conf: Value, consts: map<string, Value>, host: Host, server: map<string, string>): (p: Pick)
    ensures forall n :: n in consts ==> n in p.consts && p.consts[n] == consts[n]
    ensures forall n :: n in p.consts ==> n in consts || BaseNamed(n)
  {
    var s := Pick(Str(ComputedBaseOf(server)), None, consts);
    if conf.Arr? && conf.items != [] then
      InitChoiceAdds(conf.items, conf, s, host.regex, host.upper);
      InitChoiceNames(conf.items, conf, s, host.regex, host.upper);
      InitChoice(conf.items, conf, s, host.regex, host.upper)
    else s
  }

  /**
   * THIS_PATH and THIS_PATH_LIVE for a web request when THIS_PATH is not
   * defined: the base paths followed by the page segments joined by `/`, with
   * a trailing `/` when there are any.
   */
  function ThisStep(o: Outcome, server: map<string, string>, web: bool): (r: Outcome)
    ensures r.config == o.config
    ensures forall n :: n in o.consts ==> n in r.consts && r.consts[n] == o.consts[n]
    ensures forall n :: n in r.consts ==> n in o.consts || n == "THIS_PATH" || n == "THIS_PATH_LIVE"
    ensures web && "THIS_PATH" !in o.consts ==> "THIS_PATH" in r.consts && "THIS_PATH_LIVE" in r.consts
    ensures web && "THIS_PATH" !in o.consts ==>
      r.consts["THIS_PATH"] == Str(ConstText(o.consts, "BASE_PATH") + PageString(PageSegments(server)))
    ensures web && "THIS_PATH" !in o.consts && "THIS_PATH_LIVE" !in o.consts ==>
      r.consts["THIS_PATH_LIVE"] == Str(ConstText(o.consts, "BASE_PATH_LIVE") + PageString(PageSegments(server)))
    ensures !web ==> r == o
  {
    if !web || "THIS_PATH" in o.consts then o
    else
      var page := PageString(PageSegments(server));
      var c := Define(o.consts, "THIS_PATH", Str(ConstText(o.consts, "BASE_PATH") + page));
      Outcome(o.config, Define(c, "THIS_PATH_LIVE", Str(ConstText(c, "BASE_PATH_LIVE") + page)))
  }

  /* ---------- the whole run ---------- */

  /** The steps up to TEMP_DIR, on the merged configuration and the request as PATH_INFO leaves it. */
  function Prepared(config: seq<Entry>, consts: map<string, Value>, host: Host, server: map<string, string>): Outcome {
    TempStep(AdminStep(LevelStep(Outcome(Consumed(config), consts), host.cli), server), host)
  }

  /** All the steps on the merged configuration. */
  function Finished(config: seq<Entry>, consts: map<string, Value>, host: Host, server: map<string, string>): Outcome {
    var p := Prepared(config, consts, host, server);
    var web := Web(p.consts);
    ThisStep(BaseStep(p, host, server, web), server, web)
  }

  /** What a run of init.php leaves: the configuration, the constants and `$_SERVER`. */
  datatype Run = Run(config: seq<Entry>, consts: map<string, Value>, server: map<string, string>)

  /** A run of init.php from the config files on, over the constants defined before. */
  function Booted(host: Host, files: map<string, File>, consts: map<string, Value>): Run {
    var config := Merged(host, files, consts);
    var server := WithPathInfo(config, host.server);
    var o := Finished(config, consts, host, server);
    Run(o.config, o.consts, server)
  }

  /**
   * The script's statements, one step after the other, updating the
   * configuration, the constants and `$_SERVER`.
   */
  method Boot(host: Host, files: map<string, File>, consts0: map<string, Value>)
    returns (config: seq<Entry>, consts: map<string, Value>, server: map<string, string>)
    ensures Run(config, consts, server) == Booted(host, files, consts0)
  {
    config := MergeFiles(host, files, consts0);
    server := SetPathInfo(config, host.server);
    config, consts := Steps(config, consts0, host, server);
  }

  /** The PATH_INFO statement. */
  method SetPathInfo(config: seq<Entry>, server0: map<string, string>) returns (server: map<string, string>)
    ensures server == WithPathInfo(config, server0)
  {
    server := server0;
    if "PATH_INFO" !in server && PathInfoOverride(config) {
      server := server["PATH_INFO" := ""];
    }
  }

  /** The statements after PATH_INFO, on the merged configuration. */
  method Steps(config0: seq<Entry>, consts0: map<string, Value>, host: Host, server: map<string, string>)
    returns (config: seq<Entry>, consts: map<string, Value>)
    ensures Outcome(config, consts) == Finished(config0, consts0, host, server)
  {
    config, consts := Prepare(config0, consts0, host, server);
    var web := Web(consts);
    consts := DefineBasePaths(config, consts, host, server, web);
    consts := DefineThisPaths(config, consts, server, web);
  }

  /** Two arrays and a trailing `true` merge as one repositioning fold. */
  lemma MergeOne(a: seq<Entry>, b: seq<Entry>)
    ensures MergedArgs([ArrayArg(a), ArrayArg(b), FlagArg(true)]) == MergeTwo(a, b, true)
  {
    var args := [ArrayArg(a), ArrayArg(b), FlagArg(true)];
    assert Arrays(args) == [a, b];
    assert Reposition(args);
    assert [a, b][1..] == [b];
    assert MergeAll(a, [b], true) == MergeAll(MergeTwo(a, b, true), [], true) by {
      assert [b][1..] == [];
    }
  }

  /** Reading and merging the three config files. */
  method MergeFiles(host: Host, files: map<string, File>, consts0: map<string, Value>) returns (config: seq<Entry>)
    ensures config == Merged(host, files, consts0)
  {
    var d := IniValues.Dialect.Bootstrap;
    var core := None;
    if host.coreDir != host.siteDir {
      core := ParseConfigFile(files, host.coreDir + "config.ini", d, consts0);
    }
    config := Loaded(core);
    var file := Loaded(ParseConfigFile(files, host.siteDir + "config.php", d, consts0));
    if file != [] {
      config := ArrayMergeRecursiveDistinct([ArrayArg(config), ArrayArg(file), FlagArg(true)]);
      MergeOne(Loaded(core), file);
    }
    ghost var afterPhp := config;
    file := Loaded(ParseConfigFile(files, host.siteDir + "config.ini", d, consts0));
    if file != [] {
      config := ArrayMergeRecursiveDistinct([ArrayArg(config), ArrayArg(file), FlagArg(true)]);
      MergeOne(afterPhp, file);
    }
  }

  /** The statements up to TEMP_DIR. */
  method Prepare(config0: seq<Entry>, consts0: map<string, Value>, host: Host, server: map<string, string>)
    returns (config: seq<Entry>, consts: map<string, Value>)
    ensures Outcome(config, consts) == Prepared(config0, consts0, host, server)
  {
    config := Consume(config0);
    config, consts := DefineLevel(config, consts0, host.cli);
    consts := Define(consts, "FROM_ADMIN_IP", Bool(FromAdmin(config, server, true)));
    assert Outcome(config, consts) == AdminStep(LevelStep(Outcome(Consumed(config0), consts0), host.cli), server);
    config, consts := SetTempDir(config, consts, host);
  }

  /** The `core`, `timezone` and `encoding` statements. */
  method Consume(config0: seq<Entry>) returns (config: seq<Entry>)
    ensures config == Consumed(config0)
  {
    config := config0;
    if Isset(config, "core") {
      config := Unset(config, "core");
    }
    if Isset(config, "timezone") {
      config := Unset(config, "timezone");
    }
    if Isset(config, "encoding") {
      config := Unset(config, "encoding");
    }
  }

  /** The ENV_LEVEL statements. */
  method DefineLevel(config0: seq<Entry>, consts0: map<string, Value>, cli: bool)
    returns (config: seq<Entry>, consts: map<string, Value>)
    ensures Outcome(config, consts) == LevelStep(Outcome(config0, consts0), cli)
  {
    config, consts := config0, consts0;
    var envAdd := if cli then EnvCli else EnvWeb;
    if Isset(config, "env_level") {
      consts := Define(consts, "ENV_LEVEL", Int(Or64(ToInt(Get(config, "env_level")), envAdd)));
      config := Unset(config, "env_level");
    } else {
      consts := Define(consts, "ENV_LEVEL", Int(Or64(EnvLive, envAdd)));
    }
  }

  /** The BASE_PATH statements, with init.php's loop over `base`. */
  method DefineBasePaths(config: seq<Entry>, consts0: map<string, Value>, host: Host, server: map<string, string>, web: bool)
    returns (consts: map<string, Value>)
    ensures Outcome(config, consts) == BaseStep(Outcome(config, consts0), host, server, web)
  {
    consts := consts0;
    if web && "BASE_PATH" !in consts {
      var conf := Get(config, "base");
      if conf != Null && !conf.Arr? {
        consts := Define(consts, "BASE_PATH", conf);
        consts := Define(consts, "BASE_PATH_LIVE", consts["BASE_PATH"]);
      } else {
        var p := Pick(Str(ComputedBaseOf(server)), None, consts);
        if conf.Arr? && conf.items != [] {
          p := SelectInit(conf.items, conf, p, host.regex, host.upper);
        }
        consts := Define(p.consts, "BASE_PATH", p.base);
        consts := Define(consts, "BASE_PATH_LIVE", if p.live.Some? then p.live.value else consts["BASE_PATH"]);
      }
    }
  }

  /** The THIS_PATH statements. */
  method DefineThisPaths(config: seq<Entry>, consts0: map<string, Value>, server: map<string, string>, web: bool)
    returns (consts: map<string, Value>)
    ensures Outcome(config, consts) == ThisStep(Outcome(config, consts0), server, web)
  {
    consts := consts0;
    if web && "THIS_PATH" !in consts {
      var page := PageString(PageSegments(server));
      consts := Define(consts, "THIS_PATH", Str(ConstText(consts, "BASE_PATH") + page));
      consts := Define(consts, "THIS_PATH_LIVE", Str(ConstText(consts, "BASE_PATH_LIVE") + page));
    }
  }

  /* ---------- what a run establishes ---------- */

  /**
   * After the first steps the consumed keys are gone and every other key but
   * `temp` is as merged.
   */
  lemma PreparedConfig(config: seq<Entry>, consts: map<string, Value>, host: Host, server: map<string, string>)
    ensures var p := Prepared(config, consts, host, server).config;
      !Isset(p, "core") && !Isset(p, "timezone") && !Isset(p, "encoding") && !Isset(p, "env_level")
    ensures var p := Prepared(config, consts, host, server).config;
      forall k :: k != "core" && k != "timezone" && k != "encoding" && k != "env_level" && k != "temp" ==>
        Lookup(p, k) == Lookup(config, k)
  {
    var c := Consumed(config);
    var p := Prepared(config, consts, host, server).config;
    assert !Isset(p, "env_level") && forall k :: k != "env_level" && k != "temp" ==> Lookup(p, k) == Lookup(c, k) by {
      StepsConfig(Outcome(c, consts), host, server);
    }
    assert Lookup(p, "core") == Lookup(c, "core");
    assert Lookup(p, "timezone") == Lookup(c, "timezone");
    assert Lookup(p, "encoding") == Lookup(c, "encoding");
  }

  /** The level, admin and temp steps remove `env_level` and leave every other key but `temp` alone. */
  lemma StepsConfig(o: Outcome, host: Host, server: map<string, string>)
    ensures var p := TempStep(AdminStep(LevelStep(o, host.cli), server), host).config;
      !Isset(p, "env_level") && forall k :: k != "env_level" && k != "temp" ==> Lookup(p, k) == Lookup(o.config, k)
  {
    var o1 := LevelStep(o, host.cli);
    var p := TempStep(AdminStep(o1, server), host).config;
    assert Lookup(p, "env_level") == Lookup(o1.config, "env_level");
  }

  /**
   * The constants defined before keep their values, and ENV_LEVEL (unless
   * defined before) is the computed level.
   */
  lemma PreparedConsts(config: seq<Entry>, consts: map<string, Value>, host: Host, server: map<string, string>)
    ensures var p := Prepared(config, consts, host, server).consts;
      forall n :: n in consts ==> n in p && p[n] == consts[n]
    ensures var p := Prepared(config, consts, host, server).consts;
      "ENV_LEVEL" in p
    ensures var p := Prepared(config, consts, host, server).consts;
      "ENV_LEVEL" !in consts ==> p["ENV_LEVEL"] == Int(Level(config, host.cli))
  {
    var c := Consumed(config);
    assert Lookup(c, "env_level") == Lookup(config, "env_level");
    assert Level(c, host.cli) == Level(config, host.cli);
    var o1 := LevelStep(Outcome(c, consts), host.cli);
    var o2 := AdminStep(o1, server);
    assert TempStep(o2, host) == Prepared(config, consts, host, server);
    assert "ENV_LEVEL" !in consts ==> o1.consts["ENV_LEVEL"] == Int(Level(config, host.cli));
  }

  /**
   * FROM_ADMIN_IP (unless defined before) says whether REMOTE_ADDR lies in
   * one of the `admin.ips` ranges, compared strictly.
   */
  lemma PreparedAdmin(config: seq<Entry>, consts: map<string, Value>, host: Host, server: map<string, string>)
    requires "FROM_ADMIN_IP" !in consts
    ensures var p := Prepared(config, consts, host, server);
      "FROM_ADMIN_IP" in p.consts && p.consts["FROM_ADMIN_IP"] == Bool(FromAdmin(config, server, true))
  {
    var c := Consumed(config);
    var o := LevelStep(Outcome(c, consts), host.cli);
    assert Index(Get(o.config, "admin"), "ips") == Index(Get(config, "admin"), "ips");
    assert AdminRanges(o.config) == AdminRanges(config);
  }

  /** A run that did not define ENV_LEVEL before is a web request exactly when it is not a command-line run or `env_level` has the web bit. */
  lemma PreparedWeb(config: seq<Entry>, consts: map<string, Value>, host: Host, server: map<string, string>)
    requires "ENV_LEVEL" !in consts
    ensures Web(Prepared(config, consts, host, server).consts) <==> HasBit(Level(config, host.cli), WebBit)
    ensures !host.cli ==> Web(Prepared(config, consts, host, server).consts)
    ensures host.cli && !Isset(config, "env_level") ==> !Web(Prepared(config, consts, host, server).consts)
  {
    var p := Prepared(config, consts, host, server).consts;
    PreparedConsts(config, consts, host, server);
    assert Web(p) <==> HasBit(Level(config, host.cli), WebBit);
    if !host.cli {
      LevelHasSapi(config, false);
    } else if !Isset(config, "env_level") {
      DefaultLevel(config, true);
    }
  }

  /**
   * A web request defines all four path constants; a command-line run at the
   * default level defines none that was not defined before, and changes no
   * constant the first steps left.
   */
  lemma PathsOnlyOnWeb(config: seq<Entry>, consts: map<string, Value>, host: Host, server: map<string, string>)
    requires "ENV_LEVEL" !in consts
    requires "BASE_PATH" in consts ==> "BASE_PATH_LIVE" in consts
    requires "THIS_PATH" in consts ==> "THIS_PATH_LIVE" in consts
    ensures var f := Finished(config, consts, host, server).consts;
      !host.cli ==> "BASE_PATH" in f && "BASE_PATH_LIVE" in f && "THIS_PATH" in f && "THIS_PATH_LIVE" in f
    ensures host.cli && !Isset(config, "env_level") ==>
      Finished(config, consts, host, server) == Prepared(config, consts, host, server)
  {
    PreparedWeb(config, consts, host, server);
    PreparedConsts(config, consts, host, server);
    PreparedNames(config, consts, host, server);
    PathNamesDiffer();
    WebSteps(Prepared(config, consts, host, server), host, server);
  }

  /** On a web request the last two steps leave all four path constants defined. */
  lemma WebSteps(o: Outcome, host: Host, server: map<string, string>)
    requires "BASE_PATH" in o.consts ==> "BASE_PATH_LIVE" in o.consts
    requires "THIS_PATH" in o.consts ==> "THIS_PATH_LIVE" in o.consts
    ensures var f := ThisStep(BaseStep(o, host, server, true), server, true).consts;
      "BASE_PATH" in f && "BASE_PATH_LIVE" in f && "THIS_PATH" in f && "THIS_PATH_LIVE" in f
  {
    var b := BaseStep(o, host, server, true);
    PathNamesDiffer();
    assert "THIS_PATH" in b.consts ==> "THIS_PATH_LIVE" in b.consts;
  }

  /**
   * A string `base` on a web request that defined no path constant before:
   * BASE_PATH and BASE_PATH_LIVE are the string, THIS_PATH and THIS_PATH_LIVE
   * the string followed by the page.
   */
  lemma ScalarBase(config: seq<Entry>, consts: map<string, Value>, host: Host, server: map<string, string>, base: string)
    requires Get(config, "base") == Str(base)
    requires Web(Prepared(config, consts, host, server).consts)
    requires "BASE_PATH" !in consts && "BASE_PATH_LIVE" !in consts && "THIS_PATH" !in consts && "THIS_PATH_LIVE" !in consts
    ensures var f := Finished(config, consts, host, server).consts;
      "BASE_PATH" in f && f["BASE_PATH"] == Str(base) && "BASE_PATH_LIVE" in f && f["BASE_PATH_LIVE"] == Str(base) &&
      "THIS_PATH" in f && f["THIS_PATH"] == Str(base + PageString(PageSegments(server))) &&
      "THIS_PATH_LIVE" in f && f["THIS_PATH_LIVE"] == Str(base + PageString(PageSegments(server)))
  {
    var p := Prepared(config, consts, host, server);
    PreparedConfig(config, consts, host, server);
    PreparedNames(config, consts, host, server);
    PathNamesDiffer();
    assert Lookup(p.config, "base") == Lookup(config, "base");
    ScalarSteps(p, host, server, base);
  }

  /** The names of the path constants are not those the first steps define, nor the consumed keys. */
  lemma PathNamesDiffer()
    ensures "BASE_PATH" != "ENV_LEVEL" && "BASE_PATH" != "FROM_ADMIN_IP" && "BASE_PATH" != "TEMP_DIR"
    ensures "BASE_PATH_LIVE" != "ENV_LEVEL" && "BASE_PATH_LIVE" != "FROM_ADMIN_IP" && "BASE_PATH_LIVE" != "TEMP_DIR"
    ensures "THIS_PATH" != "ENV_LEVEL" && "THIS_PATH" != "FROM_ADMIN_IP" && "THIS_PATH" != "TEMP_DIR"
    ensures "THIS_PATH_LIVE" != "ENV_LEVEL" && "THIS_PATH_LIVE" != "FROM_ADMIN_IP" && "THIS_PATH_LIVE" != "TEMP_DIR"
    ensures !BaseNamed("THIS_PATH") && !BaseNamed("THIS_PATH_LIVE")
    ensures "base" != "core" && "base" != "timezone" && "base" != "encoding" && "base" != "env_level" && "base" != "temp"
  {
    assert "THIS_PATH"[0] != "BASE_"[0];
    assert "THIS_PATH_LIVE"[0] != "BASE_"[0];
  }

  /** The last two steps on a string `base`. */
  lemma ScalarSteps(o: Outcome, host: Host, server: map<string, string>, base: string)
    requires Get(o.config, "base") == Str(base)
    requires "BASE_PATH" !in o.consts && "BASE_PATH_LIVE" !in o.consts && "THIS_PATH" !in o.consts && "THIS_PATH_LIVE" !in o.consts
    ensures var f := ThisStep(BaseStep(o, host, server, true), server, true).consts;
      "BASE_PATH" in f && f["BASE_PATH"] == Str(base) && "BASE_PATH_LIVE" in f && f["BASE_PATH_LIVE"] == Str(base) &&
      "THIS_PATH" in f && f["THIS_PATH"] == Str(base + PageString(PageSegments(server))) &&
      "THIS_PATH_LIVE" in f && f["THIS_PATH_LIVE"] == Str(base + PageString(PageSegments(server)))
  {
    var b := BaseStep(o, host, server, true);
    var c := Define(o.consts, "BASE_PATH", Str(base));
    assert b.consts == Define(c, "BASE_PATH_LIVE", Str(base));
  }

  /**
   * A `base` array of arrays on a web request with BASE_PATH undefined: the
   * first entry whose `path` is set and whose pattern hits the computed base
   * gives BASE_PATH, its `live` (or else that same path) gives BASE_PATH_LIVE,
   * and its key BASE_PATH_KEY — as long as no entry's own `BASE_<KEY>` name is
   * one of those three.
   */
  lemma FirstMatchBase(o: Outcome, host: Host, server: map<string, string>, i: nat)
    requires "BASE_PATH" !in o.consts && "BASE_PATH_LIVE" !in o.consts && "BASE_PATH_KEY" !in o.consts
    requires Get(o.config, "base").Arr?
    requires var entries := Get(o.config, "base").items;
      i < |entries| &&
      (forall j :: 0 <= j < |entries| ==> entries[j].val.Arr?) &&
      (forall j :: 0 <= j < |entries| ==>
         BaseConstant(entries[j].key, host.upper) != "BASE_PATH_KEY" &&
         BaseConstant(entries[j].key, host.upper) != "BASE_PATH" &&
         BaseConstant(entries[j].key, host.upper) != "BASE_PATH_LIVE") &&
      Index(entries[i].val, "path") != Null && Hits(entries[i].val, ComputedBaseOf(server), host.regex) &&
      (forall j :: 0 <= j < i ==> Index(entries[j].val, "path") == Null || !Hits(entries[j].val, ComputedBaseOf(server), host.regex))
    ensures var e := Get(o.config, "base").items[i];
      var r := BaseStep(o, host, server, true).consts;
      "BASE_PATH" in r && r["BASE_PATH"] == Index(e.val, "path") &&
      "BASE_PATH_LIVE" in r && r["BASE_PATH_LIVE"] == (if Index(e.val, "live") != Null then Index(e.val, "live") else Index(e.val, "path")) &&
      "BASE_PATH_KEY" in r && r["BASE_PATH_KEY"] == Str(e.key)
  {
    var conf := Get(o.config, "base");
    var entries := conf.items;
    var s := Pick(Str(ComputedBaseOf(server)), None, o.consts);
    InitFirstMatch(entries, conf, ComputedBaseOf(server), o.consts, host.regex, host.upper, i);
    InitChoiceAdds(entries, conf, s, host.regex, host.upper);
    var p := InitChoice(entries, conf, s, host.regex, host.upper);
    assert p == BasePick(conf, o.consts, host, server);
    forall n | n == "BASE_PATH" || n == "BASE_PATH_LIVE"
      ensures n !in p.consts
    {
      if n in BaseConstants(entries, host.upper) {
        BaseConstantsOf(entries, host.upper, n);
      }
    }
  }

  /** The first steps define no path constant. */
  lemma PreparedNames(config: seq<Entry>, consts: map<string, Value>, host: Host, server: map<string, string>)
    ensures var p := Prepared(config, consts, host, server).consts;
      forall n :: n in p ==> n in consts || n == "ENV_LEVEL" || n == "FROM_ADMIN_IP" || n == "TEMP_DIR"
  {
  }
}

=== FILE: ip_range.dfy ===
/**
 * `ip_in_range`: whether an address lies in a range written as
 *  - `a.b.c.d/n`: a CIDR prefix (section 3.1 of RFC 4632); a short range address
 *    is padded with `0` parts;
 *  - `a.b.c.d/m.m.m.m`: a dotted netmask, `*` standing for 0;
 *  - `a.b.c.*`: a wildcard, read as the range from `.0` to `.255`;
 *  - `lo-hi`: an inclusive range of addresses;
 *  - anything else: one address, compared with the range value itself.
 * The two copies of the function differ only in that last comparison: strict
 * (`===`) in the bootstrap script, loose (`==`) in the core function file.
 * A range that is not a string goes through the branches as its text; an array
 * matches nothing in this model (see `EntryMatchesAsWritten` for what PHP 7 does).
 * `Matches` and `EntryMatches` are the specification, `IpInRange` the procedure
 * with its padding loop.
 */
module IpRange {
  import opened Optional
  import opened Strings
  import opened Ipv4
  import PhpValues

  const TwoTo63: int := 0x8000_0000_0000_0000

  /**
   * `sprintf('%u', $v)` where `$v` came from a string: the reading saturates at
   * the 64-bit bounds, and a negative integer prints as its two's complement.
   */
  function UnsignedText(v: int): (s: string)
    ensures IsDigits(s) && '.' !in s
  {
    var s := NatToDecimal(Unsigned64(v));
    DigitsExclude(s, '.');
    s
  }

  /** The unsigned 64-bit reading of an integer saturated to the signed 64-bit range. */
  function Unsigned64(v: int): (u: nat)
    ensures 0 <= v < 256 ==> u == v
    ensures (v < 0 || v >= 256) ==> u >= 256
  {
    var w: int := if v < -TwoTo63 then -TwoTo63 else if v >= TwoTo63 then TwoTo63 - 1 else v;
    if w < 0 then w + 2 * TwoTo63 else w
  }

  /** The argument one padded part gives `%u`: an empty part (`''` or `'0'`) becomes `'0'`. */
  function PartArg(p: string): string {
    if PhpValues.Empty(PhpValues.Str(p)) then "0" else p
  }

  /** A range address split on `.` with `'0'` parts added until there are four. */
  function Padded(x: seq<string>): (r: seq<string>)
    ensures |r| >= 4 && |r| >= |x| && r[..|x|] == x
    ensures |x| >= 4 ==> r == x
    ensures forall i :: |x| <= i < |r| ==> r[i] == "0"
    decreases 4 - |x|
  {
    if |x| >= 4 then x else Padded(x + ["0"])
  }

  /** A wildcard range rewritten as `lower-upper`; other ranges unchanged. */
  function Unwildcard(range: string): string {
    if '*' in range then ReplaceChar(range, '*', "0") + "-" + ReplaceChar(range, '*', "255") else range
  }

  /** The dotted-netmask branch: both addresses agree on the bits the mask sets. */
  predicate MaskMatch(ip: string, base: string, netmask: string) {
    var m := IpLong(ReplaceChar(netmask, '*', "0"));
    And(IpLong(ip), m) == And(IpLong(base), m)
  }

  /** The CIDR branch, on the range address already padded to four parts. */
  predicate CidrMatch(ip: string, x: seq<string>, netmask: string)
    requires |x| >= 4
  {
    var n := PrefixLength(netmask);
    PrefixMask(IpLong(ip), n) == PrefixMask(IpLong(CidrRangeText(x)), n)
  }

  /**
   * The prefix length `32 - $netmask` reads: the netmask's leading number, as in
   * PHP 7 arithmetic (`"24"` and `"24abc"` are 24, `"2e1"` is 20, text without a
   * leading number is 0), truncated to an integer.
   */
  function PrefixLength(netmask: string): int {
    PhpValues.IntegerPart(PhpValues.LeadingNumber(netmask))
  }

  /** The `lo-hi` branch: inclusive at both ends. */
  predicate SpanMatch(ip: string, lower: string, upper: string) {
    IpLong(lower) <= IpLong(ip) <= IpLong(upper)
  }

  /** A range with a `/`: a dotted netmask when the part after it has a `.`, else a CIDR prefix. */
  predicate SlashMatch(ip: string, base: string, netmask: string) {
    if '.' in netmask then MaskMatch(ip, base, netmask)
    else CidrMatch(ip, Padded(Explode(base, '.')), netmask)
  }

  /**
   * A range without `/`: a wildcard or `lo-hi` span, else a single address, where
   * `same` is the outcome of comparing the address with the range.
   */
  predicate PlainMatch(ip: string, range: string, same: bool) {
    var r := Unwildcard(range);
    match IndexOf(r, '-')
    case Some(j) => SpanMatch(ip, r[..j], r[j + 1..])
    case None => same
  }

  /** `$ip === $range` (strict) or `$ip == $range` (loose), on the range value itself. */
  predicate SameAddress(ip: string, range: PhpValues.Value, strict: bool) {
    if strict then range == PhpValues.Str(ip) else PhpValues.LooseEquals(ip, range)
  }

  /** `ip_in_range` on the text of a range, `same` being the single-address comparison. */
  predicate TextMatches(ip: string, range: string, same: bool) {
    match IndexOf(range, '/')
    case Some(i) => SlashMatch(ip, range[..i], range[i + 1..])
    case None => PlainMatch(ip, range, same)
  }

  /** Specification of `ip_in_range($ip, $range)` for a string range; `strict` chooses `===` over `==` for the single address. */
  predicate Matches(ip: string, range: string, strict: bool) {
    TextMatches(ip, range, SameAddress(ip, PhpValues.Str(range), strict))
  }

  /**
   * `ip_in_range` on any value, as written for PHP 7. A scalar is read as its text
   * (`true` as `"1"`, `null` and `false` as `""`), except in the single-address
   * comparison. For an array, `strpos` and `explode` give `NULL`; `NULL !== false`
   * takes the `/` branch, with `NULL` for both the range address and the netmask.
   */
  predicate EntryMatchesAsWritten(ip: string, range: PhpValues.Value, strict: bool) {
    if range.Arr? then SlashMatch(ip, "", "")
    else TextMatches(ip, PhpValues.ToText(range), SameAddress(ip, range, strict))
  }

  /** `ip_in_range` on one value of a range list, with an array matching no address. */
  predicate EntryMatches(ip: string, range: PhpValues.Value, strict: bool) {
    !range.Arr? && EntryMatchesAsWritten(ip, range, strict)
  }

  /**
   * `ip_in_range`: split off what follows the first `/`, if any, and compare.
   * An array matches no address.
   */
  method IpInRange(ip: string, range: PhpValues.Value, strict: bool) returns (r: bool)
    ensures r == EntryMatches(ip, range, strict)
  {
    if range.Arr? {
      return false;
    }
    var text := PhpValues.ToText(range);
    var slash := IndexOf(text, '/');
    if slash.Some? {
      r := SlashRange(ip, text[..slash.value], text[slash.value + 1..]);
    } else {
      r := PlainRange(ip, text, range, strict);
    }
  }

  /** The netmask and CIDR branches, with the padding loop. */
  method SlashRange(ip: string, base: string, netmask: string) returns (r: bool)
    ensures r == SlashMatch(ip, base, netmask)
  {
    if '.' in netmask {
      var m := IpLong(ReplaceChar(netmask, '*', "0"));
      r := And(IpLong(ip), m) == And(IpLong(base), m);
    } else {
      var x := PadParts(Explode(base, '.'));
      var rangedec := IpLong(CidrRangeText(x));
      var n := PrefixLength(netmask);
      r := PrefixMask(IpLong(ip), n) == PrefixMask(rangedec, n);
    }
  }

  /** The wildcard, span and single-address branches, on the text of the range value `value`. */
  method PlainRange(ip: string, range: string, value: PhpValues.Value, strict: bool) returns (r: bool)
    ensures r == PlainMatch(ip, range, SameAddress(ip, value, strict))
  {
    var rg := range;
    if '*' in rg {
      var lower := ReplaceChar(rg, '*', "0");
      var upper := ReplaceChar(rg, '*', "255");
      rg := lower + "-" + upper;
    }
    var dash := IndexOf(rg, '-');
    if dash.Some? {
      var lowerdec := IpLong(rg[..dash.value]);
      var upperdec := IpLong(rg[dash.value + 1..]);
      var ipdec := IpLong(ip);
      r := lowerdec <= ipdec && ipdec <= upperdec;
    } else {
      r := SameAddress(ip, value, strict);
    }
  }

  /** The `while (count($x) < 4) $x[] = '0';` loop. */
  method PadParts(x0: seq<string>) returns (x: seq<string>)
    ensures x == Padded(x0)
  {
    x := x0;
    while |x| < 4
      invariant Padded(x) == Padded(x0)
      decreases 4 - |x|
    {
      x := x + ["0"];
    }
  }

  /** The number `%u` reads from one padded part. */
  function PartValue(p: string): int {
    LeadingInt(PartArg(p))
  }

  /** Whether one padded part survives `%u` and `ip2long` as a byte. */
  predicate PartIsByte(p: string) {
    0 <= PartValue(p) < 256
  }

  /**
   * The number the CIDR branch compares against: the first four padded parts as
   * bytes when each reads as 0..255, else 0 (the rebuilt text is no address).
   */
  function CidrBase(x: seq<string>): (n: nat)
    requires |x| >= 4
    ensures n < TwoTo32
  {
    if PartIsByte(x[0]) && PartIsByte(x[1]) && PartIsByte(x[2]) && PartIsByte(x[3]) then
      Quad(PartValue(x[0]), PartValue(x[1]), PartValue(x[2]), PartValue(x[3]))
    else 0
  }

  /** A `%u` rendering is a byte part exactly when the value is 0..255. */
  lemma OctetOfUnsigned(v: int)
    ensures Octet(UnsignedText(v)) == if 0 <= v < 256 then Some(v as nat) else None
  {
    DigitsValueOfDecimal(Unsigned64(v));
    DecimalNoLeadingZero(Unsigned64(v));
  }

  /** The `%u` rendering of one padded part. */
  function CidrPart(p: string): (s: string)
    ensures '.' !in s
  {
    UnsignedText(PartValue(p))
  }

  /** The four `%u` renderings the CIDR branch joins with dots. */
  function CidrParts(x: seq<string>): (parts: seq<string>)
    requires |x| >= 4
    ensures |parts| == 4 && '.' !in parts[0] && '.' !in parts[1] && '.' !in parts[2] && '.' !in parts[3]
  {
    var parts := [CidrPart(x[0]), CidrPart(x[1]), CidrPart(x[2]), CidrPart(x[3])];
    assert parts[0] == CidrPart(x[0]) && parts[1] == CidrPart(x[1]);
    assert parts[2] == CidrPart(x[2]) && parts[3] == CidrPart(x[3]);
    parts
  }

  /** Rebuilding the range text and reading it with `ip2long` gives `CidrBase`. */
  lemma CidrRangeValue(x: seq<string>)
    requires |x| >= 4
    ensures IpLong(CidrRangeText(x)) == CidrBase(x)
  {
    var parts := CidrParts(x);
    Ip2LongOfParts(parts);
    OctetOfUnsigned(PartValue(x[0]));
    OctetOfUnsigned(PartValue(x[1]));
    OctetOfUnsigned(PartValue(x[2]));
    OctetOfUnsigned(PartValue(x[3]));
  }

  /** The range address the CIDR branch rebuilds: `sprintf('%u.%u.%u.%u', ...)` of the first four parts. */
  function CidrRangeText(x: seq<string>): string
    requires |x| >= 4
  {
    Implode(CidrParts(x), '.')
  }

  /** The CIDR comparison on a padded range, read through `CidrBase`. */
  lemma CidrMatchMeaning(ip: string, x: seq<string>, netmask: string)
    requires |x| >= 4
    ensures CidrMatch(ip, x, netmask) <==> PrefixMask(IpLong(ip), PrefixLength(netmask)) == PrefixMask(CidrBase(x), PrefixLength(netmask))
  {
    CidrRangeValue(x);
  }

  /** A netmask of plain digits is the prefix length it spells. */
  lemma PrefixLengthOfDigits(d: string)
    requires IsDigits(d)
    ensures PrefixLength(d) == DigitsValue(d)
  {
    PhpValues.DigitsNumeric(d);
  }

  /** A netmask `aex` is read as the number `a × 10 ** x` (`/2e1` is `/20`). */
  lemma PrefixLengthOfExponent(a: string, x: string)
    requires IsDigits(a) && IsDigits(x)
    ensures PrefixLength(a + "e" + x) == DigitsValue(a) * Pow10(DigitsValue(x))
  {
    PhpValues.ExponentNumeric(a, x);
  }

  /**
   * As written, an array in a range list matches every address: the CIDR branch
   * pads the empty range address to `0.0.0.0` and reads the prefix length 0.
   */
  lemma ArrayEntryAdmitsAll(ip: string, items: seq<PhpValues.Entry>, strict: bool)
    ensures EntryMatchesAsWritten(ip, PhpValues.Arr(items), strict)
  {

  }

  /**
   * What one value of a range list matches: an array no address; a string as
   * `Matches`; a boolean, `null` or non-negative integer nothing in the strict
   * copy, and in the loose copy the addresses equal to it under `==`: for `true`
   * every address but `""` and `"0"`, for `false` those two, for `null` only `""`,
   * for an integer the addresses whose leading number it is.
   */
  lemma EntryMeaning(ip: string, range: PhpValues.Value, strict: bool)
    ensures range.Arr? ==> !EntryMatches(ip, range, strict)
    ensures range.Str? ==> (EntryMatches(ip, range, strict) <==> Matches(ip, range.s, strict))
    ensures range == PhpValues.Bool(true) ==> (EntryMatches(ip, range, strict) <==> !strict && ip != "" && ip != "0")
    ensures range == PhpValues.Bool(false) ==> (EntryMatches(ip, range, strict) <==> !strict && (ip == "" || ip == "0"))
    ensures range == PhpValues.Null ==> (EntryMatches(ip, range, strict) <==> !strict && ip == "")
    ensures range.Int? && range.i >= 0 ==>
      (EntryMatches(ip, range, strict) <==> !strict && PhpValues.SameNumber(PhpValues.LeadingNumber(ip), PhpValues.Decimal(range.i, 0)))
  {

  }

  /** A range with `/` and no `.` after it takes the CIDR branch. */
  lemma CidrBranch(ip: string, range: string, strict: bool, i: nat)
    requires IndexOf(range, '/') == Some(i) && '.' !in range[i + 1..]
    ensures Matches(ip, range, strict) == CidrMatch(ip, Padded(Explode(range[..i], '.')), range[i + 1..])
  {
  }

  /**
   * A range with `/` and no `.` after it is a CIDR range of prefix length `n`:
   * with `0 < n < 32` the address matches iff its top `n` bits equal those of the
   * range address padded to four parts; with `n <= -31` or `32 <= n < 86` iff the
   * whole address is equal; with any other `n` every address matches.
   */
  lemma CidrMeaning(ip: string, range: string, strict: bool, i: nat)
    requires IndexOf(range, '/') == Some(i) && '.' !in range[i + 1..]
    ensures var n := PrefixLength(range[i + 1..]);
      var b := CidrBase(Padded(Explode(range[..i], '.')));
      && (0 < n < 32 ==> (Matches(ip, range, strict) <==> TopBitsAgree(IpLong(ip), b, n)))
      && (WholeAddress(n) ==> (Matches(ip, range, strict) <==> IpLong(ip) == b))
      && (AnyAddress(n) ==> Matches(ip, range, strict))
  {
    var x := Padded(Explode(range[..i], '.'));
    var netmask := range[i + 1..];
    var n, p, q := PrefixLength(netmask), IpLong(ip), CidrBase(x);
    CidrBranch(ip, range, strict, i);
    CidrMatchMeaning(ip, x, netmask);
    assert Matches(ip, range, strict) == (PrefixMask(p, n) == PrefixMask(q, n));
    PrefixMaskMeaning(p, q, n);
  }

  /** A range without `/` that has a `*` and no `-` is the span from every `*` as 0 to every `*` as 255. */
  lemma WildcardMeaning(ip: string, range: string, strict: bool)
    requires '/' !in range && '*' in range && '-' !in range
    ensures Matches(ip, range, strict)
        <==> IpLong(ReplaceChar(range, '*', "0")) <= IpLong(ip) <= IpLong(ReplaceChar(range, '*', "255"))
  {
    var lower := ReplaceChar(range, '*', "0");
    var upper := ReplaceChar(range, '*', "255");
    var r := lower + "-" + upper;
    assert '-' !in lower;
    assert r[..|lower|] == lower && r[|lower|] == '-';
    IndexOfAt(r, '-', |lower|);
    assert r[|lower| + 1..] == upper;
  }

  /** `lo-hi` is inclusive at both ends: each end address is in its own span. */
  lemma SpanInclusive(ip: string, lo: string, hi: string, strict: bool)
    requires '/' !in lo && '/' !in hi && '*' !in lo && '*' !in hi && '-' !in lo
    ensures Matches(ip, lo + "-" + hi, strict) <==> IpLong(lo) <= IpLong(ip) <= IpLong(hi)
    ensures IpLong(lo) <= IpLong(hi) ==> Matches(lo, lo + "-" + hi, strict) && Matches(hi, lo + "-" + hi, strict)
  {
    var r := lo + "-" + hi;
    assert r[..|lo|] == lo && r[|lo|] == '-';
    IndexOfAt(r, '-', |lo|);
    assert r[|lo| + 1..] == hi;
    assert '/' !in r && '*' !in r;
  }

  /**
   * A range with none of `/`, `*`, `-` is one address. The strict copy compares
   * the text; the loose copy compares numeric text as numbers and other text as text.
   */
  lemma ExactMeaning(ip: string, range: string)
    requires '/' !in range && '*' !in range && '-' !in range
    ensures Matches(ip, range, true) <==> ip == range
    ensures !PhpValues.IsNumeric(ip) ==> (Matches(ip, range, false) <==> ip == range)
    ensures PhpValues.IsNumeric(ip) && PhpValues.IsNumeric(range) ==>
      (Matches(ip, range, false) <==> PhpValues.SameNumber(PhpValues.NumericValue(ip), PhpValues.NumericValue(range)))
  {
    assert IndexOf(range, '/') == None && IndexOf(range, '-') == None;
    assert Unwildcard(range) == range;
  }

  /** For an address with at least two `.` (every dotted quad), the strict and the loose copy agree on every range. */
  lemma CopiesAgree(ip: string, range: string)
    requires Count(ip, '.') >= 2
    ensures Matches(ip, range, true) == Matches(ip, range, false)
  {
    PhpValues.LooseEqualsTwoDots(ip, Unwildcard(range));
  }

  /** Where they differ: `"10"` against the range `"010"` matches loosely but not strictly. */
  lemma CopiesDiffer()
    ensures Matches("10", "010", false) && !Matches("10", "010", true)
  {
    PlainZeroTen();
    TenLooselyZeroTen();
  }

  /** They also differ on decimal text: `"1.0"` against the range `"1"` matches loosely but not strictly. */
  lemma CopiesDifferOnDecimal()
    ensures Matches("1.0", "1", false) && !Matches("1.0", "1", true)
  {
    assert IndexOf("1", '/') == None && IndexOf("1", '-') == None && Unwildcard("1") == "1";
    PhpValues.DecimalForms();
  }

  /** `010` has no `/`, no `-` and no `*`: it is a single address. */
  lemma PlainZeroTen()
    ensures IndexOf("010", '/') == None && IndexOf("010", '-') == None && Unwildcard("010") == "010"
  {
  }

  /** `"10" == "010"` holds in PHP: both are integer strings worth 10. */
  lemma TenLooselyZeroTen()
    ensures PhpValues.LooseStringEquals("10", "010")
  {
    assert IsDigits("10") by {
      assert IsDigit("10"[0]) && IsDigit("10"[1]);
    }
    assert IsDigits("010") by {
      assert IsDigit("010"[0]) && IsDigit("010"[1]) && IsDigit("010"[2]);
    }
    PhpValues.DigitsNumeric("10");
    PhpValues.DigitsNumeric("010");
    TenValues();
  }

  lemma TenValues()
    ensures DigitsValue("10") == 10 && DigitsValue("010") == 10
  {
    assert "0"[..0] == [] && "1"[..0] == [];
    assert "10"[..1] == "1";
    assert DigitsValue("01") == 1 by { assert "01"[..1] == "0"; }
    assert "010"[..2] == "01";
  }

  /** Some range of the list holds the address. */
  predicate InSomeRange(ip: string, ranges: seq<PhpValues.Value>, strict: bool) {
    ranges != [] && (EntryMatches(ip, ranges[0], strict) || InSomeRange(ip, ranges[1..], strict))
  }

  /** Some address of the list is in the range. */
  predicate SomeInRange(ips: seq<string>, range: PhpValues.Value, strict: bool) {
    ips != [] && (EntryMatches(ips[0], range, strict) || SomeInRange(ips[1..], range, strict))
  }

  lemma {:induction false} InSomeRangeExists(ip: string, ranges: seq<PhpValues.Value>, strict: bool)
    ensures InSomeRange(ip, ranges, strict) <==> exists i :: 0 <= i < |ranges| && EntryMatches(ip, ranges[i], strict)
  {
    if ranges != [] {
      InSomeRangeExists(ip, ranges[1..], strict);
      if exists i :: 0 <= i < |ranges| && EntryMatches(ip, ranges[i], strict) {
        var i :| 0 <= i < |ranges| && EntryMatches(ip, ranges[i], strict);
        if i > 0 {
          assert ranges[1..][i - 1] == ranges[i];
        }
      }
      if exists i :: 0 <= i < |ranges[1..]| && EntryMatches(ip, ranges[1..][i], strict) {
        var i :| 0 <= i < |ranges[1..]| && EntryMatches(ip, ranges[1..][i], strict);
        assert ranges[i + 1] == ranges[1..][i];
      }
    }
  }

  lemma {:induction false} SomeInRangeExists(ips: seq<string>, range: PhpValues.Value, strict: bool)
    ensures SomeInRange(ips, range, strict) <==> exists i :: 0 <= i < |ips| && EntryMatches(ips[i], range, strict)
  {
    if ips != [] {
      SomeInRangeExists(ips[1..], range, strict);
      if exists i :: 0 <= i < |ips| && EntryMatches(ips[i], range, strict) {
        var i :| 0 <= i < |ips| && EntryMatches(ips[i], range, strict);
        if i > 0 {
          assert ips[1..][i - 1] == ips[i];
        }
      }
      if exists i :: 0 <= i < |ips[1..]| && EntryMatches(ips[1..][i], range, strict) {
        var i :| 0 <= i < |ips[1..]| && EntryMatches(ips[1..][i], range, strict);
        assert ips[i + 1] == ips[1..][i];
      }
    }
  }

  /** `ip_in_ranges`: stops at the first range that holds the address; false for no ranges. */
  method IpInRanges(ip: string, ranges: seq<PhpValues.Value>, strict: bool) returns (r: bool)
    ensures r == InSomeRange(ip, ranges, strict)
  {
    var i := 0;
    while i < |ranges|
      invariant 0 <= i <= |ranges|
      invariant InSomeRange(ip, ranges, strict) == InSomeRange(ip, ranges[i..], strict)
    {
      assert InSomeRange(ip, ranges[i..], strict) == (EntryMatches(ip, ranges[i], strict) || InSomeRange(ip, ranges[i + 1..], strict)) by {
        assert ranges[i..][0] == ranges[i];
        assert ranges[i..][1..] == ranges[i + 1..];
      }
      var m := IpInRange(ip, ranges[i], strict);
      if m {
        return true;
      }
      i := i + 1;
    }
    return false;
  }

  /** `ips_in_range`: stops at the first address in the range; false for no addresses. */
  method IpsInRange(ips: seq<string>, range: PhpValues.Value, strict: bool) returns (r: bool)
    ensures r == SomeInRange(ips, range, strict)
  {
    var i := 0;
    while i < |ips|
      invariant 0 <= i <= |ips|
      invariant SomeInRange(ips, range, strict) == SomeInRange(ips[i..], range, strict)
    {
      assert SomeInRange(ips[i..], range, strict) == (EntryMatches(ips[i], range, strict) || SomeInRange(ips[i + 1..], range, strict)) by {
        assert ips[i..][0] == ips[i];
        assert ips[i..][1..] == ips[i + 1..];
      }
      var m := IpInRange(ips[i], range, strict);
      if m {
        return true;
      }
      i := i + 1;
    }
    return false;
  }
}

=== FILE: ipv4.dfy ===
/**
 * Dotted-quad IPv4 addresses (section 3.2 of RFC 791) as PHP's `ip2long` reads
 * them, and the 32-bit arithmetic the range checks do on them. `ip2long` accepts
 * exactly four decimal parts, each 0..255 and written without leading zeros,
 * and returns `false` for anything else; under `&` and `%u` that `false`
 * becomes 0, which `IpLong` makes explicit.
 */
module Ipv4 {
  import opened Optional
  import opened Strings

  const TwoTo32: nat := 0x1_0000_0000

  /** One part of a dotted quad: decimal digits, no leading zero, at most 255. */
  function Octet(s: string): (r: Option<nat>)
    ensures r.Some? ==> r.value < 256 && IsDigits(s)
  {
    if IsDigits(s) && (|s| == 1 || s[0] != '0') && DigitsValue(s) < 256 then Some(DigitsValue(s)) else None
  }

  /** The 32-bit number whose four bytes, high to low, are `a`, `b`, `c`, `d`. */
  function Quad(a: nat, b: nat, c: nat, d: nat): (n: nat)
    requires a < 256 && b < 256 && c < 256 && d < 256
    ensures n < TwoTo32
  {
    ((a * 256 + b) * 256 + c) * 256 + d
  }

  /** `ip2long`: the address as a number below 2^32, or nothing when it is not a dotted quad. */
  function Ip2Long(s: string): (r: Option<nat>)
    ensures r.Some? ==> r.value < TwoTo32
  {
    var parts := Explode(s, '.');
    if |parts| != 4 then None
    else
      match (Octet(parts[0]), Octet(parts[1]), Octet(parts[2]), Octet(parts[3]))
      case (Some(a), Some(b), Some(c), Some(d)) => Some(Quad(a, b, c, d))
      case _ => None
  }

  /** `ip2long` as the range checks use it: an invalid address counts as 0. */
  function IpLong(s: string): (n: nat)
    ensures n < TwoTo32
    ensures Ip2Long(s).None? ==> n == 0
  {
    match Ip2Long(s)
    case Some(n) => n
    case None => 0
  }

  /** The four bytes of a 32-bit number, high to low. */
  function Bytes(n: nat): (r: seq<nat>)
    requires n < TwoTo32
    ensures |r| == 4 && forall i :: 0 <= i < 4 ==> r[i] < 256
  {
    var n1 := n / 256;
    var n2 := n1 / 256;
    [n2 / 256 % 256, n2 % 256, n1 % 256, n % 256]
  }

  /** `long2ip`: the dotted-quad text of a 32-bit number. */
  function LongText(n: nat): string
    requires n < TwoTo32
  {
    var b := Bytes(n);
    Implode([NatToDecimal(b[0]), NatToDecimal(b[1]), NatToDecimal(b[2]), NatToDecimal(b[3])], '.')
  }

  lemma DivModUnique(x: nat, q: nat, r: nat, m: nat)
    requires r < m && x == q * m + r
    ensures x / m == q && x % m == r
  {
    var q', r' := x / m, x % m;
    assert x == q' * m + r';
    if q' < q {
      assert (q - q') * m == q * m - q' * m;
      MulAtLeast(q - q', m);
    } else if q < q' {
      assert (q' - q) * m == q' * m - q * m;
      MulAtLeast(q' - q, m);
    }
  }

  lemma MulAtLeast(k: nat, m: nat)
    requires k >= 1
    ensures k * m >= m
  {
    assert k * m == (k - 1) * m + m;
  }

  /** Splitting a number into bytes and putting them back together are inverse. */
  lemma BytesQuad(a: nat, b: nat, c: nat, d: nat)
    requires a < 256 && b < 256 && c < 256 && d < 256
    ensures Bytes(Quad(a, b, c, d)) == [a, b, c, d]
  {
    var n := Quad(a, b, c, d);
    DivModUnique(n, (a * 256 + b) * 256 + c, d, 256);
    DivModUnique((a * 256 + b) * 256 + c, a * 256 + b, c, 256);
    DivModUnique(a * 256 + b, a, b, 256);
    DivModUnique(a, 0, a, 256);
  }

  lemma QuadBytes(n: nat)
    requires n < TwoTo32
    ensures var b := Bytes(n); Quad(b[0], b[1], b[2], b[3]) == n
  {
    var n1 := n / 256;
    var n2 := n1 / 256;
    var n3 := n2 / 256;
    assert n == n1 * 256 + n % 256;
    assert n1 == n2 * 256 + n1 % 256;
    assert n2 == n3 * 256 + n2 % 256;
    assert n3 < 256 by {
      assert n1 < 0x100_0000;
      assert n2 < 0x1_0000;
    }
    DivModUnique(n3, 0, n3, 256);
  }

  /** A byte value renders to the text `Octet` reads back. */
  lemma OctetOfDecimal(v: nat)
    requires v < 256
    ensures Octet(NatToDecimal(v)) == Some(v)
  {
    DigitsValueOfDecimal(v);
    DecimalNoLeadingZero(v);
  }

  /** A part `Octet` accepts is the decimal rendering of its value. */
  lemma DecimalOfOctet(s: string)
    requires Octet(s).Some?
    ensures s == NatToDecimal(Octet(s).value)
  {
    DecimalOfDigits(s);
  }

  /** `ip2long(long2ip($n)) == $n` for every 32-bit number. */
  lemma Ip2LongOfLongText(n: nat)
    requires n < TwoTo32
    ensures Ip2Long(LongText(n)) == Some(n)
  {
    var b := Bytes(n);
    var parts := [NatToDecimal(b[0]), NatToDecimal(b[1]), NatToDecimal(b[2]), NatToDecimal(b[3])];
    forall i | 0 <= i < 4 ensures '.' !in parts[i] {
      DigitsExclude(parts[i], '.');
    }
    ExplodeImplode(parts, '.');
    OctetOfDecimal(b[0]);
    OctetOfDecimal(b[1]);
    OctetOfDecimal(b[2]);
    OctetOfDecimal(b[3]);
    QuadBytes(n);
  }

  /** Conversely every address `ip2long` accepts is the canonical text of its number. */
  lemma LongTextOfIp2Long(s: string)
    requires Ip2Long(s).Some?
    ensures LongText(Ip2Long(s).value) == s
  {
    var parts := Explode(s, '.');
    var a, b, c, d := Octet(parts[0]).value, Octet(parts[1]).value, Octet(parts[2]).value, Octet(parts[3]).value;
    assert Ip2Long(s).value == Quad(a, b, c, d);
    BytesQuad(a, b, c, d);
    DecimalOfOctet(parts[0]);
    DecimalOfOctet(parts[1]);
    DecimalOfOctet(parts[2]);
    DecimalOfOctet(parts[3]);
    assert [parts[0], parts[1], parts[2], parts[3]] == parts;
    ImplodeExplode(s, '.');
  }

  /** `ip2long` of four dot-free parts joined by dots: a number iff each part is an octet. */
  lemma Ip2LongOfParts(parts: seq<string>)
    requires |parts| == 4 && '.' !in parts[0] && '.' !in parts[1] && '.' !in parts[2] && '.' !in parts[3]
    ensures Ip2Long(Implode(parts, '.'))
         == if Octet(parts[0]).Some? && Octet(parts[1]).Some? && Octet(parts[2]).Some? && Octet(parts[3]).Some?
            then Some(Quad(Octet(parts[0]).value, Octet(parts[1]).value, Octet(parts[2]).value, Octet(parts[3]).value))
            else None
  {
    assert forall i :: 0 <= i < 4 ==> '.' !in parts[i];
    ExplodeImplode(parts, '.');
  }

  /** Two addresses `ip2long` accepts have the same number only if they are the same text. */
  lemma Ip2LongInjective(s: string, t: string)
    requires Ip2Long(s).Some? && Ip2Long(s) == Ip2Long(t)
    ensures s == t
  {
    LongTextOfIp2Long(s);
    LongTextOfIp2Long(t);
  }

  /** `$x & $y` on two 32-bit numbers. */
  function And(x: nat, y: nat): (r: nat)
    requires x < TwoTo32 && y < TwoTo32
    ensures r < TwoTo32
  {
    ((x as bv32) & (y as bv32)) as nat
  }

  function Pow2(k: nat): (r: nat)
    ensures r > 0
  {
    if k == 0 then 1 else 2 * Pow2(k - 1)
  }

  /**
   * `$x & ~(pow(2, 32 - $n) - 1)` for a 32-bit `$x` on 64-bit PHP; with `k = 32 - n`:
   *  - `0 < n < 32`: the low `k` bits are cleared;
   *  - `-31 < n <= 0`: `2 ** k - 1` has all 32 low bits set, so all are cleared;
   *  - `n <= -31`: `pow` gives a float of `2 ** 63` or more, which `~` reads
   *    modulo `2 ** 64` as `PHP_INT_MIN` or 0, so the mask keeps all 32 bits;
   *  - `32 <= n < 86`: `2 ** k - 1` is a float in `(-1, 0]`, which `~` truncates
   *    to 0, so the mask keeps every bit;
   *  - `n >= 86`: `1 - 2 ** k` rounds to `1.0`, and `~(-1)` clears every bit.
   */
  function PrefixMask(x: nat, n: int): (r: nat)
    requires x < TwoTo32
    ensures r <= x
  {
    if 0 < n < 32 then
      ModAtMost(x, Pow2(32 - n));
      x - x % Pow2(32 - n)
    else if WholeAddress(n) then x
    else 0
  }

  /** A prefix length with which the mask keeps all 32 bits. */
  predicate WholeAddress(n: int) {
    n <= -31 || 32 <= n < 86
  }

  /** A prefix length with which the mask clears all 32 bits. */
  predicate AnyAddress(n: int) {
    -31 < n <= 0 || 86 <= n
  }

  lemma ModAtMost(x: nat, m: nat)
    requires m > 0
    ensures x % m <= x
  {
    if x >= m {
      assert x == m * (x / m) + x % m;
      assert x / m >= 1;
    }
  }

  /** The top `n` of 32 bits of `x` and `y` agree. */
  predicate TopBitsAgree(x: nat, y: nat, n: int)
    requires 0 < n < 32
  {
    x / Pow2(32 - n) == y / Pow2(32 - n)
  }

  /** For a prefix length strictly between 0 and 32, masking agrees iff the top `n` bits agree. */
  lemma PrefixMaskAgree(x: nat, y: nat, n: int)
    requires x < TwoTo32 && y < TwoTo32 && 0 < n < 32
    ensures PrefixMask(x, n) == PrefixMask(y, n) <==> TopBitsAgree(x, y, n)
  {
    var m := Pow2(32 - n);
    assert x - x % m == m * (x / m);
    assert y - y % m == m * (y / m);
    if m * (x / m) == m * (y / m) {
      MulCancel(m, x / m, y / m);
    }
  }

  /**
   * Comparing two masked addresses: for `0 < n < 32` the top `n` bits agree;
   * for a whole-address length the addresses are equal; for any other length
   * they always agree.
   */
  lemma PrefixMaskMeaning(x: nat, y: nat, n: int)
    requires x < TwoTo32 && y < TwoTo32
    ensures 0 < n < 32 ==> (PrefixMask(x, n) == PrefixMask(y, n) <==> TopBitsAgree(x, y, n))
    ensures WholeAddress(n) ==> (PrefixMask(x, n) == PrefixMask(y, n) <==> x == y)
    ensures AnyAddress(n) ==> PrefixMask(x, n) == PrefixMask(y, n)
    ensures 0 < n < 32 || WholeAddress(n) || AnyAddress(n)
  {
    if 0 < n < 32 {
      PrefixMaskAgree(x, y, n);
    }
  }

  lemma MulCancel(m: nat, p: int, q: int)
    requires m > 0 && m * p == m * q
    ensures p == q
  {
    if p < q {
      assert m * q - m * p == m * (q - p);
      MulAtLeast(q - p, m);
    } else if q < p {
      assert m * p - m * q == m * (p - q);
      MulAtLeast(p - q, m);
    }
  }
}

=== FILE: levels.dfy ===
/**
 * The environment levels of init.php: bit flags that ENV_LEVEL combines with
 * PHP's `|` on 64-bit integers and that the bootstrap tests with `&`.
 */
module EnvLevels {
  import opened Ipv4

  /** The environment levels (init.php defines them as these powers of two). */
  const EnvDev: int := 1
  const EnvTest: int := 2
  const EnvStage: int := 4
  const EnvPreprod: int := 8
  const EnvLive: int := 16
  const EnvCli: int := 32
  const EnvWeb: int := 64

  /** The bit positions of the levels ENV_CLI and ENV_WEB. */
  const CliBit: nat := 5
  const WebBit: nat := 6

  const TwoTo64: int := 0x1_0000_0000_0000_0000

  /** Bit `k` of a non-negative number. */
  predicate Bit(x: nat, k: nat) {
    if k == 0 then x % 2 == 1 else Bit(x / 2, k - 1)
  }

  lemma {:induction false} BitOfZero(k: nat)
    ensures !Bit(0, k)
    decreases k
  {
    if k != 0 {
      BitOfZero(k - 1);
    }
  }

  /** `|` on non-negative numbers, one binary digit at a time. */
  function BitOr(x: nat, y: nat): nat
    decreases x + y
  {
    if x == 0 then y
    else if y == 0 then x
    else 2 * BitOr(x / 2, y / 2) + (if x % 2 == 1 || y % 2 == 1 then 1 else 0)
  }

  lemma Halves(r: nat, b: nat)
    requires b < 2
    ensures (2 * r + b) / 2 == r && (2 * r + b) % 2 == b
  {
  }

  /** Bit `k` of `x | y` is set exactly when it is set in `x` or in `y`. */
  lemma {:induction false} BitOrBit(x: nat, y: nat, k: nat)
    ensures Bit(BitOr(x, y), k) <==> Bit(x, k) || Bit(y, k)
    decreases k
  {
    if x == 0 || y == 0 {
      BitOfZero(k);
    } else {
      var r := BitOr(x / 2, y / 2);
      var b := if x % 2 == 1 || y % 2 == 1 then 1 else 0;
      assert BitOr(x, y) == 2 * r + b;
      Halves(r, b);
      if k != 0 {
        BitOrBit(x / 2, y / 2, k - 1);
      }
    }
  }

  /** `|` never reaches a power of two that neither operand reaches. */
  lemma {:induction false} BitOrBound(x: nat, y: nat, n: nat)
    requires x < Pow2(n) && y < Pow2(n)
    ensures BitOr(x, y) < Pow2(n)
    decreases n
  {
    if x != 0 && y != 0 {
      BitOrBound(x / 2, y / 2, n - 1);
    }
  }

  lemma {:induction false} Pow2Add(a: nat, b: nat)
    ensures Pow2(a + b) == Pow2(a) * Pow2(b)
    decreases a
  {
    if a != 0 {
      Pow2Add(a - 1, b);
      calc {
        Pow2(a + b);
        2 * Pow2(a - 1 + b);
        2 * (Pow2(a - 1) * Pow2(b));
        (2 * Pow2(a - 1)) * Pow2(b);
      }
    }
  }

  lemma Pow2Is64()
    ensures Pow2(64) == TwoTo64
  {
    assert Pow2(2) == 4;
    Pow2Add(2, 2);
    assert Pow2(4) == 16;
    Pow2Add(4, 4);
    assert Pow2(8) == 0x100;
    Pow2Add(8, 8);
    assert Pow2(16) == 0x1_0000;
    Pow2Add(16, 16);
    assert Pow2(32) == 0x1_0000_0000;
    Pow2Add(32, 32);
  }

  /** A PHP integer as the unsigned value of its 64 bits (two's complement). */
  function Unsigned(x: int): (u: nat)
    ensures u < TwoTo64
  {
    x % TwoTo64
  }

  /** 64 bits read back as a signed PHP integer. */
  function Signed(u: nat): (x: int)
    requires u < TwoTo64
    ensures -TwoTo64 / 2 <= x < TwoTo64 / 2
    ensures Unsigned(x) == u
  {
    if u < TwoTo64 / 2 then u else u - TwoTo64
  }

  /** `$x | $y` on PHP integers. */
  function Or64(x: int, y: int): (r: int)
    ensures Unsigned(r) == BitOr(Unsigned(x), Unsigned(y))
  {
    Pow2Is64();
    BitOrBound(Unsigned(x), Unsigned(y), 64);
    Signed(BitOr(Unsigned(x), Unsigned(y)))
  }

  /** `$x & $level` is non-zero, for the level at bit position `k`. */
  predicate HasBit(x: int, k: nat) {
    Bit(Unsigned(x), k)
  }

  /** Or-ing in a level sets it, and keeps every level that was set. */
  lemma OrSetsBits(x: int, y: int, k: nat)
    ensures HasBit(Or64(x, y), k) <==> HasBit(x, k) || HasBit(y, k)
  {
    BitOrBit(Unsigned(x), Unsigned(y), k);
  }

  /** ENV_CLI and ENV_WEB are the levels at bits 5 and 6, so a level is never both. */
  lemma LevelBits()
    ensures EnvCli == Pow2(CliBit) && EnvWeb == Pow2(WebBit)
    ensures HasBit(EnvCli, CliBit) && !HasBit(EnvCli, WebBit)
    ensures HasBit(EnvWeb, WebBit) && !HasBit(EnvWeb, CliBit)
  {
  }

  /** The two default levels: live web requests are not CLI runs, and live CLI runs are not web requests. */
  lemma DefaultLevels()
    ensures Or64(EnvLive, EnvWeb) == 80 && HasBit(80, WebBit) && !HasBit(80, CliBit)
    ensures Or64(EnvLive, EnvCli) == 48 && HasBit(48, CliBit) && !HasBit(48, WebBit)
  {
    assert Unsigned(EnvLive) == 16 && Unsigned(EnvWeb) == 64 && Unsigned(EnvCli) == 32;
    assert BitOr(1, 4) == 5 && BitOr(2, 8) == 10 && BitOr(4, 16) == 20 && BitOr(8, 32) == 40;
    assert BitOr(16, 64) == 80;
    assert BitOr(1, 2) == 3 && BitOr(2, 4) == 6 && BitOr(4, 8) == 12 && BitOr(8, 16) == 24;
    assert BitOr(16, 32) == 48;
    assert Unsigned(80) == 80 && Unsigned(48) == 48;
  }
}

=== FILE: lib_functions.dfy ===
/**
 * The multibyte helpers of the global function file: `mb_ucfirst` over
 * characters, with the upper-casing of one character left abstract, and
 * `mb_str_pad` over UTF-8 bytes, built on PHP's byte-wise `str_pad`, and the
 * global `array_merge_recursive_distinct`. The file's nested-array function is
 * that of the Nesting module.
 */
module LibFunctions {
  import opened Optional
  import opened PhpValues
  import opened Merge

  /**
   * `mb_ucfirst($string)`: the upper-cased first character (`upper` stands
   * for `mb_strtoupper` on one character, which may give several) followed by
   * the rest unchanged. The empty string stays empty.
   */
  function MbUcfirst(s: string, upper: char -> string): (r: string)
    ensures s == [] ==> r == []
    ensures s != [] ==> r == upper(s[0]) + s[1..]
    ensures s != [] ==> r[|upper(s[0])|..] == s[1..]
  {
    if s == [] then [] else upper(s[0]) + s[1..]
  }

  /** Once the first character is its own upper case, upper-casing it again changes nothing. */
  lemma MbUcfirstIdempotent(s: string, upper: char -> string)
    requires s != [] && |upper(s[0])| >= 1 && upper(upper(s[0])[0]) == [upper(s[0])[0]]
    ensures MbUcfirst(MbUcfirst(s, upper), upper) == MbUcfirst(s, upper)
  {
    var r := MbUcfirst(s, upper);
    assert r[0] == upper(s[0])[0];
    assert r == [r[0]] + r[1..];
  }

  newtype byte = x: int | 0 <= x < 256

  /** A UTF-8 continuation byte (`10xxxxxx`): every other byte starts a character. */
  predicate IsContinuation(b: byte) {
    0x80 <= b < 0xC0
  }

  /** `mb_strlen` in UTF-8: the number of bytes that start a character. */
  function MbLen(s: seq<byte>): (n: nat)
    ensures n <= |s|
  {
    if s == [] then 0 else (if IsContinuation(s[0]) then 0 else 1) + MbLen(s[1..])
  }

  lemma {:induction false} MbLenAppend(s: seq<byte>, t: seq<byte>)
    ensures MbLen(s + t) == MbLen(s) + MbLen(t)
    decreases |s|
  {
    if s == [] {
      assert s + t == t;
    } else {
      assert (s + t)[1..] == s[1..] + t;
      MbLenAppend(s[1..], t);
    }
  }

  /** `STR_PAD_RIGHT`, `STR_PAD_LEFT` and `STR_PAD_BOTH`. */
  datatype PadType = PadRight | PadLeft | PadBoth

  /** `n` bytes of the pad string repeated from its start, the last copy cut short. */
  function Repeat(pad: seq<byte>, n: nat): (r: seq<byte>)
    requires pad != []
    ensures |r| == n && forall i :: 0 <= i < n ==> r[i] == pad[i % |pad|]
  {
    seq(n, i requires 0 <= i => pad[i % |pad|])
  }

  /**
   * PHP's `str_pad` on bytes: no padding when the length asked for is not
   * above the input's; false (`None`) for an empty pad string; otherwise the
   * missing bytes go right, left, or are split with the smaller half on the left.
   */
  function StrPad(input: seq<byte>, length: int, pad: seq<byte>, t: PadType): (r: Option<seq<byte>>)
    ensures length <= |input| ==> r == Some(input)
    ensures length > |input| && pad == [] ==> r == None
    ensures r.Some? && length > |input| ==> |r.value| == length
  {
    if length <= |input| then Some(input)
    else if pad == [] then None
    else
      var n := length - |input|;
      var left := match t case PadRight => 0 case PadLeft => n case PadBoth => n / 2;
      Some(Repeat(pad, left) + input + Repeat(pad, n - left))
  }

  /**
   * `mb_str_pad($input, $pad_length, $pad_string, $pad_type)`: `str_pad` with
   * the length raised by the bytes the input has beyond its characters.
   */
  function MbStrPad(input: seq<byte>, length: int, pad: seq<byte>, t: PadType): Option<seq<byte>> {
    StrPad(input, length + (|input| - MbLen(input)), pad, t)
  }

  /** A length not above the input's character count pads nothing. */
  lemma MbStrPadNoPadding(input: seq<byte>, length: int, pad: seq<byte>, t: PadType)
    requires length <= MbLen(input)
    ensures MbStrPad(input, length, pad, t) == Some(input)
  {
  }

  /** A pad string of one single-byte character repeated `n` times holds `n` characters. */
  lemma {:induction false} MbLenRepeat(b: byte, n: nat)
    requires !IsContinuation(b)
    ensures MbLen(Repeat([b], n)) == n
    decreases n
  {
    if n > 0 {
      assert Repeat([b], n) == [b] + Repeat([b], n - 1);
      MbLenRepeat(b, n - 1);
    }
  }

  /**
   * With a one-byte pad character, the result has exactly the asked number of
   * characters (or the input's, when that is more), and the padding goes on the
   * side the pad type names: all right, all left, or split with the smaller
   * half on the left.
   */
  lemma MbStrPadSingleByte(input: seq<byte>, length: int, b: byte, t: PadType)
    requires !IsContinuation(b)
    ensures var r := MbStrPad(input, length, [b], t);
      r.Some? && MbLen(r.value) == (if length > MbLen(input) then length else MbLen(input))
    ensures length > MbLen(input) ==>
      var n := length - MbLen(input);
      var left := match t case PadRight => 0 case PadLeft => n case PadBoth => n / 2;
      MbStrPad(input, length, [b], t) == Some(Repeat([b], left) + input + Repeat([b], n - left))
  {
    if length > MbLen(input) {
      var n := length - MbLen(input);
      var left := match t case PadRight => 0 case PadLeft => n case PadBoth => n / 2;
      var r := Repeat([b], left) + input + Repeat([b], n - left);
      MbLenAppend(Repeat([b], left) + input, Repeat([b], n - left));
      MbLenAppend(Repeat([b], left), input);
      MbLenRepeat(b, left);
      MbLenRepeat(b, n - left);
    }
  }

  /**
   * The global `array_merge_recursive_distinct($array1, ...)`: the later
   * arrays folded into the first in order, every key keeping its position;
   * empty later arrays are skipped, so with only those the first comes back
   * unchanged.
   */
  method ArrayMergeRecursiveDistinct(first: seq<Entry>, rest: seq<seq<Entry>>) returns (r: seq<Entry>)
    ensures r == MergeAll(first, rest, false)
    ensures (forall i :: 0 <= i < |rest| ==> rest[i] == []) ==> r == first
  {
    r := MergeRecursiveDistinct(first, rest, false);
    if forall i :: 0 <= i < |rest| ==> rest[i] == [] {
      MergeAllEmpty(first, rest, false);
    }
  }
}

=== FILE: merge.dfy ===
/**
 * The recursive keyed merge `array_merge_recursive_distinct` (and its class twin
 * `ArrayUtils::mergeRecursiveDistinct`). The arrays after the first are folded into it,
 * entry by entry:
 *  - a scalar (non-array) later value overwrites; with the reposition flag an
 *    overwritten key that was set (non-null) is first unset, so it moves to the end;
 *  - a later array merges recursively into an earlier array under the same key
 *    (the reposition flag is passed on), and replaces anything else.
 * MergeTwo is the specification of one fold; MergeInto is the loop that computes it.
 */
module Merge {
  import opened Optional
  import opened PhpValues

  /** Folding the later array `b` into `a`, entry by entry from the front. */
  function MergeTwo(a: seq<Entry>, b: seq<Entry>, reposition: bool): seq<Entry>
    decreases b
  {
    if b == [] then a
    else MergeTwo(MergeEntry(a, b[0], reposition), b[1..], reposition)
  }

  /** The body of the inner `foreach`: one later entry merged into `a`. */
  function MergeEntry(a: seq<Entry>, e: Entry, reposition: bool): seq<Entry>
    decreases e
  {
    if e.val.Arr? then
      var cur := Get(a, e.key);
      Assign(a, e.key, if cur.Arr? then Arr(MergeTwo(cur.items, e.val.items, reposition)) else e.val)
    else if Isset(a, e.key) && reposition then
      Assign(Unset(a, e.key), e.key, e.val)
    else
      Assign(a, e.key, e.val)
  }

  /** All later arrays folded into the first, in argument order. */
  function MergeAll(first: seq<Entry>, rest: seq<seq<Entry>>, reposition: bool): seq<Entry>
    decreases |rest|
  {
    if rest == [] then first
    else MergeAll(MergeTwo(first, rest[0], reposition), rest[1..], reposition)
  }

  /**
   * Reference definition of the merged value under one key: a key the later
   * array lacks keeps its earlier value; array onto array merges recursively
   * (with the same flag); any other later value wins.
   */
  function MergedValue(a: seq<Entry>, b: seq<Entry>, reposition: bool, k: string): Option<Value> {
    match Lookup(b, k)
    case None => Lookup(a, k)
    case Some(v) =>
      var cur := Get(a, k);
      if v.Arr? && cur.Arr? then Some(Arr(MergeTwo(cur.items, v.items, reposition))) else Some(v)
  }

  lemma UniqueTail(b: seq<Entry>)
    requires UniqueKeys(b) && b != []
    ensures UniqueKeys(b[1..])
    ensures b[0].key !in Keys(b[1..])
  {
    assert Keys(b) == [b[0].key] + Keys(b[1..]);
    forall i, j | 0 <= i < j < |b[1..]| ensures Keys(b[1..])[i] != Keys(b[1..])[j] {
      assert Keys(b)[i + 1] != Keys(b)[j + 1];
    }
    forall j | 0 <= j < |b[1..]| ensures Keys(b[1..])[j] != b[0].key {
      assert Keys(b)[j + 1] != Keys(b)[0];
    }
  }

  /** One merged entry changes the value under its own key only. */
  lemma MergeEntryOther(a: seq<Entry>, e: Entry, reposition: bool, k: string)
    requires k != e.key
    ensures Lookup(MergeEntry(a, e, reposition), k) == Lookup(a, k)
  {
  }

  /** Keys that the later array does not mention keep their earlier value. */
  lemma {:induction false} MergeTwoOther(a: seq<Entry>, b: seq<Entry>, reposition: bool, k: string)
    requires k !in Keys(b)
    ensures Lookup(MergeTwo(a, b, reposition), k) == Lookup(a, k)
    decreases b
  {
    if b != [] {
      assert Keys(b) == [b[0].key] + Keys(b[1..]);
      MergeEntryOther(a, b[0], reposition, k);
      MergeTwoOther(MergeEntry(a, b[0], reposition), b[1..], reposition, k);
    }
  }

  /** The entry's own key ends up with the later value, or the recursive merge for array onto array. */
  lemma MergeEntrySelf(a: seq<Entry>, e: Entry, reposition: bool)
    ensures Lookup(MergeEntry(a, e, reposition), e.key)
         == Some(if e.val.Arr? && Get(a, e.key).Arr? then Arr(MergeTwo(Get(a, e.key).items, e.val.items, reposition)) else e.val)
  {
  }

  /**
   * The merge agrees with the per-key reference definition: later scalars override,
   * array onto array recurses, other later arrays replace, untouched keys are kept.
   */
  lemma {:induction false} MergeLookup(a: seq<Entry>, b: seq<Entry>, reposition: bool, k: string)
    requires UniqueKeys(b)
    ensures Lookup(MergeTwo(a, b, reposition), k) == MergedValue(a, b, reposition, k)
    decreases b
  {
    if b != [] {
      var e := b[0];
      var a1 := MergeEntry(a, e, reposition);
      assert MergeTwo(a, b, reposition) == MergeTwo(a1, b[1..], reposition);
      UniqueTail(b);
      if k == e.key {
        MergeTwoOther(a1, b[1..], reposition, k);
        LookupAt(b, 0);
        MergeEntrySelf(a, e, reposition);
        MergedValueAt(a, b, reposition, k, e.val);
      } else {
        MergeLookup(a1, b[1..], reposition, k);
        MergeEntryOther(a, e, reposition, k);
        assert Lookup(b, k) == Lookup(b[1..], k);
        MergedValueSameLookups(a1, b[1..], a, b, reposition, k);
      }
    }
  }

  lemma MergedValueAt(a: seq<Entry>, b: seq<Entry>, reposition: bool, k: string, v: Value)
    requires Lookup(b, k) == Some(v)
    ensures MergedValue(a, b, reposition, k)
         == Some(if v.Arr? && Get(a, k).Arr? then Arr(MergeTwo(Get(a, k).items, v.items, reposition)) else v)
  {
  }

  lemma MergedValueSameLookups(a1: seq<Entry>, b1: seq<Entry>, a: seq<Entry>, b: seq<Entry>, reposition: bool, k: string)
    requires Lookup(a1, k) == Lookup(a, k) && Lookup(b1, k) == Lookup(b, k)
    ensures MergedValue(a1, b1, reposition, k) == MergedValue(a, b, reposition, k)
  {
    assert Get(a1, k) == Get(a, k);
  }

  /** The merged keys are exactly the keys of either input. */
  lemma {:induction false} MergeKeys(a: seq<Entry>, b: seq<Entry>, reposition: bool)
    ensures forall k :: k in Keys(MergeTwo(a, b, reposition)) <==> k in Keys(a) || k in Keys(b)
    decreases b
  {
    if b != [] {
      var a1 := MergeEntry(a, b[0], reposition);
      MergeKeys(a1, b[1..], reposition);
      assert Keys(b) == [b[0].key] + Keys(b[1..]);
      assert forall k :: k in Keys(a1) <==> k in Keys(a) || k == b[0].key;
    }
  }

  lemma DistinctAppend(ks: seq<string>, k: string)
    requires Distinct(ks) && k !in ks
    ensures Distinct(ks + [k])
  {
  }

  /** One merged entry keeps the keys unique. */
  lemma MergeEntryUnique(a: seq<Entry>, e: Entry, reposition: bool)
    requires UniqueKeys(a)
    ensures UniqueKeys(MergeEntry(a, e, reposition))
  {
    if !e.val.Arr? && Isset(a, e.key) && reposition {
      var u := Unset(a, e.key);
      WithoutDistinct(Keys(a), e.key);
      assert e.key !in Keys(u);
      DistinctAppend(Keys(u), e.key);
    } else if e.key !in Keys(a) {
      DistinctAppend(Keys(a), e.key);
    }
  }

  /** A merge of arrays with unique keys has unique keys. */
  lemma {:induction false} MergeUnique(a: seq<Entry>, b: seq<Entry>, reposition: bool)
    requires UniqueKeys(a)
    ensures UniqueKeys(MergeTwo(a, b, reposition))
    decreases b
  {
    if b != [] {
      MergeEntryUnique(a, b[0], reposition);
      MergeUnique(MergeEntry(a, b[0], reposition), b[1..], reposition);
    }
  }

  /** A key of `a` that the merge moves to the end: a set key overwritten by a scalar under reposition. */
  predicate Moved(a: seq<Entry>, b: seq<Entry>, reposition: bool, k: string) {
    reposition && k in Keys(b) && !Get(b, k).Arr? && Isset(a, k)
  }

  /** The keys of `ks` that the merge of `b` into `a` leaves in place, in order. */
  function Staying(ks: seq<string>, a: seq<Entry>, b: seq<Entry>, reposition: bool): seq<string>
  {
    if ks == [] then []
    else (if Moved(a, b, reposition, ks[0]) then [] else [ks[0]]) + Staying(ks[1..], a, b, reposition)
  }

  /** The keys of `ks` that the merge of `b` into `a` puts at the end: new or moved, in order. */
  function Arriving(ks: seq<string>, a: seq<Entry>, b: seq<Entry>, reposition: bool): seq<string>
  {
    if ks == [] then []
    else
      var head := if ks[0] !in Keys(a) || Moved(a, b, reposition, ks[0]) then [ks[0]] else [];
      head + Arriving(ks[1..], a, b, reposition)
  }

  lemma {:induction false} StayingAppend(xs: seq<string>, ys: seq<string>, a: seq<Entry>, b: seq<Entry>, reposition: bool)
    ensures Staying(xs + ys, a, b, reposition) == Staying(xs, a, b, reposition) + Staying(ys, a, b, reposition)
  {
    if xs != [] {
      assert (xs + ys)[1..] == xs[1..] + ys;
      StayingAppend(xs[1..], ys, a, b, reposition);
    } else {
      assert xs + ys == ys;
    }
  }

  /** Two merge states that agree on which keys of `ks` move leave the same keys in place. */
  lemma {:induction false} StayingCongruent(ks: seq<string>, a: seq<Entry>, b: seq<Entry>, a': seq<Entry>, b': seq<Entry>, reposition: bool)
    requires forall k :: k in ks ==> Moved(a, b, reposition, k) == Moved(a', b', reposition, k)
    ensures Staying(ks, a, b, reposition) == Staying(ks, a', b', reposition)
  {
    if ks != [] {
      StayingCongruent(ks[1..], a, b, a', b', reposition);
    }
  }

  lemma {:induction false} ArrivingCongruent(ks: seq<string>, a: seq<Entry>, b: seq<Entry>, a': seq<Entry>, b': seq<Entry>, reposition: bool)
    requires forall k :: k in ks ==> (k in Keys(a) <==> k in Keys(a')) && Moved(a, b, reposition, k) == Moved(a', b', reposition, k)
    ensures Arriving(ks, a, b, reposition) == Arriving(ks, a', b', reposition)
  {
    if ks != [] {
      ArrivingCongruent(ks[1..], a, b, a', b', reposition);
    }
  }

  lemma {:induction false} StayingWithout(ks: seq<string>, k: string, a: seq<Entry>, b: seq<Entry>, reposition: bool)
    requires Moved(a, b, reposition, k)
    ensures Staying(Without(ks, k), a, b, reposition) == Staying(ks, a, b, reposition)
  {
    if ks != [] {
      StayingWithout(ks[1..], k, a, b, reposition);
      if ks[0] == k {
        assert Without(ks, k) == Without(ks[1..], k);
      } else {
        var w := Without(ks[1..], k);
        assert Without(ks, k) == [ks[0]] + w;
        assert ([ks[0]] + w)[0] == ks[0];
        assert ([ks[0]] + w)[1..] == w;
      }
    }
  }

  /** One step of the merge, seen by the keys of the rest of the later array. */
  lemma StepAgrees(a: seq<Entry>, b: seq<Entry>, reposition: bool, k: string)
    requires UniqueKeys(b) && b != [] && k != b[0].key
    ensures Moved(MergeEntry(a, b[0], reposition), b[1..], reposition, k) == Moved(a, b, reposition, k)
    ensures k in Keys(MergeEntry(a, b[0], reposition)) <==> k in Keys(a)
  {
    MergeEntryOther(a, b[0], reposition, k);
    assert Keys(b) == [b[0].key] + Keys(b[1..]);
    assert Lookup(b, k) == Lookup(b[1..], k);
  }

  /** The earlier keys after one step: in place, appended or moved to the end. */
  lemma StayingStep(a: seq<Entry>, b: seq<Entry>, reposition: bool)
    requires UniqueKeys(b) && b != []
    ensures var e := b[0];
      Staying(Keys(MergeEntry(a, e, reposition)), MergeEntry(a, e, reposition), b[1..], reposition)
        == Staying(Keys(a), a, b, reposition) + (if e.key !in Keys(a) || Moved(a, b, reposition, e.key) then [e.key] else [])
  {
    var e := b[0];
    var b' := b[1..];
    var a1 := MergeEntry(a, e, reposition);
    UniqueTail(b);
    LookupAt(b, 0);
    assert !Moved(a1, b', reposition, e.key);
    if !e.val.Arr? && Isset(a, e.key) && reposition {
      var w := Without(Keys(a), e.key);
      assert Moved(a, b, reposition, e.key);
      assert Keys(a1) == w + [e.key];
      StayingAppend(w, [e.key], a1, b', reposition);
      forall k | k in w ensures Moved(a1, b', reposition, k) == Moved(a, b, reposition, k) {
        StepAgrees(a, b, reposition, k);
      }
      StayingCongruent(w, a1, b', a, b, reposition);
      StayingWithout(Keys(a), e.key, a, b, reposition);
      assert Staying([e.key], a1, b', reposition) == [e.key];
    } else if e.key in Keys(a) {
      assert Keys(a1) == Keys(a);
      assert !Moved(a, b, reposition, e.key);
      forall k | k in Keys(a) ensures Moved(a1, b', reposition, k) == Moved(a, b, reposition, k) {
        if k != e.key {
          StepAgrees(a, b, reposition, k);
        }
      }
      StayingCongruent(Keys(a), a1, b', a, b, reposition);
    } else {
      assert Keys(a1) == Keys(a) + [e.key];
      StayingAppend(Keys(a), [e.key], a1, b', reposition);
      forall k | k in Keys(a) ensures Moved(a1, b', reposition, k) == Moved(a, b, reposition, k) {
        StepAgrees(a, b, reposition, k);
      }
      StayingCongruent(Keys(a), a1, b', a, b, reposition);
      assert Staying([e.key], a1, b', reposition) == [e.key];
    }
  }

  /**
   * Key order of the merge: the earlier keys that are not moved keep their
   * order at the front, then come the later array's keys that are new or moved,
   * in the later array's order. Without reposition nothing moves.
   */
  lemma {:induction false} MergeKeyOrder(a: seq<Entry>, b: seq<Entry>, reposition: bool)
    requires UniqueKeys(b)
    ensures Keys(MergeTwo(a, b, reposition))
         == Staying(Keys(a), a, b, reposition) + Arriving(Keys(b), a, b, reposition)
    decreases b
  {
    if b == [] {
      StayingNone(Keys(a), a, b, reposition);
    } else {
      var e := b[0];
      var b' := b[1..];
      var a1 := MergeEntry(a, e, reposition);
      var head := if e.key !in Keys(a) || Moved(a, b, reposition, e.key) then [e.key] else [];
      UniqueTail(b);
      assert MergeTwo(a, b, reposition) == MergeTwo(a1, b', reposition);
      MergeKeyOrder(a1, b', reposition);
      StayingStep(a, b, reposition);
      ArrivingStep(a, b, reposition);
      ArrivingHead(a, b, reposition);
      var stay := Staying(Keys(a), a, b, reposition);
      var rest := Arriving(Keys(b'), a, b, reposition);
      assert Keys(MergeTwo(a, b, reposition)) == (stay + head) + rest;
      AppendAssoc(stay, head, rest);
    }
  }

  lemma AppendAssoc(x: seq<string>, y: seq<string>, z: seq<string>)
    ensures (x + y) + z == x + (y + z)
  {
  }

  /** The later keys after the first one see the same arrivals before and after the first step. */
  lemma ArrivingStep(a: seq<Entry>, b: seq<Entry>, reposition: bool)
    requires UniqueKeys(b) && b != []
    ensures Arriving(Keys(b[1..]), MergeEntry(a, b[0], reposition), b[1..], reposition)
         == Arriving(Keys(b[1..]), a, b, reposition)
  {
    var a1 := MergeEntry(a, b[0], reposition);
    UniqueTail(b);
    forall k | k in Keys(b[1..])
      ensures (k in Keys(a1) <==> k in Keys(a)) && Moved(a1, b[1..], reposition, k) == Moved(a, b, reposition, k)
    {
      StepAgrees(a, b, reposition, k);
    }
    ArrivingCongruent(Keys(b[1..]), a1, b[1..], a, b, reposition);
  }

  lemma ArrivingHead(a: seq<Entry>, b: seq<Entry>, reposition: bool)
    requires b != []
    ensures Arriving(Keys(b), a, b, reposition)
         == (if b[0].key !in Keys(a) || Moved(a, b, reposition, b[0].key) then [b[0].key] else [])
            + Arriving(Keys(b[1..]), a, b, reposition)
  {
    assert Keys(b) == [b[0].key] + Keys(b[1..]);
    assert Keys(b)[1..] == Keys(b[1..]);
  }

  lemma {:induction false} StayingNone(ks: seq<string>, a: seq<Entry>, b: seq<Entry>, reposition: bool)
    requires b == []
    ensures Staying(ks, a, b, reposition) == ks
  {
    if ks != [] {
      StayingNone(ks[1..], a, b, reposition);
    }
  }

  /** Without reposition nothing is moved: the earlier keys keep their positions and new keys follow. */
  lemma {:induction false} StayingInPlace(ks: seq<string>, a: seq<Entry>, b: seq<Entry>)
    ensures Staying(ks, a, b, false) == ks
  {
    if ks != [] {
      StayingInPlace(ks[1..], a, b);
    }
  }

  /** Without reposition the earlier keys keep their places and the new keys follow in the later order. */
  lemma MergeKeyOrderInPlace(a: seq<Entry>, b: seq<Entry>)
    requires UniqueKeys(b)
    ensures Keys(MergeTwo(a, b, false)) == Keys(a) + Arriving(Keys(b), a, b, false)
    ensures forall k :: k in Arriving(Keys(b), a, b, false) <==> k in Keys(b) && k !in Keys(a)
  {
    MergeKeyOrder(a, b, false);
    StayingInPlace(Keys(a), a, b);
    ArrivingNew(Keys(b), a, b);
  }

  lemma {:induction false} ArrivingNew(ks: seq<string>, a: seq<Entry>, b: seq<Entry>)
    ensures forall k :: k in Arriving(ks, a, b, false) <==> k in ks && k !in Keys(a)
  {
    if ks != [] {
      ArrivingNew(ks[1..], a, b);
      assert ks == [ks[0]] + ks[1..];
    }
  }

  /** Later arrays that are all empty leave the first array as it is. */
  lemma {:induction false} MergeAllEmpty(first: seq<Entry>, rest: seq<seq<Entry>>, reposition: bool)
    requires forall i :: 0 <= i < |rest| ==> rest[i] == []
    ensures MergeAll(first, rest, reposition) == first
    decreases |rest|
  {
    if rest != [] {
      MergeAllEmpty(first, rest[1..], reposition);
    }
  }

  /** All keys of an array and of its nested arrays are unique. */
  predicate DeepUnique(items: seq<Entry>)
    decreases items
  {
    UniqueKeys(items) && forall i :: 0 <= i < |items| ==> items[i].val.Arr? ==> DeepUnique(items[i].val.items)
  }

  /** Assigning a key the value it already has changes nothing. */
  lemma {:induction false} AssignSame(items: seq<Entry>, k: string, v: Value)
    requires Lookup(items, k) == Some(v)
    ensures Assign(items, k, v) == items
  {
    if items[0].key != k {
      AssignSame(items[1..], k, v);
    }
  }

  /**
   * Merging entries that the earlier array already holds, without reposition,
   * changes nothing; in particular merging an array with itself is the identity.
   */
  lemma {:induction false} MergeAgreeing(a: seq<Entry>, b: seq<Entry>)
    requires DeepUnique(b)
    requires forall i :: 0 <= i < |b| ==> Lookup(a, b[i].key) == Some(b[i].val)
    ensures MergeTwo(a, b, false) == a
    decreases b
  {
    if b != [] {
      var e := b[0];
      if e.val.Arr? {
        assert DeepUnique(e.val.items);
        forall i | 0 <= i < |e.val.items| ensures Lookup(e.val.items, e.val.items[i].key) == Some(e.val.items[i].val) {
          LookupAt(e.val.items, i);
        }
        MergeAgreeing(e.val.items, e.val.items);
      }
      AssignSame(a, e.key, e.val);
      assert MergeEntry(a, e, false) == a;
      assert DeepUnique(b[1..]) by {
        UniqueTail(b);
        forall i | 0 <= i < |b[1..]| && b[1..][i].val.Arr? ensures DeepUnique(b[1..][i].val.items) {
          assert b[1..][i] == b[i + 1];
        }
      }
      MergeAgreeing(a, b[1..]);
    }
  }

  /** Merging a configuration with itself (no reposition) gives it back unchanged. */
  lemma MergeSelf(a: seq<Entry>)
    requires DeepUnique(a)
    ensures MergeTwo(a, a, false) == a
  {
    forall i | 0 <= i < |a| ensures Lookup(a, a[i].key) == Some(a[i].val) {
      LookupAt(a, i);
    }
    MergeAgreeing(a, a);
  }

  /**
   * The inner `foreach` of the source: walks the later array and updates the
   * earlier one in place, recursing into nested arrays.
   */
  method MergeInto(a: seq<Entry>, b: Value, reposition: bool) returns (r: seq<Entry>)
    requires b.Arr?
    ensures r == MergeTwo(a, b.items, reposition)
    decreases b
  {
    r := a;
    var i := 0;
    while i < |b.items|
      invariant 0 <= i <= |b.items|
      invariant MergeTwo(r, b.items[i..], reposition) == MergeTwo(a, b.items, reposition)
    {
      var e := b.items[i];
      assert e in b.items;
      assert b.items[i..][1..] == b.items[i + 1..];
      if e.val.Arr? {
        var cur := Get(r, e.key);
        if cur.Arr? {
          var m := MergeInto(cur.items, e.val, reposition);
          r := Assign(r, e.key, Arr(m));
        } else {
          r := Assign(r, e.key, e.val);
        }
      } else {
        if Isset(r, e.key) && reposition {
          r := Unset(r, e.key);
        }
        r := Assign(r, e.key, e.val);
      }
      i := i + 1;
    }
  }

  /** The outer `foreach` over the later arguments, skipping empty ones. */
  method MergeRecursiveDistinct(first: seq<Entry>, rest: seq<seq<Entry>>, reposition: bool)
    returns (r: seq<Entry>)
    ensures r == MergeAll(first, rest, reposition)
  {
    r := first;
    var j := 0;
    while j < |rest|
      invariant 0 <= j <= |rest|
      invariant MergeAll(r, rest[j..], reposition) == MergeAll(first, rest, reposition)
    {
      assert rest[j..][1..] == rest[j + 1..];
      if rest[j] != [] {
        r := MergeInto(r, Arr(rest[j]), reposition);
      }
      j := j + 1;
    }
  }
}

=== FILE: nesting.dfy ===
/**
 * `string_to_nested_array($key, $value, $separator)` (and its class twin
 * `ArrayUtils::dotStringKeyToNested`): a key such as `a.b.c` becomes the
 * one-entry array `['a' => ['b' => ['c' => $value]]]`. The separator is one
 * character; every caller passes `.`.
 */
module Nesting {
  import opened Optional
  import opened Strings
  import opened PhpValues
  import Merge

  /**
   * The recursion as written: a key without the separator maps to the value;
   * otherwise the key is exploded, its first segment becomes the outer key and
   * the re-imploded remaining segments are nested below it.
   */
  function StringToNested(key: string, value: Value, sep: char): (r: seq<Entry>)
    ensures |r| == 1
    ensures sep !in key ==> r == [Entry(key, value)]
    decreases |key|
  {
    match IndexOf(key, sep)
    case None => [Entry(key, value)]
    case Some(i) =>
      var parts := Explode(key, sep);
      ExplodeFirst(key, sep, i);
      ImplodeExplode(key[i + 1..], sep);
      assert parts[1..] == Explode(key[i + 1..], sep);
      [Entry(parts[0], Arr(StringToNested(Implode(parts[1..], sep), value, sep)))]
  }

  /** Reference definition: one single-entry level per path segment, the value innermost. */
  function NestPath(path: seq<string>, value: Value): (r: seq<Entry>)
    requires |path| >= 1
    ensures |r| == 1 && r[0].key == path[0]
  {
    if |path| == 1 then [Entry(path[0], value)]
    else [Entry(path[0], Arr(NestPath(path[1..], value)))]
  }

  /** Following a path of keys down through nested arrays (`$v[$p0][$p1]...`). */
  function Dig(v: Value, path: seq<string>): Option<Value>
    decreases |path|
  {
    if path == [] then Some(v)
    else if !v.Arr? then None
    else match Lookup(v.items, path[0])
      case None => None
      case Some(w) => Dig(w, path[1..])
  }

  /** The recursion nests exactly one level per segment of the exploded key. */
  lemma {:induction false} NestedPath(key: string, value: Value, sep: char)
    ensures StringToNested(key, value, sep) == NestPath(Explode(key, sep), value)
    decreases |key|
  {
    match IndexOf(key, sep)
    case None =>
      ExplodeNoSeparator(key, sep);
    case Some(i) =>
      ExplodeFirst(key, sep, i);
      ImplodeExplode(key[i + 1..], sep);
      NestedPath(key[i + 1..], value, sep);
  }

  /** The value sits at the end of its path. */
  lemma {:induction false} NestPathDig(path: seq<string>, value: Value)
    requires |path| >= 1
    ensures Dig(Arr(NestPath(path, value)), path) == Some(value)
  {
    if |path| > 1 {
      NestPathDig(path[1..], value);
    }
  }

  /** Nesting under `p` a one-entry array `{k: v}` is nesting `v` under `p + [k]`. */
  lemma {:induction false} NestPathSnoc(path: seq<string>, k: string, value: Value)
    requires |path| >= 1
    ensures NestPath(path, Arr([Entry(k, value)])) == NestPath(path + [k], value)
  {
    if |path| > 1 {
      assert (path + [k])[1..] == path[1..] + [k];
      NestPathSnoc(path[1..], k, value);
    }
  }

  /** `string_to_nested_array($key, $v)` puts `$v` at the path the key spells. */
  lemma NestedDig(key: string, value: Value, sep: char)
    ensures Dig(Arr(StringToNested(key, value, sep)), Explode(key, sep)) == Some(value)
  {
    NestedPath(key, value, sep);
    NestPathDig(Explode(key, sep), value);
  }

  /**
   * Merging a nested path into any array leaves a non-array value at the end of
   * that path, whatever was there before and whatever the reposition flag.
   */
  lemma {:induction false} MergeNestDig(a: seq<Entry>, path: seq<string>, value: Value, reposition: bool)
    requires |path| >= 1 && !value.Arr?
    ensures Dig(Arr(Merge.MergeTwo(a, NestPath(path, value), reposition)), path) == Some(value)
    decreases |path|
  {
    var b := NestPath(path, value);
    var m := Merge.MergeTwo(a, b, reposition);
    Merge.MergeLookup(a, b, reposition, path[0]);
    assert Lookup(b, path[0]) == Some(b[0].val);
    if |path| == 1 {
      assert Lookup(m, path[0]) == Some(value);
    } else {
      var cur := Get(a, path[0]);
      if cur.Arr? {
        MergeNestDig(cur.items, path[1..], value, reposition);
      } else {
        NestPathDig(path[1..], value);
      }
    }
  }
}

=== FILE: option.dfy ===
/** The optional value used wherever PHP returns `false` or leaves a variable unset. */
module Optional {
  datatype Option<T> = None | Some(value: T)
}

=== FILE: parse_config.dfy ===
/**
 * parseconfig.php: the configuration script of the core namespace. The same
 * steps as `Config::parse()`, with the core function file's reader and merge,
 * and THIS_PATH composed from the core `page()` instead of the Server class.
 */
module ParseConfig {
  import opened Optional
  import opened PhpValues
  import opened Constants
  import opened Paths
  import opened IniValues
  import opened Bootstrap
  import opened SystemCore
  import opened CoreFunctions
  import ServerCore

  /** The merged configuration: core `config.ini`, then site `config.php`, then site `config.ini`. */
  function Merged(host: Host, files: map<string, File>, consts: map<string, Value>): seq<Entry> {
    Layered(ParseConfigFile(files, host.coreDir + "config.ini", Core, consts),
            ParseConfigFile(files, host.siteDir + "config.php", Core, consts),
            ParseConfigFile(files, host.siteDir + "config.ini", Core, consts), false)
  }

  /**
   * THIS_PATH and THIS_PATH_LIVE, unless THIS_PATH is defined: each base path
   * followed by the trimmed PATH_INFO and a `/`, or by nothing.
   */
  function ThisPaths(server: map<string, string>, consts: map<string, Value>): (r: map<string, Value>)
    ensures "THIS_PATH" in consts ==> r == consts
    ensures "THIS_PATH" !in consts ==>
      "THIS_PATH" in r && r["THIS_PATH"] == Str(ConstText(consts, "BASE_PATH") + PathRest(server))
    ensures "THIS_PATH" !in consts && "THIS_PATH_LIVE" !in consts ==>
      "THIS_PATH_LIVE" in r && r["THIS_PATH_LIVE"] == Str(ConstText(consts, "BASE_PATH_LIVE") + PathRest(server))
    ensures forall n :: n in r && n != "THIS_PATH" && n != "THIS_PATH_LIVE" ==> n in consts && r[n] == consts[n]
  {
    if "THIS_PATH" in consts then consts
    else
      PathInfoPageString(server);
      var page := PageString(Page(server, None).parts);
      var c := Define(consts, "THIS_PATH", Str(ConstText(consts, "BASE_PATH") + page));
      Define(c, "THIS_PATH_LIVE", Str(ConstText(c, "BASE_PATH_LIVE") + page))
  }

  /** The script and a fresh Server class define the same THIS_PATH constants. */
  lemma ThisPathsAsServer(server: map<string, string>, consts: map<string, Value>)
    ensures ThisPaths(server, consts) == ServerCore.AfterInitialize([], server, consts).1
  {
  }

  /** The script over the constants defined before it; `config` is what it stores in `Options::$config`. */
  method Run(host: Host, files: map<string, File>, consts0: map<string, Value>, sys: System)
    returns (config: seq<Entry>, consts: map<string, Value>)
    modifies sys
    ensures config == Settled(Merged(host, files, consts0), consts0, host).config
    ensures consts == ThisPaths(host.server, Settled(Merged(host, files, consts0), consts0, host).consts)
    ensures sys.autoloadPrependPaths == Extended(old(sys.autoloadPrependPaths), config, host.coreDir)
  {
    var core := ParseConfigFile(files, host.coreDir + "config.ini", Core, consts0);
    var php := ParseConfigFile(files, host.siteDir + "config.php", Core, consts0);
    var ini := ParseConfigFile(files, host.siteDir + "config.ini", Core, consts0);
    config := Layered(core, php, ini, false);
    config, consts := Settle(config, consts0, host);
    ExtendAutoload(sys, config, host.coreDir);
    consts := DefineThisPaths(host.server, consts);
  }

  /** The closing `if (!defined('THIS_PATH'))` block. */
  method DefineThisPaths(server: map<string, string>, consts0: map<string, Value>) returns (consts: map<string, Value>)
    ensures consts == ThisPaths(server, consts0)
  {
    consts := consts0;
    if "THIS_PATH" !in consts {
      var page := PageString(Page(server, None).parts);
      consts := Define(consts, "THIS_PATH", Str(ConstText(consts, "BASE_PATH") + page));
      consts := Define(consts, "THIS_PATH_LIVE", Str(ConstText(consts, "BASE_PATH_LIVE") + page));
    }
  }
}

=== FILE: paths.dfy ===
/**
 * The segments of the current request path, shared by `page()` (in the
 * bootstrap and in the core function file), `Server::page` and the composition
 * of THIS_PATH: the path text with its surrounding slashes trimmed, split on `/`.
 */
module Paths {
  import opened Optional
  import opened Strings

  /**
   * `explode('/', trim($p, '/'))` when the trimmed text is not empty, and no
   * segments otherwise.
   */
  function Segments(p: string): (r: seq<string>)
    ensures r == [] <==> TrimChar(p, '/') == ""
    ensures r != [] ==> Implode(r, '/') == TrimChar(p, '/')
    ensures forall i, j :: 0 <= i < |r| && 0 <= j < |r[i]| ==> r[i][j] != '/'
  {
    var t := TrimChar(p, '/');
    if t == "" then []
    else
      ImplodeExplode(t, '/');
      Explode(t, '/')
  }

  /** What `page($part)` returns: the whole list, one segment, or `false`. */
  datatype PageResult = Whole(parts: seq<string>) | Part(text: string) | NoPart

  /**
   * `page($part)` over a list of segments; `part == None` stands for the default
   * argument `false`. `isset($path[$part])` holds exactly for an index in range,
   * since every segment is a string.
   */
  function Select(path: seq<string>, part: Option<int>): PageResult {
    match part
    case None => Whole(path)
    case Some(n) => if 0 <= n < |path| then Part(path[n]) else NoPart
  }

  /** The segments as a path: joined by `/`, with a trailing `/` when there are any. */
  function PageString(parts: seq<string>): (s: string)
    ensures s == [] <==> parts == []
    ensures s != [] ==> s[|s| - 1] == '/'
  {
    if parts == [] then "" else Implode(parts, '/') + "/"
  }

  /** The page part of THIS_PATH is the trimmed path text plus `/`, or nothing at all. */
  lemma PageStringOfSegments(p: string)
    ensures PageString(Segments(p)) == if TrimChar(p, '/') == "" then "" else TrimChar(p, '/') + "/"
  {
  }

  /** A join starts with the first character of its first piece. */
  lemma ImplodeFirst(parts: seq<string>, c: char)
    requires |parts| >= 1 && parts[0] != []
    ensures Implode(parts, c) != [] && Implode(parts, c)[0] == parts[0][0]
  {
  }

  /** A join ends with the last character of its last piece. */
  lemma {:induction false} ImplodeLast(parts: seq<string>, c: char)
    requires |parts| >= 1 && parts[|parts| - 1] != []
    ensures Implode(parts, c) != []
    ensures Implode(parts, c)[|Implode(parts, c)| - 1] == parts[|parts| - 1][|parts[|parts| - 1]| - 1]
    decreases |parts|
  {
    if |parts| > 1 {
      ImplodeLast(parts[1..], c);
    }
  }

  /** Trimming the slashes off a page string leaves the join of its segments. */
  lemma TrimPageString(parts: seq<string>)
    requires parts != [] && parts[0] != "" && parts[|parts| - 1] != ""
    requires forall i :: 0 <= i < |parts| ==> '/' !in parts[i]
    ensures TrimChar(PageString(parts), '/') == Implode(parts, '/')
  {
    var j := Implode(parts, '/');
    ImplodeFirst(parts, '/');
    ImplodeLast(parts, '/');
    assert parts[0][0] in parts[0];
    var s := j + "/";
    assert LTrimChar(s, '/') == s by { assert s[0] == j[0]; }
    assert RTrimChar(s, '/') == j by {
      assert s[..|s| - 1] == j;
      assert RTrimChar(j, '/') == j;
    }
  }

  /**
   * Round trip: a page string, split again, gives back its segments, provided
   * they hold no `/` and the first and last are not empty (empty segments in
   * between survive).
   */
  lemma SegmentsOfPageString(parts: seq<string>)
    requires parts != [] && parts[0] != "" && parts[|parts| - 1] != ""
    requires forall i :: 0 <= i < |parts| ==> '/' !in parts[i]
    ensures Segments(PageString(parts)) == parts
  {
    TrimPageString(parts);
    ExplodeImplode(parts, '/');
  }
  /** A text that does not end with the separator does not end with an empty piece. */
  lemma {:induction false} ExplodeLastNonEmpty(s: string, c: char)
    requires s != [] && s[|s| - 1] != c
    ensures var parts := Explode(s, c); parts[|parts| - 1] != []
    decreases |s|
  {
    if |s| > 1 {
      assert s[1..][|s[1..]| - 1] == s[|s| - 1];
      ExplodeLastNonEmpty(s[1..], c);
    }
  }

  /**
   * The segments of a path never start or end with an empty segment, since the
   * slashes around the path were trimmed first.
   */
  predicate WellFormed(parts: seq<string>) {
    parts == [] || (parts[0] != "" && parts[|parts| - 1] != "" &&
                    forall i :: 0 <= i < |parts| ==> '/' !in parts[i])
  }

  lemma SegmentsWellFormed(p: string)
    ensures WellFormed(Segments(p))
  {
    var t := TrimChar(p, '/');
    if t != "" {
      ExplodeLastNonEmpty(t, '/');
      var parts := Segments(p);
      forall i | 0 <= i < |parts| ensures '/' !in parts[i] {
        assert forall j :: 0 <= j < |parts[i]| ==> parts[i][j] != '/';
      }
    }
  }

  /**
   * The segments taken from PATH_INFO of the request variables: the trimmed
   * PATH_INFO split on `/` when it is set and trims to something, none otherwise.
   */
  function PathInfoSegments(server: map<string, string>): seq<string> {
    if "PATH_INFO" in server && TrimChar(server["PATH_INFO"], '/') != ""
    then Segments(server["PATH_INFO"]) else []
  }

  /** The text a page string adds for PATH_INFO: its trimmed text and a `/`, or nothing. */
  function PathRest(server: map<string, string>): string {
    if "PATH_INFO" in server && TrimChar(server["PATH_INFO"], '/') != ""
    then TrimChar(server["PATH_INFO"], '/') + "/" else ""
  }

  /** The page string of the PATH_INFO segments is that text. */
  lemma PathInfoPageString(server: map<string, string>)
    ensures PageString(PathInfoSegments(server)) == PathRest(server)
  {
    if "PATH_INFO" in server {
      PageStringOfSegments(server["PATH_INFO"]);
    }
  }
}

=== FILE: php_values.dfy ===
/**
 * PHP values as the configuration code sees them. A PHP array is an ORDERED map:
 * a sequence of key/value entries whose keys are unique, kept in insertion order.
 * Keys are modelled as strings (PHP's silent conversion of numeric-string keys to
 * integers is not modelled), floats are kept as their text.
 */
module PhpValues {
  import opened Optional
  import Strings

  datatype Value =
    | Null
    | Bool(b: bool)
    | Int(i: int)
    | FloatLit(text: string)
    | Str(s: string)
    | Arr(items: seq<Entry>)

  datatype Entry = Entry(key: string, val: Value)

  /** The keys of an ordered map, in order (`array_keys`). */
  function Keys(items: seq<Entry>): (ks: seq<string>)
    ensures |ks| == |items|
    ensures forall i :: 0 <= i < |items| ==> ks[i] == items[i].key
  {
    if items == [] then [] else [items[0].key] + Keys(items[1..])
  }

  /** The values of an ordered map, in order (`foreach ($a as $v)`). */
  function Values(items: seq<Entry>): (vs: seq<Value>)
    ensures |vs| == |items|
    ensures forall i :: 0 <= i < |items| ==> vs[i] == items[i].val
  {
    if items == [] then [] else [items[0].val] + Values(items[1..])
  }

  predicate Distinct(ks: seq<string>) {
    forall i, j :: 0 <= i < j < |ks| ==> ks[i] != ks[j]
  }

  /** Every PHP array has unique keys. */
  predicate UniqueKeys(items: seq<Entry>) {
    Distinct(Keys(items))
  }

  /** `$a[$k]` when `array_key_exists($k, $a)`, else nothing. */
  function Lookup(items: seq<Entry>, k: string): (r: Option<Value>)
    ensures r.Some? <==> k in Keys(items)
  {
    if items == [] then None
    else if items[0].key == k then Some(items[0].val)
    else
      assert Keys(items) == [items[0].key] + Keys(items[1..]);
      Lookup(items[1..], k)
  }

  /** With unique keys, looking up the key of an entry finds that entry's value. */
  lemma {:induction false} LookupAt(items: seq<Entry>, i: nat)
    requires UniqueKeys(items) && i < |items|
    ensures Lookup(items, items[i].key) == Some(items[i].val)
  {
    if i > 0 {
      assert Keys(items) == [items[0].key] + Keys(items[1..]);
      assert Keys(items)[0] != Keys(items)[i];
      assert UniqueKeys(items[1..]) by {
        forall a, b | 0 <= a < b < |items[1..]| ensures Keys(items[1..])[a] != Keys(items[1..])[b] {
          assert Keys(items)[a + 1] != Keys(items)[b + 1];
        }
      }
      LookupAt(items[1..], i - 1);
    }
  }

  /** `isset($a[$k])`: the key is present and its value is not null. */
  predicate Isset(items: seq<Entry>, k: string) {
    var v := Lookup(items, k);
    v.Some? && !v.value.Null?
  }

  /** `$a[$k]` as a value: an absent key reads as null. */
  function Get(items: seq<Entry>, k: string): (v: Value)
    ensures k !in Keys(items) ==> v == Null
  {
    var r := Lookup(items, k);
    if r.Some? then r.value else Null
  }

  /** `$v[$k]` on any value: only an array has entries; anything else reads as null. */
  function Index(v: Value, k: string): Value {
    if v.Arr? then Get(v.items, k) else Null
  }

  /**
   * `$a[$k] = $v`: an existing key keeps its position and takes the new value,
   * a new key is appended at the end.
   */
  function Assign(items: seq<Entry>, k: string, v: Value): (r: seq<Entry>)
    ensures Keys(r) == if k in Keys(items) then Keys(items) else Keys(items) + [k]
    ensures Lookup(r, k) == Some(v)
    ensures forall k' :: k' != k ==> Lookup(r, k') == Lookup(items, k')
  {
    if items == [] then [Entry(k, v)]
    else
      ConsView(items[0], items[1..]);
      assert items == [items[0]] + items[1..];
      if items[0].key == k then
        ConsView(Entry(k, v), items[1..]);
        [Entry(k, v)] + items[1..]
      else
        var rest := Assign(items[1..], k, v);
        ConsView(items[0], rest);
        [items[0]] + rest
  }

  /** Keys and lookups of an entry put in front of others. */
  lemma ConsView(e: Entry, rest: seq<Entry>)
    ensures Keys([e] + rest) == [e.key] + Keys(rest)
    ensures forall k :: Lookup([e] + rest, k) == if e.key == k then Some(e.val) else Lookup(rest, k)
  {
    assert ([e] + rest)[1..] == rest;
  }

  /** The keys of `ks` other than `k`, in order. */
  function Without(ks: seq<string>, k: string): (r: seq<string>)
    ensures k !in r
    ensures forall x :: x in r <==> x in ks && x != k
  {
    if ks == [] then [] else (if ks[0] == k then [] else [ks[0]]) + Without(ks[1..], k)
  }

  /** `unset($a[$k])`: the entry goes, the others keep their order. */
  function Unset(items: seq<Entry>, k: string): (r: seq<Entry>)
    ensures Keys(r) == Without(Keys(items), k)
    ensures Lookup(r, k) == None
    ensures forall k' :: k' != k ==> Lookup(r, k') == Lookup(items, k')
  {
    if items == [] then []
    else
      var rest := Unset(items[1..], k);
      assert Keys(items) == [items[0].key] + Keys(items[1..]);
      if items[0].key == k then rest
      else
        assert Keys([items[0]] + rest) == [items[0].key] + Keys(rest);
        [items[0]] + rest
  }

  /** Removing a key keeps the remaining keys distinct. */
  lemma {:induction false} WithoutDistinct(ks: seq<string>, k: string)
    requires Distinct(ks)
    ensures Distinct(Without(ks, k))
  {
    if ks != [] {
      assert Distinct(ks[1..]) by {
        forall a, b | 0 <= a < b < |ks[1..]| ensures ks[1..][a] != ks[1..][b] {
          assert ks[a + 1] != ks[b + 1];
        }
      }
      WithoutDistinct(ks[1..], k);
      assert ks[0] !in ks[1..] by {
        forall j | 0 <= j < |ks[1..]| ensures ks[1..][j] != ks[0] { assert ks[j + 1] != ks[0]; }
      }
    }
  }

  /** PHP's `empty()`. A float is taken to be non-empty (its value is not modelled). */
  predicate Empty(v: Value) {
    match v
    case Null => true
    case Bool(b) => !b
    case Int(i) => i == 0
    case FloatLit(_) => false
    case Str(s) => s == "" || s == "0"
    case Arr(items) => items == []
  }

  /** PHP's conversion of a value to a string (`.` and string built-ins). */
  function ToText(v: Value): string {
    match v
    case Null => ""
    case Bool(b) => if b then "1" else ""
    case Int(i) => Strings.IntToDecimal(i)
    case FloatLit(t) => t
    case Str(s) => s
    case Arr(_) => "Array"
  }

  /** PHP's conversion of a value to an integer (bitwise operators, `(int)`). */
  function ToInt(v: Value): int {
    match v
    case Null => 0
    case Bool(b) => if b then 1 else 0
    case Int(i) => i
    case FloatLit(t) => Strings.LeadingInt(t)
    case Str(s) => Strings.LeadingInt(s)
    case Arr(items) => if items == [] then 0 else 1
  }

  /** An integer numeric string: optional leading white space, an optional sign, then only digits. */
  predicate IsIntegerNumeric(s: string) {
    Strings.IsDigits(Unsigned(Strings.SkipNumberSpace(s)))
  }

  /** A number's text without its leading `+` or `-`. */
  function Unsigned(t: string): (u: string)
    ensures |u| <= |t|
  {
    if t != [] && (t[0] == '-' || t[0] == '+') then t[1..] else t
  }

  /** A decimal mantissa: digits with at most one `.`, and at least one digit (`1`, `1.`, `.5`, `1.5`). */
  predicate IsMantissa(m: string) {
    match Strings.IndexOf(m, '.')
    case None => Strings.IsDigits(m)
    case Some(i) => |m| >= 2 && Strings.AllDigits(m[..i]) && Strings.AllDigits(m[i + 1..])
  }

  /** A decimal number `coefficient × 10 ** exponent`, exact (PHP compares such text as a double). */
  datatype Decimal = Decimal(coefficient: int, exponent: int)

  /** The decimal with trailing zeros moved from the coefficient into the exponent; zero is `0 × 10 ** 0`. */
  function Normalize(d: Decimal): (r: Decimal)
    ensures r.coefficient == 0 || r.coefficient % 10 != 0
    decreases if d.coefficient < 0 then -d.coefficient else d.coefficient
  {
    if d.coefficient == 0 then Decimal(0, 0)
    else if d.coefficient % 10 == 0 then Normalize(Decimal(d.coefficient / 10, d.exponent + 1))
    else d
  }

  /** Two decimals denote the same number: they have the same normal form. */
  predicate SameNumber(x: Decimal, y: Decimal) {
    Normalize(x) == Normalize(y)
  }

  /** The digits of a mantissa with the point removed, scaled down by the digits after the point. */
  function MantissaValue(m: string): (r: Decimal)
    requires IsMantissa(m)
  {
    match Strings.IndexOf(m, '.')
    case None => Decimal(Strings.DigitsValue(m), 0)
    case Some(i) =>
      assert Strings.AllDigits(m[..i] + m[i + 1..]);
      Decimal(Strings.DigitsValue(m[..i] + m[i + 1..]), -(|m| - i - 1))
  }

  /** An exponent after the `e`: an optional sign, then digits. */
  predicate IsExponent(x: string) {
    Strings.IsDigits(Unsigned(x))
  }

  function ExponentValue(x: string): int
    requires IsExponent(x)
  {
    if x[0] == '-' then -(Strings.DigitsValue(x[1..]) as int) else Strings.DigitsValue(Unsigned(x))
  }

  predicate IsE(c: char) {
    c == 'e' || c == 'E'
  }

  /** The first `e` or `E`, where an exponent would start. */
  function ExponentMark(u: string): (r: Option<nat>)
    ensures r.Some? ==> r.value < |u| && IsE(u[r.value]) && forall j :: 0 <= j < r.value ==> !IsE(u[j])
    ensures r.None? ==> forall j :: 0 <= j < |u| ==> !IsE(u[j])
  {
    if u == [] then None
    else if IsE(u[0]) then Some(0)
    else
      var r := ExponentMark(u[1..]);
      if r.None? then None else Some(r.value + 1)
  }

  /** The unsigned body of a number: a mantissa, then optionally `e` or `E` and an exponent. */
  predicate IsNumberBody(u: string) {
    match ExponentMark(u)
    case None => IsMantissa(u)
    case Some(k) => IsMantissa(u[..k]) && IsExponent(u[k + 1..])
  }

  function BodyValue(u: string): Decimal
    requires IsNumberBody(u)
  {
    match ExponentMark(u)
    case None => MantissaValue(u)
    case Some(k) =>
      var d := MantissaValue(u[..k]);
      Decimal(d.coefficient, d.exponent + ExponentValue(u[k + 1..]))
  }

  /**
   * PHP 7's numeric string: optional leading white space, an optional sign,
   * a decimal mantissa and an optional exponent (`e` or `E`). Hexadecimal text
   * and trailing white space are not numeric.
   */
  predicate IsNumeric(s: string) {
    IsNumberBody(Unsigned(Strings.SkipNumberSpace(s)))
  }

  /** The number a numeric string denotes. */
  function NumericValue(s: string): Decimal
    requires IsNumeric(s)
  {
    var t := Strings.SkipNumberSpace(s);
    var d := BodyValue(Unsigned(t));
    if t[0] == '-' then Decimal(-d.coefficient, d.exponent) else d
  }

  /**
   * `$a == $b` on two strings: when both are numeric they are compared as
   * numbers, otherwise as text.
   */
  predicate LooseStringEquals(a: string, b: string) {
    if IsNumeric(a) && IsNumeric(b) then SameNumber(NumericValue(a), NumericValue(b)) else a == b
  }

  /** The length of the longest prefix of `s[..k]` that is a numeric string; 0 when there is none. */
  function NumericPrefixLength(s: string, k: nat): (n: nat)
    requires k <= |s|
    ensures n <= k && (n > 0 ==> IsNumeric(s[..n]))
    ensures forall m :: n < m <= k ==> !IsNumeric(s[..m])
    decreases k
  {
    if k == 0 then 0 else if IsNumeric(s[..k]) then k else NumericPrefixLength(s, k - 1)
  }

  /**
   * PHP 7's number for a string in arithmetic or in a comparison with a number:
   * the value of its longest numeric prefix (`"24abc"` is 24), 0 when it has none.
   */
  function LeadingNumber(s: string): (d: Decimal)
    ensures IsNumeric(s) ==> d == NumericValue(s)
  {
    var n := NumericPrefixLength(s, |s|);
    assert s[..|s|] == s;
    if n == 0 then Decimal(0, 0) else NumericValue(s[..n])
  }

  /** The integer part of a decimal, truncated toward zero as `(int)` truncates a float. */
  function IntegerPart(d: Decimal): int {
    if d.exponent >= 0 then d.coefficient * Strings.Pow10(d.exponent)
    else if d.coefficient >= 0 then d.coefficient / Strings.Pow10(-d.exponent)
    else -((-d.coefficient) / Strings.Pow10(-d.exponent))
  }

  /**
   * PHP 7's `$s == $v` for a string `$s`: against `null` only the empty string is
   * equal; against a boolean the string's truth value counts; against a number
   * the string's leading number; against a string `LooseStringEquals`; an array
   * is never equal.
   */
  predicate LooseEquals(s: string, v: Value) {
    match v
    case Null => s == ""
    case Bool(b) => !Empty(Str(s)) == b
    case Int(i) => SameNumber(LeadingNumber(s), Decimal(i, 0))
    case FloatLit(t) => SameNumber(LeadingNumber(s), LeadingNumber(t))
    case Str(t) => LooseStringEquals(s, t)
    case Arr(_) => false
  }

  /** Two integer strings compare by their integer values. */
  lemma IntegerStringsCompareAsInts(a: string, b: string)
    requires IsIntegerNumeric(a) && IsIntegerNumeric(b)
    ensures LooseStringEquals(a, b) <==> Strings.LeadingInt(a) == Strings.LeadingInt(b)
  {
    IntegerNumericValue(a);
    IntegerNumericValue(b);
    SameIntegers(Strings.LeadingInt(a), Strings.LeadingInt(b));
  }

  /** Two integers are the same number exactly when they are equal. */
  lemma SameIntegers(x: int, y: int)
    ensures SameNumber(Decimal(x, 0), Decimal(y, 0)) <==> x == y
  {
    NormalizeScales(x, 0);
    NormalizeScales(y, 0);
    if Normalize(Decimal(x, 0)) == Normalize(Decimal(y, 0)) && x != 0 {
      var n := Normalize(Decimal(x, 0));
      assert x == n.coefficient * Strings.Pow10(n.exponent) == y;
    }
  }

  /**
   * The normal form denotes the same number: a non-zero `c × 10 ** e` is
   * `n.coefficient × 10 ** (n.exponent - e)` times `10 ** e`.
   */
  lemma NormalizeScales(c: int, e: int)
    ensures c == 0 <==> Normalize(Decimal(c, e)) == Decimal(0, 0)
    ensures c != 0 ==>
      var n := Normalize(Decimal(c, e));
      n.exponent >= e && c == n.coefficient * Strings.Pow10(n.exponent - e)
    decreases if c < 0 then -c else c
  {
    if c != 0 && c % 10 == 0 {
      NormalizeScales(c / 10, e + 1);
      var n := Normalize(Decimal(c / 10, e + 1));
      assert Strings.Pow10(n.exponent - e) == 10 * Strings.Pow10(n.exponent - e - 1);
      assert c == 10 * (c / 10);
    }
  }

  /** An integer string is numeric, and its value is what `(int)` reads. */
  lemma IntegerNumericValue(s: string)
    requires IsIntegerNumeric(s)
    ensures IsNumeric(s) && NumericValue(s) == Decimal(Strings.LeadingInt(s), 0)
  {
    var t := Strings.SkipNumberSpace(s);
    var u := Unsigned(t);
    assert ExponentMark(u) == None;
    Strings.DigitsExclude(u, '.');
    assert IsMantissa(u) && BodyValue(u) == Decimal(Strings.DigitsValue(u), 0);
    Strings.LeadingDigitsOfAppend(u, []);
    assert u + [] == u;
    assert Strings.LeadingDigits(u) == u;
  }

  /** No numeric string has two `.`: a mantissa has at most one and an exponent none. */
  lemma NotNumericTwoDots(s: string)
    requires Strings.Count(s, '.') >= 2
    ensures !IsNumeric(s)
  {
    var t := Strings.SkipNumberSpace(s);
    var u := Unsigned(t);
    Strings.CountSkipNumberSpace(s, '.');
    UnsignedCount(t, '.');
    if IsNumberBody(u) {
      BodyDots(u);
    }
  }

  /** Dropping the sign keeps every other character. */
  lemma UnsignedCount(t: string, c: char)
    requires c != '-' && c != '+'
    ensures Strings.Count(Unsigned(t), c) == Strings.Count(t, c)
  {
  }

  /** A number's body holds at most one `.`. */
  lemma BodyDots(u: string)
    requires IsNumberBody(u)
    ensures Strings.Count(u, '.') <= 1
  {
    match ExponentMark(u)
    case None => MantissaDots(u);
    case Some(k) =>
      MantissaDots(u[..k]);
      Strings.CountAround(u, k, '.');
      var x := u[k + 1..];
      UnsignedCount(x, '.');
      Strings.CountInDigits(Unsigned(x), '.');
  }

  lemma MantissaDots(m: string)
    requires IsMantissa(m)
    ensures Strings.Count(m, '.') <= 1
  {
    match Strings.IndexOf(m, '.')
    case None => Strings.CountInDigits(m, '.');
    case Some(i) =>
      Strings.CountAround(m, i, '.');
      Strings.CountInDigits(m[..i], '.');
      Strings.CountInDigits(m[i + 1..], '.');
  }

  /** Text with two `.` (every dotted-quad address) is never numeric, so `==` compares it as text. */
  lemma LooseEqualsTwoDots(a: string, b: string)
    requires Strings.Count(a, '.') >= 2
    ensures LooseStringEquals(a, b) <==> a == b
  {
    NotNumericTwoDots(a);
  }

  /** A decimal point and an exponent make no difference to `==`: `"1.0" == "1"` and `"1e1" == "10"`. */
  lemma DecimalForms()
    ensures LooseStringEquals("1.0", "1") && LooseStringEquals("1e1", "10")
    ensures !LooseStringEquals("1.5", "1") && !LooseStringEquals("1e1", "1")
  {
    OneTen();
    OnePointZero();
    OnePointFive();
    OneEOne();
    TenScales();
  }

  lemma TenScales()
    ensures SameNumber(Decimal(10, -1), Decimal(1, 0)) && SameNumber(Decimal(1, 1), Decimal(10, 0))
    ensures !SameNumber(Decimal(15, -1), Decimal(1, 0)) && !SameNumber(Decimal(1, 1), Decimal(1, 0))
  {
    assert Normalize(Decimal(10, -1)) == Decimal(1, 0);
    assert Normalize(Decimal(10, 0)) == Decimal(1, 1);
  }

  lemma OneTen()
    ensures IsNumeric("1") && NumericValue("1") == Decimal(1, 0)
    ensures IsNumeric("10") && NumericValue("10") == Decimal(10, 0)
  {
    assert Strings.DigitsValue("1") == 1 by { assert "1"[..0] == []; }
    assert Strings.DigitsValue("10") == 10 by { assert "10"[..1] == "1"; }
    DigitsNumeric("1");
    DigitsNumeric("10");
  }

  lemma OnePointZero()
    ensures IsNumeric("1.0") && NumericValue("1.0") == Decimal(10, -1)
  {
    assert "1" + "." + "0" == "1.0" && "1" + "0" == "10";
    assert Strings.DigitsValue("10") == 10 by { assert "10"[..1] == "1" && "1"[..0] == []; }
    PointNumeric("1", "0");
  }

  lemma OnePointFive()
    ensures IsNumeric("1.5") && NumericValue("1.5") == Decimal(15, -1)
  {
    assert "1" + "." + "5" == "1.5" && "1" + "5" == "15";
    assert Strings.DigitsValue("15") == 15 by { assert "15"[..1] == "1" && "1"[..0] == []; }
    PointNumeric("1", "5");
  }

  lemma OneEOne()
    ensures IsNumeric("1e1") && NumericValue("1e1") == Decimal(1, 1)
  {
    assert "1" + "e" + "1" == "1e1";
    assert Strings.DigitsValue("1") == 1 by { assert "1"[..0] == []; }
    ExponentNumeric("1", "1");
  }

  /** Text that starts with a digit is numeric exactly when it is a number body, worth that body. */
  lemma DigitLed(s: string)
    requires s != [] && Strings.IsDigit(s[0])
    ensures IsNumeric(s) <==> IsNumberBody(s)
    ensures IsNumberBody(s) ==> NumericValue(s) == BodyValue(s)
  {
    assert Strings.SkipNumberSpace(s) == s by { assert !Strings.IsNumberSpace(s[0]); }
    assert Unsigned(s) == s;
  }

  /** Plain digits are a numeric string worth their decimal value. */
  lemma DigitsNumeric(d: string)
    requires Strings.IsDigits(d)
    ensures IsNumeric(d) && NumericValue(d) == Decimal(Strings.DigitsValue(d), 0)
  {
    DigitLed(d);
    assert ExponentMark(d) == None;
    Strings.DigitsExclude(d, '.');
  }

  /** Digit runs around one character `c`: every character is `c` or a digit. */
  lemma Joined(a: string, c: char, b: string)
    requires Strings.AllDigits(a) && Strings.AllDigits(b)
    ensures forall j :: 0 <= j < |a + [c] + b| ==> (a + [c] + b)[j] == c || Strings.IsDigit((a + [c] + b)[j])
  {
    var s := a + [c] + b;
    forall j | 0 <= j < |s| ensures s[j] == c || Strings.IsDigit(s[j]) {
      if j < |a| { assert s[j] == a[j]; } else if j > |a| { assert s[j] == b[j - |a| - 1]; }
    }
  }

  /** `a.b` with digit runs `a` and `b` is a number body: the digits of `ab` over `10 ** |b|`. */
  lemma PointBody(a: string, b: string)
    requires Strings.IsDigits(a) && Strings.AllDigits(b)
    ensures IsNumberBody(a + ['.'] + b)
    ensures BodyValue(a + ['.'] + b) == Decimal(Strings.DigitsValue(a + b), -|b|)
  {
    var s := a + ['.'] + b;
    Joined(a, '.', b);
    assert ExponentMark(s) == None;
    assert s[..|a|] == a && s[|a| + 1..] == b;
    Strings.DigitsExclude(a, '.');
    Strings.IndexOfAt(s, '.', |a|);
    assert IsMantissa(s);
  }

  /** `a.b` with digit runs `a` and `b` is numeric: the digits of `ab` over `10 ** |b|`. */
  lemma PointNumeric(a: string, b: string)
    requires Strings.IsDigits(a) && Strings.AllDigits(b)
    ensures IsNumeric(a + "." + b)
    ensures NumericValue(a + "." + b) == Decimal(Strings.DigitsValue(a + b), -|b|)
  {
    assert a + "." + b == a + ['.'] + b;
    PointBody(a, b);
    DigitLed(a + ['.'] + b);
  }

  /** `aex` with digit runs `a` and `x` is a number body worth `a × 10 ** x`. */
  lemma ExponentBody(a: string, x: string)
    requires Strings.IsDigits(a) && Strings.IsDigits(x)
    ensures IsNumberBody(a + ['e'] + x)
    ensures BodyValue(a + ['e'] + x) == Decimal(Strings.DigitsValue(a), Strings.DigitsValue(x))
  {
    var s := a + ['e'] + x;
    Joined(a, 'e', x);
    assert forall j :: 0 <= j < |a| ==> s[j] == a[j];
    assert s[|a|] == 'e';
    assert ExponentMark(s) == Some(|a|);
    assert s[..|a|] == a && s[|a| + 1..] == x;
    Strings.DigitsExclude(a, '.');
    assert Unsigned(x) == x && x[0] != '-';
  }

  /** `aex` with digit runs `a` and `x` is numeric, worth `a × 10 ** x`. */
  lemma ExponentNumeric(a: string, x: string)
    requires Strings.IsDigits(a) && Strings.IsDigits(x)
    ensures IsNumeric(a + "e" + x)
    ensures NumericValue(a + "e" + x) == Decimal(Strings.DigitsValue(a), Strings.DigitsValue(x))
  {
    assert a + "e" + x == a + ['e'] + x;
    ExponentBody(a, x);
    DigitLed(a + ['e'] + x);
  }
}

=== FILE: server.dfy ===
/**
 * The Server class: the request path split into segments once, when the
 * class is initialised, and read back by `page()` and `pageString()`.
 */
module ServerCore {
  import opened Optional
  import opened Strings
  import opened PhpValues
  import opened Constants
  import opened Paths

  /**
   * What `Server::initialize()` leaves behind, from the segments held before,
   * the request variables and the constants defined so far: the segments and
   * the constants afterwards.
   */
  function AfterInitialize(page0: seq<string>, server: map<string, string>, consts: map<string, Value>)
    : (seq<string>, map<string, Value>)
  {
    if "THIS_PATH" in consts then (page0, consts)
    else
      var page := if "PATH_INFO" in server && TrimChar(server["PATH_INFO"], '/') != ""
                  then Segments(server["PATH_INFO"]) else page0;
      var c := Define(consts, "THIS_PATH", Str(ConstText(consts, "BASE_PATH") + Paths.PageString(page)));
      (page, Define(c, "THIS_PATH_LIVE", Str(ConstText(c, "BASE_PATH_LIVE") + Paths.PageString(page))))
  }

  /** Once THIS_PATH is defined, initialising again changes nothing. */
  lemma InitializeOnce(page0: seq<string>, server: map<string, string>, consts: map<string, Value>)
    requires "THIS_PATH" in consts
    ensures AfterInitialize(page0, server, consts) == (page0, consts)
  {
  }

  /**
   * On a fresh class without THIS_PATH: the segments are those of PATH_INFO,
   * and THIS_PATH (and THIS_PATH_LIVE, when not defined before) is the base
   * path followed by the trimmed PATH_INFO and a `/`, or by nothing when
   * PATH_INFO is unset or only slashes. No other constant changes.
   */
  lemma InitializeDefines(server: map<string, string>, consts: map<string, Value>)
    requires "THIS_PATH" !in consts
    ensures var (page, c) := AfterInitialize([], server, consts);
      page == PathInfoSegments(server) &&
      "THIS_PATH" in c && c["THIS_PATH"] == Str(ConstText(consts, "BASE_PATH") + PathRest(server)) &&
      ("THIS_PATH_LIVE" !in consts ==>
         "THIS_PATH_LIVE" in c && c["THIS_PATH_LIVE"] == Str(ConstText(consts, "BASE_PATH_LIVE") + PathRest(server))) &&
      (forall n :: n in c && n != "THIS_PATH" && n != "THIS_PATH_LIVE" ==> n in consts && c[n] == consts[n])
  {
    PathInfoPageString(server);
  }

  class Server {
    /** `Server::$_page`. */
    var page: seq<string>

    /** The segments come from a trimmed path: none of them holds `/` and neither end is empty. */
    predicate Valid()
      reads this
    {
      WellFormed(page)
    }

    constructor ()
      ensures page == [] && Valid()
    {
      page := [];
    }

    /**
     * `Server::initialize()` over the request variables `server` and the
     * constants defined so far; the result is the constants afterwards.
     */
    method Initialize(server: map<string, string>, consts: map<string, Value>) returns (r: map<string, Value>)
      requires Valid()
      modifies this
      ensures Valid()
      ensures (page, r) == AfterInitialize(old(page), server, consts)
    {
      r := consts;
      if "THIS_PATH" !in consts {
        if "PATH_INFO" in server && TrimChar(server["PATH_INFO"], '/') != "" {
          page := Explode(TrimChar(server["PATH_INFO"], '/'), '/');
          SegmentsWellFormed(server["PATH_INFO"]);
        }
        var s := PageString();
        r := Define(r, "THIS_PATH", Str(ConstText(r, "BASE_PATH") + s));
        r := Define(r, "THIS_PATH_LIVE", Str(ConstText(r, "BASE_PATH_LIVE") + s));
      }
    }

    /** `Server::page($num)`; `None` is the default argument `false`. */
    function Page(num: Option<int>): (r: PageResult)
      reads this
      ensures num.None? ==> r == Whole(page)
      ensures num.Some? && 0 <= num.value < |page| ==> r == Part(page[num.value])
      ensures num.Some? && !(0 <= num.value < |page|) ==> r == NoPart
    {
      Select(page, num)
    }

    /**
     * `Server::pageString()`: empty when there are no segments, and otherwise a
     * path ending in `/` that splits back into exactly the segments.
     */
    function PageString(): (r: string)
      requires Valid()
      reads this
      ensures r == "" <==> page == []
      ensures r != "" ==> r[|r| - 1] == '/' && Segments(r) == page
    {
      if page == [] then ""
      else
        SegmentsOfPageString(page);
        Paths.PageString(page)
    }
  }
}

=== FILE: strings.dfy ===
/**
 * The handful of PHP string built-ins the bootstrap relies on, over `seq<char>`:
 * trimming, `explode`/`implode` on a one-character separator, `explode` on a
 * longer separator, `str_replace`, `ctype_digit`, the string-to-integer
 * conversion PHP applies in arithmetic and casts, and decimal rendering.
 */
module Strings {
  import opened Optional

  /** The characters `trim` strips when it is given no character list. */
  predicate IsTrimSpace(c: char) {
    c == ' ' || c == '\t' || c == '\n' || c == '\r' || c == '\0' || c as int == 11
  }

  /** The characters C's `isspace` accepts, skipped before a number. */
  predicate IsNumberSpace(c: char) {
    c == ' ' || c == '\t' || c == '\n' || c == '\r' || c as int == 11 || c as int == 12
  }

  predicate IsDigit(c: char) {
    '0' <= c <= '9'
  }

  function DigitValue(c: char): (d: nat)
    requires IsDigit(c)
    ensures d < 10
  {
    (c as int) - ('0' as int)
  }

  function DigitChar(d: nat): (c: char)
    requires d < 10
    ensures IsDigit(c) && DigitValue(c) == d
  {
    (('0' as int) + d) as char
  }

  /** `ctype_digit`: a non-empty string made only of decimal digits. */
  predicate IsDigits(s: string) {
    |s| > 0 && forall i :: 0 <= i < |s| ==> IsDigit(s[i])
  }

  /** `trim($s)` with the default character list. */
  function Trim(s: string): (r: string)
    ensures |r| <= |s|
    ensures r == [] || (!IsTrimSpace(r[0]) && !IsTrimSpace(r[|r| - 1]))
  {
    TrimRight(TrimLeft(s))
  }

  function TrimLeft(s: string): (r: string)
    ensures |r| <= |s| && r == s[|s| - |r|..]
    ensures r == [] || !IsTrimSpace(r[0])
  {
    if s != [] && IsTrimSpace(s[0]) then TrimLeft(s[1..]) else s
  }

  function TrimRight(s: string): (r: string)
    ensures |r| <= |s| && r == s[..|r|]
    ensures r == [] || !IsTrimSpace(r[|r| - 1])
    ensures s != [] && !IsTrimSpace(s[0]) ==> r != [] && r[0] == s[0]
  {
    if s != [] && IsTrimSpace(s[|s| - 1]) then TrimRight(s[..|s| - 1]) else s
  }

  /** `ltrim($s, c)` for one character `c`. */
  function LTrimChar(s: string, c: char): (r: string)
    ensures |r| <= |s| && r == s[|s| - |r|..]
    ensures r == [] || r[0] != c
    ensures forall i :: 0 <= i < |s| - |r| ==> s[i] == c
  {
    if s != [] && s[0] == c then LTrimChar(s[1..], c) else s
  }

  /** Trimming a string made only of `c` leaves nothing. */
  lemma {:induction false} LTrimCharAll(s: string, c: char)
    requires forall i :: 0 <= i < |s| ==> s[i] == c
    ensures LTrimChar(s, c) == []
  {
    if s != [] {
      LTrimCharAll(s[1..], c);
    }
  }

  /** `rtrim($s, c)` for one character `c`. */
  function RTrimChar(s: string, c: char): (r: string)
    ensures |r| <= |s| && r == s[..|r|]
    ensures r == [] || r[|r| - 1] != c
    ensures forall i :: |r| <= i < |s| ==> s[i] == c
  {
    if s != [] && s[|s| - 1] == c then RTrimChar(s[..|s| - 1], c) else s
  }

  /** `trim($s, c)` for one character `c`. */
  function TrimChar(s: string, c: char): (r: string)
    ensures |r| <= |s|
    ensures r == [] || (r[0] != c && r[|r| - 1] != c)
  {
    RTrimChar(LTrimChar(s, c), c)
  }

  /** `explode(c, $s)` for a one-character separator: the maximal pieces between separators. */
  function Explode(s: string, c: char): (parts: seq<string>)
    ensures |parts| >= 1
    ensures forall i, j :: 0 <= i < |parts| && 0 <= j < |parts[i]| ==> parts[i][j] != c
  {
    if s == [] then [[]]
    else
      var rest := Explode(s[1..], c);
      if s[0] == c then [[]] + rest
      else [[s[0]] + rest[0]] + rest[1..]
  }

  /** `implode(c, $parts)`. */
  function Implode(parts: seq<string>, c: char): (s: string)
    ensures parts == [] ==> s == []
  {
    if parts == [] then []
    else if |parts| == 1 then parts[0]
    else parts[0] + [c] + Implode(parts[1..], c)
  }

  /** Number of occurrences of `c` in `s`. */
  function Count(s: string, c: char): nat {
    if s == [] then 0 else (if s[0] == c then 1 else 0) + Count(s[1..], c)
  }

  /** Exploding and imploding on the same separator gives back the text. */
  lemma {:induction false} ImplodeExplode(s: string, c: char)
    ensures Implode(Explode(s, c), c) == s
  {
    if s != [] {
      ImplodeExplode(s[1..], c);
      var rest := Explode(s[1..], c);
      if s[0] == c {
        assert Explode(s, c) == [[]] + rest;
        assert ([[]] + rest)[1..] == rest;
      } else {
        var parts := Explode(s, c);
        assert parts == [[s[0]] + rest[0]] + rest[1..];
        if |rest| == 1 {
          assert parts == [[s[0]] + rest[0]];
        } else {
          assert parts[1..] == rest[1..];
          assert Implode(rest, c) == rest[0] + [c] + Implode(rest[1..], c);
        }
      }
    }
  }

  /** Each separator starts a new piece: there is one piece more than separators. */
  lemma {:induction false} ExplodeCount(s: string, c: char)
    ensures |Explode(s, c)| == Count(s, c) + 1
  {
    if s != [] {
      ExplodeCount(s[1..], c);
    }
  }

  /** Text without the separator explodes to itself alone. */
  lemma {:induction false} ExplodeNoSeparator(s: string, c: char)
    requires c !in s
    ensures Explode(s, c) == [s]
  {
    if s != [] {
      assert c !in s[1..] by {
        forall j | 0 <= j < |s[1..]| ensures s[1..][j] != c { assert s[1..][j] == s[j + 1]; }
      }
      ExplodeNoSeparator(s[1..], c);
      assert [s[0]] + s[1..] == s;
    }
  }

  /** A string of digits contains no other character. */
  lemma DigitsExclude(s: string, c: char)
    requires forall i :: 0 <= i < |s| ==> IsDigit(s[i])
    requires !IsDigit(c)
    ensures c !in s
  {
  }

  /** The first index of `c` in `s`, if any. */
  function IndexOf(s: string, c: char): (r: Option<nat>)
    ensures r.Some? ==> r.value < |s| && s[r.value] == c && c !in s[..r.value]
    ensures r.None? <==> c !in s
  {
    if s == [] then None
    else if s[0] == c then Some(0)
    else
      var t := IndexOf(s[1..], c);
      if t.None? then None
      else
        assert s[..t.value + 1] == [s[0]] + s[1..][..t.value];
        Some(t.value + 1)
  }

  /** The first occurrence is where `c` stands with none before it. */
  lemma {:induction false} IndexOfAt(s: string, c: char, i: nat)
    requires i < |s| && s[i] == c && c !in s[..i]
    ensures IndexOf(s, c) == Some(i)
  {
    if i > 0 {
      assert s[0] in s[..i];
      assert s[1..][..i - 1] == s[1..i];
      assert forall x :: x in s[1..i] ==> x in s[..i];
      IndexOfAt(s[1..], c, i - 1);
    }
  }

  /** Explode splits at the first separator: the first piece is the text before it. */
  lemma {:induction false} ExplodeFirst(s: string, c: char, i: nat)
    requires IndexOf(s, c) == Some(i)
    ensures Explode(s, c) == [s[..i]] + Explode(s[i + 1..], c)
  {
    if s[0] != c {
      ExplodeFirst(s[1..], c, i - 1);
      var rest := Explode(s[1..], c);
      assert rest == [s[1..][..i - 1]] + Explode(s[1..][i..], c);
      assert s[1..][i..] == s[i + 1..];
      assert [s[0]] + s[1..][..i - 1] == s[..i];
    }
  }

  /** True iff `p` is a prefix of `s` (PHP: `p === substr($s, 0, strlen($p))`). */
  predicate IsPrefix(p: string, s: string) {
    |p| <= |s| && s[..|p|] == p
  }

  /** The first index at which `pat` occurs in `s`. */
  function Find(s: string, pat: string): (r: Option<nat>)
    requires |pat| > 0
    ensures r.Some? ==> r.value + |pat| <= |s| && s[r.value..r.value + |pat|] == pat
    ensures r.Some? ==> forall j :: 0 <= j < r.value ==> !IsPrefix(pat, s[j..])
    ensures r.None? ==> forall j :: 0 <= j <= |s| ==> !IsPrefix(pat, s[j..])
    decreases |s|
  {
    if |s| < |pat| then None
    else if s[..|pat|] == pat then Some(0)
    else
      var t := Find(s[1..], pat);
      TailSlices(s);
      assert !IsPrefix(pat, s[0..]) by { assert s[0..] == s; }
      if t.None? then None
      else
        TailSlice(s, t.value, |pat|);
        Some(t.value + 1)
  }

  /** A slice of the tail is the slice one further along in the string. */
  lemma TailSlice(s: string, i: nat, n: nat)
    requires s != [] && i + n <= |s| - 1
    ensures s[i + 1..i + 1 + n] == s[1..][i..i + n]
  {
    var a, b := s[i + 1..i + 1 + n], s[1..][i..i + n];
    forall k | 0 <= k < n
      ensures a[k] == b[k]
    {
    }
  }

  /** The suffixes of a non-empty string past its first character are those of its tail. */
  lemma TailSlices(s: string)
    requires s != []
    ensures forall j :: 1 <= j <= |s| ==> s[j..] == s[1..][j - 1..]
  {
  }

  /** `explode($pat, $s)` for a separator of any positive length. */
  function ExplodeStr(s: string, pat: string): (parts: seq<string>)
    requires |pat| > 0
    ensures |parts| >= 1
    ensures Find(s, pat).None? ==> parts == [s]
    ensures Find(s, pat).Some? ==> parts[0] == s[..Find(s, pat).value] && |parts| >= 2
    decreases |s|
  {
    match Find(s, pat)
    case None => [s]
    case Some(i) => [s[..i]] + ExplodeStr(s[i + |pat|..], pat)
  }

  /** `str_replace($pat, $rep, $s)`: every occurrence, scanning left to right without overlap. */
  function ReplaceAll(s: string, pat: string, rep: string): string
    requires |pat| > 0
    decreases |s|
  {
    if |s| < |pat| then s
    else if s[..|pat|] == pat then rep + ReplaceAll(s[|pat|..], pat, rep)
    else [s[0]] + ReplaceAll(s[1..], pat, rep)
  }

  /** `str_replace($c, $rep, $s)` for a one-character pattern. */
  function ReplaceChar(s: string, c: char, rep: string): (r: string)
    ensures c !in s ==> r == s
    ensures c !in rep ==> c !in r
    ensures forall x :: x in r ==> (x in s && x != c) || x in rep
  {
    if s == [] then []
    else (if s[0] == c then rep else [s[0]]) + ReplaceChar(s[1..], c, rep)
  }

  /** ASCII lower-casing, as `strtolower` does byte by byte. */
  function LowerChar(c: char): char {
    if 'A' <= c <= 'Z' then ((c as int) + 32) as char else c
  }

  function Lower(s: string): (r: string)
    ensures |r| == |s| && forall i :: 0 <= i < |s| ==> r[i] == LowerChar(s[i])
  {
    if s == [] then [] else [LowerChar(s[0])] + Lower(s[1..])
  }

  /** The value of a string of decimal digits. */
  function DigitsValue(s: string): (n: nat)
    requires forall i :: 0 <= i < |s| ==> IsDigit(s[i])
    decreases |s|
  {
    if s == [] then 0 else DigitsValue(s[..|s| - 1]) * 10 + DigitValue(s[|s| - 1])
  }

  /** The longest prefix of `s` made of digits. */
  function LeadingDigits(s: string): (d: string)
    ensures IsPrefix(d, s)
    ensures forall i :: 0 <= i < |d| ==> IsDigit(s[i])
    ensures |d| < |s| ==> !IsDigit(s[|d|])
  {
    if s != [] && IsDigit(s[0]) then [s[0]] + LeadingDigits(s[1..]) else []
  }

  function SkipNumberSpace(s: string): (r: string)
    ensures |r| <= |s|
  {
    if s != [] && IsNumberSpace(s[0]) then SkipNumberSpace(s[1..]) else s
  }

  /** Skipping white space keeps every character that is not white space. */
  lemma {:induction false} SkipNumberSpaceKeeps(s: string, c: char)
    requires c in s && !IsNumberSpace(c)
    ensures c in SkipNumberSpace(s)
  {
    if IsNumberSpace(s[0]) {
      assert c != s[0];
      assert c in s[1..];
      SkipNumberSpaceKeeps(s[1..], c);
    }
  }

  /**
   * PHP's reading of a string as an integer (`(int)$s`, `%u`, arithmetic):
   * leading white space, an optional sign, then as many digits as there are;
   * a string without leading digits reads as 0.
   */
  function LeadingInt(s: string): int {
    var t := SkipNumberSpace(s);
    if t != [] && t[0] == '-' then -(DigitsValue(LeadingDigits(t[1..])) as int)
    else if t != [] && t[0] == '+' then DigitsValue(LeadingDigits(t[1..]))
    else DigitsValue(LeadingDigits(t))
  }

  /** Decimal rendering of a natural number, without leading zeros. */
  function NatToDecimal(n: nat): (s: string)
    ensures |s| > 0 && forall i :: 0 <= i < |s| ==> IsDigit(s[i])
    decreases n
  {
    if n < 10 then [DigitChar(n)] else NatToDecimal(n / 10) + [DigitChar(n % 10)]
  }

  /** Decimal rendering of an integer, as PHP converts an int to a string. */
  function IntToDecimal(n: int): (s: string)
    ensures |s| > 0
  {
    if n < 0 then "-" + NatToDecimal(-n) else NatToDecimal(n)
  }

  /** Rendering a number and reading it back gives the number. */
  lemma {:induction false} DigitsValueOfDecimal(n: nat)
    ensures DigitsValue(NatToDecimal(n)) == n
    decreases n
  {
    if n >= 10 {
      DigitsValueOfDecimal(n / 10);
      var s := NatToDecimal(n);
      assert s[..|s| - 1] == NatToDecimal(n / 10);
    }
  }

  /** Leading digits stop at the first non-digit. */
  lemma {:induction false} LeadingDigitsOfAppend(d: string, t: string)
    requires forall i :: 0 <= i < |d| ==> IsDigit(d[i])
    requires t == [] || !IsDigit(t[0])
    ensures LeadingDigits(d + t) == d
    decreases |d|
  {
    if d != [] {
      assert (d + t)[1..] == d[1..] + t;
      LeadingDigitsOfAppend(d[1..], t);
    } else {
      assert d + t == t;
    }
  }

  /** Text that starts with a digit is read by its leading digits. */
  lemma LeadingIntUnsigned(s: string)
    requires s != [] && IsDigit(s[0])
    ensures LeadingInt(s) == DigitsValue(LeadingDigits(s))
  {
    assert !IsNumberSpace(s[0]) && s[0] != '-' && s[0] != '+';
    assert SkipNumberSpace(s) == s;
  }

  /** Text that starts with a minus sign is read as the negated leading digits after it. */
  lemma LeadingIntNegative(s: string)
    requires s != [] && s[0] == '-'
    ensures LeadingInt(s) == -(DigitsValue(LeadingDigits(s[1..])) as int)
  {
    assert !IsNumberSpace(s[0]);
    assert SkipNumberSpace(s) == s;
  }

  /** A rendered integer followed by a non-digit is read back as that integer. */
  lemma LeadingIntOfDecimal(n: int, suffix: string)
    requires suffix == [] || !IsDigit(suffix[0])
    ensures LeadingInt(IntToDecimal(n) + suffix) == n
  {
    if n < 0 {
      assert IntToDecimal(n) == "-" + NatToDecimal(-n);
      DigitsValueOfDecimal(-n);
      NegativeDigits(NatToDecimal(-n), suffix);
    } else {
      assert IntToDecimal(n) == NatToDecimal(n);
      DigitsValueOfDecimal(n);
      UnsignedDigits(NatToDecimal(n), suffix);
    }
  }

  /** Digits followed by a non-digit read as the digits' value. */
  lemma UnsignedDigits(d: string, suffix: string)
    requires IsDigits(d)
    requires suffix == [] || !IsDigit(suffix[0])
    ensures LeadingInt(d + suffix) == DigitsValue(d)
  {
    LeadingDigitsOfAppend(d, suffix);
    assert (d + suffix)[0] == d[0];
    LeadingIntUnsigned(d + suffix);
  }

  /** `-`, digits, then a non-digit, read as the digits' value negated. */
  lemma NegativeDigits(d: string, suffix: string)
    requires IsDigits(d)
    requires suffix == [] || !IsDigit(suffix[0])
    ensures LeadingInt("-" + d + suffix) == -(DigitsValue(d) as int)
  {
    var s := "-" + d + suffix;
    LeadingDigitsOfAppend(d, suffix);
    assert s[1..] == d + suffix;
    LeadingIntNegative(s);
  }

  /** Imploding pieces free of the separator and exploding again gives the pieces back. */
  lemma {:induction false} ExplodeImplode(parts: seq<string>, c: char)
    requires |parts| >= 1
    requires forall i :: 0 <= i < |parts| ==> c !in parts[i]
    ensures Explode(Implode(parts, c), c) == parts
    decreases |parts|
  {
    if |parts| == 1 {
      ExplodeNoSeparator(parts[0], c);
    } else {
      var rest := Implode(parts[1..], c);
      ExplodeImplode(parts[1..], c);
      var s := parts[0] + [c] + rest;
      assert s[..|parts[0]|] == parts[0];
      IndexOfAt(s, c, |parts[0]|);
      ExplodeFirst(s, c, |parts[0]|);
      assert s[..|parts[0]|] == parts[0];
      assert s[|parts[0]| + 1..] == rest;
      assert [parts[0]] + parts[1..] == parts;
    }
  }

  /** Digits that do not start with `0` are worth at least one. */
  lemma {:induction false} DigitsValuePositive(s: string)
    requires IsDigits(s) && s[0] != '0'
    ensures DigitsValue(s) > 0
    decreases |s|
  {
    if |s| > 1 {
      DigitsValuePositive(s[..|s| - 1]);
    }
  }

  /** Digits without a leading zero are exactly the decimal rendering of their value. */
  lemma {:induction false} DecimalOfDigits(s: string)
    requires IsDigits(s) && (|s| == 1 || s[0] != '0')
    ensures NatToDecimal(DigitsValue(s)) == s
    decreases |s|
  {
    var n := DigitsValue(s);
    if |s| == 1 {
      assert DigitChar(DigitValue(s[0])) == s[0];
    } else {
      var p := s[..|s| - 1];
      DigitsValuePositive(p);
      DecimalOfDigits(p);
      var d := DigitValue(s[|s| - 1]);
      assert n == DigitsValue(p) * 10 + d;
      assert n / 10 == DigitsValue(p) && n % 10 == d;
      assert DigitChar(d) == s[|s| - 1];
      assert p + [s[|s| - 1]] == s;
    }
  }

  /** A decimal rendering starts with `0` only for zero itself. */
  lemma {:induction false} DecimalNoLeadingZero(n: nat)
    ensures NatToDecimal(n)[0] == '0' ==> n == 0
    ensures n < 10 <==> |NatToDecimal(n)| == 1
    decreases n
  {
    if n >= 10 {
      DecimalNoLeadingZero(n / 10);
    }
  }

  /** Only decimal digits, possibly none (the digit runs around a decimal point). */
  predicate AllDigits(s: string) {
    forall i :: 0 <= i < |s| ==> IsDigit(s[i])
  }

  /** `10 ** n` as a natural number. */
  function Pow10(n: nat): (r: nat)
    ensures r >= 1
  {
    if n == 0 then 1 else 10 * Pow10(n - 1)
  }

  /** Occurrences add up over a concatenation. */
  lemma {:induction false} CountAppend(a: string, b: string, c: char)
    ensures Count(a + b, c) == Count(a, c) + Count(b, c)
  {
    if a != [] {
      assert (a + b)[1..] == a[1..] + b;
      CountAppend(a[1..], b, c);
    } else {
      assert a + b == b;
    }
  }

  /** Splitting at an index: the part before, the character there and the part after. */
  lemma CountAround(s: string, i: nat, c: char)
    requires i < |s|
    ensures Count(s, c) == Count(s[..i], c) + (if s[i] == c then 1 else 0) + Count(s[i + 1..], c)
  {
    assert s == s[..i] + ([s[i]] + s[i + 1..]);
    CountAppend(s[..i], [s[i]] + s[i + 1..], c);
    assert ([s[i]] + s[i + 1..])[1..] == s[i + 1..];
  }

  /** Digits hold no occurrence of a non-digit. */
  lemma {:induction false} CountInDigits(s: string, c: char)
    requires AllDigits(s) && !IsDigit(c)
    ensures Count(s, c) == 0
  {
    if s != [] {
      CountInDigits(s[1..], c);
    }
  }

  /** Skipping leading white space keeps every other character. */
  lemma {:induction false} CountSkipNumberSpace(s: string, c: char)
    requires !IsNumberSpace(c)
    ensures Count(SkipNumberSpace(s), c) == Count(s, c)
  {
    if s != [] && IsNumberSpace(s[0]) {
      CountSkipNumberSpace(s[1..], c);
    }
  }
}

=== FILE: system.dfy ===
/**
 * The System class: the list of autoload search paths (a static array that
 * the configuration code reorders), the class autoloader that walks it, and
 * the colour table of the debug dumper.
 */
module SystemCore {
  import opened Optional
  import opened Strings
  import opened PhpValues

  /** `sprintf('<span style="color: %s;">%s</span>', $colour, $content)`. */
  function Span(colour: string, content: string): (r: string)
    ensures IsPrefix(SpanOpen(colour), r)
    ensures r[|SpanOpen(colour)|..] == content + SpanClose
  {
    SpanOpen(colour) + content + SpanClose
  }

  function SpanOpen(colour: string): string {
    "<span style=\"color: " + colour + ";\">"
  }

  const SpanClose: string := "</span>"

  /** The content of a span: what lies between its opening and closing tag. */
  function SpanContent(colour: string, s: string): string {
    var n := |SpanOpen(colour)|;
    if n + |SpanClose| <= |s| then s[n..|s| - |SpanClose|] else ""
  }

  /** A span holds its content verbatim: it can be read back unchanged. */
  lemma SpanRoundTrip(colour: string, content: string)
    ensures SpanContent(colour, Span(colour, content)) == content
  {
    var s := Span(colour, content);
    var n := |SpanOpen(colour)|;
    assert s[n..|s| - |SpanClose|] == content;
  }

  /** `System::colorize($content, $color, $background)`. */
  function Colorize(content: string, color: string, background: string): string {
    if color == "gray" then Span("gray", content)
    else if color == "string" then Span("green", content)
    else if color == "int" then Span("red", content)
    else if color == "lightgray" then
      (if background == "black" then Span("darkgray", content) else Span("lightgray", content))
    else if color == "bool" then Span("purple", content)
    else if color == "float" then Span("dodgerblue", content)
    else if color == "error" then Span("deeppink", content)
    else if color == "recursion" then Span("darkorange", content)
    else if background == "black" then Span("white", content)
    else content
  }

  /** The colours whose span does not depend on the background. */
  const Palette: map<string, string> := map[
    "gray" := "gray", "string" := "green", "int" := "red", "bool" := "purple",
    "float" := "dodgerblue", "error" := "deeppink", "recursion" := "darkorange"]

  /** Each listed type is shown in its own colour whatever the background. */
  lemma ColorizePalette(content: string, color: string, background: string)
    requires color in Palette
    ensures Colorize(content, color, background) == Span(Palette[color], content)
  {
  }

  /** `lightgray` turns darker on a black background. */
  lemma ColorizeLightgray(content: string, background: string)
    ensures Colorize(content, "lightgray", background)
         == Span(if background == "black" then "darkgray" else "lightgray", content)
  {
  }

  /** Any other colour: a white span on black, the bare content elsewhere. */
  lemma ColorizeUnknown(content: string, color: string, background: string)
    requires color !in Palette && color != "lightgray"
    ensures background == "black" ==> Colorize(content, color, background) == Span("white", content)
    ensures background != "black" ==> Colorize(content, color, background) == content
  {
  }

  /** Whatever the colour, the content can be read back from the output. */
  lemma ColorizeKeepsContent(content: string, color: string, background: string)
    ensures exists colour :: Colorize(content, color, background) == Span(colour, content)
                          || Colorize(content, color, background) == content
  {
    if color in Palette {
      assert Colorize(content, color, background) == Span(Palette[color], content);
    } else if color == "lightgray" {
      ColorizeLightgray(content, background);
    } else {
      assert Colorize(content, color, background) == Span("white", content)
          || Colorize(content, color, background) == content;
    }
  }

  /**
   * The file the autoloader tries under one search path: the path, `lib`, the
   * separator, the lower-cased class name with each namespace `\` turned into
   * the separator, and `.php`.
   */
  function Candidate(prefix: Value, name: string, sep: char): string {
    ToText(prefix) + "lib" + [sep] + ReplaceChar(Lower(name), '\\', [sep]) + ".php"
  }

  /** Replacing a character by another is splitting on it and joining with the other. */
  lemma {:induction false} ReplaceIsRejoin(s: string, c: char, d: char)
    ensures ReplaceChar(s, c, [d]) == Implode(Explode(s, c), d)
    decreases |s|
  {
    if s != [] {
      ReplaceIsRejoin(s[1..], c, d);
      var rest := Explode(s[1..], c);
      if |rest| > 1 {
        assert Implode(rest, d) == rest[0] + [d] + Implode(rest[1..], d);
      }
    }
  }

  /**
   * A candidate names the file of the class under `lib`: one directory level
   * per namespace segment of the lower-cased name.
   */
  lemma CandidateSegments(prefix: Value, name: string, sep: char)
    ensures Candidate(prefix, name, sep)
         == ToText(prefix) + "lib" + [sep] + Implode(Explode(Lower(name), '\\'), sep) + ".php"
  {
    ReplaceIsRejoin(Lower(name), '\\', sep);
  }

  /**
   * The position of the first search path whose candidate file exists
   * (`fileExists` stands for `file_exists`), or none.
   */
  function FirstExisting(paths: seq<Value>, name: string, sep: char, fileExists: string -> bool): (r: Option<nat>)
    ensures r.Some? ==> r.value < |paths| && fileExists(Candidate(paths[r.value], name, sep))
    ensures r.Some? ==> forall j :: 0 <= j < r.value ==> !fileExists(Candidate(paths[j], name, sep))
    ensures r.None? ==> forall j :: 0 <= j < |paths| ==> !fileExists(Candidate(paths[j], name, sep))
  {
    if paths == [] then None
    else if fileExists(Candidate(paths[0], name, sep)) then Some(0)
    else
      match FirstExisting(paths[1..], name, sep, fileExists)
      case None => None
      case Some(i) => Some(i + 1)
  }

  /** A path whose candidate exists, after paths whose candidates do not, is the first one. */
  lemma FirstExistingAt(paths: seq<Value>, name: string, sep: char, fileExists: string -> bool, m: nat)
    requires m < |paths| && fileExists(Candidate(paths[m], name, sep))
    requires forall j :: 0 <= j < m ==> !fileExists(Candidate(paths[j], name, sep))
    ensures FirstExisting(paths, name, sep, fileExists) == Some(m)
  {
  }

  /** The file `autoload` loads, if any. */
  function LoadedFile(paths: seq<Value>, name: string, sep: char, fileExists: string -> bool): Option<string> {
    match FirstExisting(paths, name, sep, fileExists)
    case None => None
    case Some(i) => Some(Candidate(paths[i], name, sep))
  }

  class System {
    /** `System::$autoloadPrependPaths`. */
    var autoloadPrependPaths: seq<Value>

    /** The class is loaded with the site directory searched before the core directory. */
    constructor (siteDir: string, coreDir: string)
      ensures autoloadPrependPaths == [Str(siteDir), Str(coreDir)]
    {
      autoloadPrependPaths := [Str(siteDir), Str(coreDir)];
    }

    /**
     * `System::autoload($name)`: tries the search paths in order and requires
     * the first candidate that exists; the result is the file required.
     */
    method Autoload(name: string, sep: char, fileExists: string -> bool) returns (loaded: Option<string>)
      ensures loaded == LoadedFile(autoloadPrependPaths, name, sep, fileExists)
    {
      var i := 0;
      while i < |autoloadPrependPaths|
        invariant 0 <= i <= |autoloadPrependPaths|
        invariant forall j :: 0 <= j < i ==> !fileExists(Candidate(autoloadPrependPaths[j], name, sep))
      {
        var file := Candidate(autoloadPrependPaths[i], name, sep);
        if fileExists(file) {
          return Some(file);
        }
        i := i + 1;
      }
      return None;
    }
  }

  /** With the initial search paths, a class present in the site directory hides the core's copy. */
  lemma SiteBeforeCore(siteDir: string, coreDir: string, name: string, sep: char, fileExists: string -> bool)
    requires fileExists(Candidate(Str(siteDir), name, sep))
    ensures LoadedFile([Str(siteDir), Str(coreDir)], name, sep, fileExists) == Some(Candidate(Str(siteDir), name, sep))
  {
  }
}
